=== FILE: README.md ===
# Raster Foundry plugin for Raster Vision, modelled in Dafny

This project models the parts of the Raster Foundry / Raster Vision plugin
that are pure, sequential logic:

- the immutable property builder;
- how the label-source, label-store, evaluator and raster-source
  configurations are encoded into a `custom_config` map and read back;
- the class maps (label id to class id, class id to label id, and the
  inversion the label store does before saving);
- the conversions between Raster Foundry annotations and Raster Vision
  features, in both directions;
- the two pagination loops, over annotations and over scenes, and the
  selection of ingested scene locations.

Every JSON document, protobuf `Struct` entry and Python object attribute is a
`Values.Value`, an immutable tree. Python's raising operations return a
`Values.Result`, carrying the exception kind the source would raise
(`KeyError`, `TypeError`, `IndexError`, `ValueError`, `AttributeError`, or
`HttpError` for `raise_for_status`).

HTTP is not modelled as calls. Each request becomes a `RasterFoundry.Request`
value, and each answer is an input: the n-th page's response is element n of
a sequence. Coordinate reprojection, `unquote` and the host framework's base
`from_proto` are function parameters. Parsing a CRS from its `init` string is
a fixed function, `Geo.CrsFromInit`, which accepts `epsg:` followed by
digits. The order in
which a Python dict is iterated is an explicit sequence of its keys.

Modules follow the source's files:

| module | file |
|---|---|
| `Wrappers`, `Geo`, `Values` | `values.dfy`: results, CRS and affine values, JSON values |
| `ImmutableBuilder` | `immutable_builder.dfy` |
| `ConfigCodec` | `config_codec.dfy`: the `custom_config` encoding shared by the configurations |
| `LabelSourceConfig`, `LabelStoreConfig`, `EvaluatorConfig`, `RasterSourceConfig` | one file each |
| `ClassMaps` | `class_maps.dfy`: the three class-map comprehensions and the inversion |
| `Converters` | `converters.dfy` |
| `LabelSource`, `LabelStore` | the annotation-group label source and store |
| `RasterFoundry` | `raster_foundry.dfy`: the HTTP helpers and the `get_labels` loop |
| `RfLayerRasterSource` | `rf_layer_raster_source.dfy`: the `get_rf_scenes` loop and the scene URIs |
| `PostExperiments` | `post_experiments.dfy`: the pure parts of the experiment-posting example |

Source paths below are relative to the repository root.

## Model

| member | source | states |
|---|---|---|
| ImmutableBuilder.WithProperty | src/rf_raster_vision_plugin/immutable_builder.py:10-13 | The copy reads `value` under the given name. Every other name, instance or class attribute, reads as in the receiver, and the class is kept. The receiver is a value, so it is never changed. |
| ImmutableBuilder.WithPropertyLastWriteWins | src/rf_raster_vision_plugin/immutable_builder.py:10-13 | Setting the same property twice gives the builder that the second value alone gives. |
| ImmutableBuilder.WithPropertyCommutes | src/rf_raster_vision_plugin/immutable_builder.py:10-13 | Setting two different properties gives the same builder in either order. |
| ImmutableBuilder.Config | src/rf_raster_vision_plugin/immutable_builder.py:15-21 | A name is in `config` exactly when it is a declared property whose `getattr(..., None)` is not `None`. Each entry is the builder's current value. |
| ImmutableBuilder.ConfigAfterWithProperty | src/rf_raster_vision_plugin/immutable_builder.py:10-21 | After `with_property`, `config` adds or replaces the entry when the name is declared and the value is not `None`, and drops it otherwise. Every other entry is unchanged. |
| ImmutableBuilder.SharedBaseBuilder | src/rf_raster_vision_plugin/immutable_builder.py:10-21 | Two builders derived from one base by setting the same property agree on every other `config` entry, and so does the base. |
| ImmutableBuilder.ConfigOfAssignedBuilder | src/rf_raster_vision_plugin/immutable_builder.py:15-21 | A builder holding an attribute map for exactly its declared properties projects the non-`None` part of that map. |
| Geo.ToEpsg | src/rf_raster_vision_plugin/label_source/config.py:70 | `to_epsg()` gives a code exactly for a CRS that has one, and that code. |
| Geo.Decimal | src/rf_raster_vision_plugin/label_source/config.py:70 | The `{}` rendering of a code is a non-empty string of decimal digits. |
| Geo.DecimalRoundTrip | src/rf_raster_vision_plugin/label_source/config.py:70 | Reading the rendered digits back gives the code. |
| Geo.EpsgInit | src/rf_raster_vision_plugin/label_source/config.py:70 | `image_crs` is `epsg:` followed by the code, or `epsg:None` when the CRS has no code. |
| Geo.CrsFromInit | src/rf_raster_vision_plugin/label_source/config.py:123 | `CRS({'init': s})`, as modelled, accepts exactly `epsg:` followed by digits, and gives the EPSG CRS with that code. |
| Geo.CrsInitRoundTrip | src/rf_raster_vision_plugin/label_source/config.py:123 | Parsing the written `image_crs` gives the original CRS when it has a code and fails otherwise. |
| Geo.Coefficients | src/rf_raster_vision_plugin/label_source/config.py:71 | The written transform is the 6-list `a, b, c, d, e, f` in that order. |
| Geo.AffineFromCoefficients | src/rf_raster_vision_plugin/label_source/config.py:122 | `Affine(*xs)` succeeds exactly on six to nine numbers whose part after the sixth is a prefix of the default third row `0, 0, 1`. Its coefficients are the first six numbers. |
| Geo.AffineFromMatrix | src/rf_raster_vision_plugin/label_source/config.py:122 | A transform's full 3x3 matrix is also accepted and gives the same transform, while a seventh number other than 0 is rejected. |
| Geo.CoefficientsRoundTrip | src/rf_raster_vision_plugin/label_source/config.py:122 | Rebuilding an affine transform from its written list gives the same transform. |
| ConfigCodec.EncodeTransformer | src/rf_raster_vision_plugin/label_source/config.py:67-71 | A transformer becomes exactly the keys `map_crs`, `image_crs` and `transform`, holding the map CRS, the `epsg:` string and the six coefficients in order. |
| ConfigCodec.Numbers | src/rf_raster_vision_plugin/label_source/config.py:122 | The `transform` list is read as numbers exactly when every element is an int, a float or a bool (which counts as 1 or 0), keeping length and order. Any other element raises `TypeError`. |
| ConfigCodec.DecodeTransformer | src/rf_raster_vision_plugin/label_source/config.py:120-124 | `with_crs_transformer_from_msg` succeeds exactly when `transform` is a list of six to nine numbers whose part after the sixth starts the row `0, 0, 1`, `image_crs` is an `epsg:` string the CRS parser accepts, and `map_crs` is a string. The transformer then has the first six numbers, the parsed CRS and that string. A missing `transform` raises `ValueError`, and a `transform` that is not a list, or has the wrong length, raises `TypeError`. |
| ConfigCodec.TransformerRoundTrip | src/rf_raster_vision_plugin/label_source/config.py:120-124 | Any `custom_config` that agrees with a transformer's three keys decodes to that transformer exactly when its image CRS has an EPSG code. |
| ConfigCodec.EncodeStruct | src/rf_raster_vision_plugin/label_source/config.py:63-71 | The `to_proto` loop succeeds exactly when every property is an attribute, the transformer (if declared) is one, and every other property is a value a `Struct` can hold, so not a transformer and not a list or dict containing one. A value the `Struct` cannot hold raises `ValueError`. Each other property is written under its own name, and the transformer is replaced by its three keys. |
| ConfigCodec.EncodePlain | src/rf_raster_vision_plugin/evaluate/config.py:55-59 | When every property is present and none is the transformer, the loop fails only with `ValueError` on a value a `Struct` cannot hold. Otherwise it writes exactly the properties, each holding its own value. |
| LabelSourceConfig.ToProto | src/rf_raster_vision_plugin/label_source/config.py:61-74 | Succeeds exactly when the configured transformer is one and the six plain properties are values a `Struct` can hold. Writes exactly nine keys: the six plain properties, each holding the configuration's value (`source_type` always `RF_ANNOTATION_GROUP_LABEL_SOURCE`), and the transformer's three keys. |
| LabelSourceConfig.CreateSource | src/rf_raster_vision_plugin/label_source/config.py:46-56 | The label source receives the six fields in declaration order, plus its default tile host. |
| LabelSourceConfig.NewBuilder | src/rf_raster_vision_plugin/label_source/config.py:90-92 | A fresh builder has the staging `rf_api_host`. |
| LabelSourceConfig.NewBuilderConfig | src/rf_raster_vision_plugin/label_source/config.py:77-92 | A fresh builder's `config` is the staging host plus `source_type`, which comes from the class attribute. |
| LabelSourceConfig.SettersCoverProperties | src/rf_raster_vision_plugin/label_source/config.py:105-130 | Every declared property has exactly one `with_*` setter. |
| LabelSourceConfig.With | src/rf_raster_vision_plugin/label_source/config.py:105-130 | Each `with_*` sets its own property and leaves every other name unchanged. |
| LabelSourceConfig.Assign | src/rf_raster_vision_plugin/label_source/config.py:94-103 | The setter chain of `from_proto` stores each read entry, and the decoded transformer, under its property. |
| LabelSourceConfig.FromProto | src/rf_raster_vision_plugin/label_source/config.py:94-103 | Succeeds exactly when the six plain keys are present and the transformer decodes. Its result is the setter chain applied to what was read. |
| LabelSourceConfig.ProtoRoundTripSucceeds | src/rf_raster_vision_plugin/label_source/config.py:61-103 | With a transformer configured, `to_proto` succeeds exactly when the plain properties are values a `Struct` can hold, and reading back what it wrote then succeeds exactly when the image CRS has an EPSG code. |
| LabelSourceConfig.FromProtoOfToProto | src/rf_raster_vision_plugin/label_source/config.py:61-103 | When the plain properties are values a `Struct` can hold, the read-back assigns the written entries and the configuration's own transformer. |
| LabelSourceConfig.AssignedAttributes | src/rf_raster_vision_plugin/label_source/config.py:94-103 | Entries agreeing with a configuration's attributes make every setter store that attribute. |
| LabelSourceConfig.ProtoRoundTripAttributes | src/rf_raster_vision_plugin/label_source/config.py:61-103 | After a round trip of a configuration whose plain properties a `Struct` can hold, every property holds the configuration's value. |
| LabelSourceConfig.ProtoRoundTrip | src/rf_raster_vision_plugin/label_source/config.py:61-103 | When the plain properties are values a `Struct` can hold, a round trip into any builder of this class leaves `config` equal to the configuration's non-`None` attributes. |
| LabelStoreConfig.ToProto | src/rf_raster_vision_plugin/label_store/config.py:76-88 | Succeeds exactly when the transformer is one and the other properties are values a `Struct` can hold. Writes exactly ten keys: the six properties read back (`class_map` included) with the configuration's values, `store_type` equal to `RF_ANNOTATION_GROUP_LABEL_STORE`, and the transformer's three keys. |
| LabelStoreConfig.CreateStore | src/rf_raster_vision_plugin/label_store/config.py:53-64 | The store receives the seven fields in declaration order. |
| LabelStoreConfig.NewBuilder | src/rf_raster_vision_plugin/label_store/config.py:105-107 | A fresh builder has the staging `rf_api_host`. |
| LabelStoreConfig.NewBuilderConfig | src/rf_raster_vision_plugin/label_store/config.py:91-107 | A fresh builder's `config` is the staging host plus `store_type`, which comes from the class attribute. |
| LabelStoreConfig.SettersCoverProperties | src/rf_raster_vision_plugin/label_store/config.py:120-148 | Every declared property has exactly one `with_*` setter. |
| LabelStoreConfig.With | src/rf_raster_vision_plugin/label_store/config.py:120-148 | Each `with_*` sets its own property and leaves every other name unchanged. |
| LabelStoreConfig.Assign | src/rf_raster_vision_plugin/label_store/config.py:109-118 | The setter chain stores each read entry and the transformer. `store_type` keeps whatever the builder had. |
| LabelStoreConfig.FromProto | src/rf_raster_vision_plugin/label_store/config.py:109-118 | Succeeds exactly when the six read keys are present and the transformer decodes. `store_type` is not read. |
| LabelStoreConfig.ProtoRoundTripSucceeds | src/rf_raster_vision_plugin/label_store/config.py:76-118 | With a transformer configured, `to_proto` succeeds exactly when the plain properties are values a `Struct` can hold, and reading back what it wrote then succeeds exactly when the image CRS has an EPSG code. |
| LabelStoreConfig.FromProtoOfToProto | src/rf_raster_vision_plugin/label_store/config.py:76-118 | When the plain properties are values a `Struct` can hold, the read-back assigns the written entries and the configuration's own transformer. |
| LabelStoreConfig.AssignedAttributes | src/rf_raster_vision_plugin/label_store/config.py:109-118 | On a builder of this class with no `store_type` of its own, every property ends up holding the configuration's attribute. `store_type` gets there through the class attribute. |
| LabelStoreConfig.ProtoRoundTripAttributes | src/rf_raster_vision_plugin/label_store/config.py:76-118 | After a round trip of a configuration whose plain properties a `Struct` can hold, every declared property holds the configuration's value. |
| LabelStoreConfig.ProtoRoundTrip | src/rf_raster_vision_plugin/label_store/config.py:76-118 | After a round trip of a configuration whose plain properties a `Struct` can hold, `config` is the configuration's non-`None` attributes, even though `store_type` was never read back. |
| EvaluatorConfig.ToProto | src/rf_raster_vision_plugin/evaluate/config.py:55-59 | Succeeds exactly when the seven properties are values a `Struct` can hold, and raises `ValueError` otherwise. The message has no top-level fields, and its `custom_config` holds exactly the seven properties with the configuration's values. |
| EvaluatorConfig.CreateEvaluator | src/rf_raster_vision_plugin/evaluate/config.py:44-53 | The evaluator receives all seven fields in order. |
| EvaluatorConfig.NewBuilder | src/rf_raster_vision_plugin/evaluate/config.py:77-80 | A fresh builder has the staging Raster Foundry and Vision hosts. |
| EvaluatorConfig.NewBuilderConfig | src/rf_raster_vision_plugin/evaluate/config.py:67-80 | A fresh builder's `config` is exactly the two hosts. |
| EvaluatorConfig.SettersCoverProperties | src/rf_raster_vision_plugin/evaluate/config.py:94-113 | Every declared property has exactly one `with_*` setter. |
| EvaluatorConfig.With | src/rf_raster_vision_plugin/evaluate/config.py:94-113 | Each `with_*` sets only its own property. |
| EvaluatorConfig.Assign | src/rf_raster_vision_plugin/evaluate/config.py:82-92 | The setter chain stores every read field under its property. |
| EvaluatorConfig.FromProto | src/rf_raster_vision_plugin/evaluate/config.py:82-92 | Succeeds exactly when the base class succeeds and the message has all seven top-level fields. A missing `project_id` raises `AttributeError` first. |
| EvaluatorConfig.FromProtoRejectsToProto | src/rf_raster_vision_plugin/evaluate/config.py:55-92 | Whatever the base class does, `from_proto` fails on any message `to_proto` produces. It raises the base class's own error, or else `AttributeError` at `project_id`. |
| RasterSourceConfig.New | src/rf_raster_vision_plugin/raster_source/config.py:14-35 | Each field is the argument when it is truthy, and otherwise the class default (`""`, `[]`, `0`, the staging host or the class ids). |
| RasterSourceConfig.FalsyArgumentsAreNone | src/rf_raster_vision_plugin/raster_source/config.py:30-35 | Passing any falsy argument gives the same configuration as passing `None`. |
| RasterSourceConfig.NewIsIdempotent | src/rf_raster_vision_plugin/raster_source/config.py:30-35 | Constructing again from a configuration's own fields gives the same configuration. |
| RasterSourceConfig.FieldsAreSetOrDefault | src/rf_raster_vision_plugin/raster_source/config.py:30-35 | When the class ids are truthy, every field of a constructed configuration is truthy or is its class default. |
| RasterSourceConfig.CreateLocal | src/rf_raster_vision_plugin/raster_source/config.py:37-38 | `create_local` returns the configuration unchanged. |
| RasterSourceConfig.ForPrediction | src/rf_raster_vision_plugin/raster_source/config.py:58-59 | `for_prediction` returns the configuration unchanged. |
| RasterSourceConfig.CreateSource | src/rf_raster_vision_plugin/raster_source/config.py:40-56 | The raster source receives the six fields and `tmp_dir`. The transformer, extent and class map are ignored. |
| RasterSourceConfig.PreparedConfigCreatesSameSource | src/rf_raster_vision_plugin/raster_source/config.py:37-59 | Preparing a configuration for prediction and locally does not change the source it creates. |
| RasterSourceConfig.NewBuilder | src/rf_raster_vision_plugin/raster_source/config.py:74-76 | A fresh builder has only the staging `rf_api_host`. |
| RasterSourceConfig.NewBuilderConfig | src/rf_raster_vision_plugin/raster_source/config.py:62-76 | A fresh builder's `config` is exactly the staging host. |
| RasterSourceConfig.SettersCoverProperties | src/rf_raster_vision_plugin/raster_source/config.py:88-104 | Every declared property has exactly one `with_*` setter. |
| RasterSourceConfig.With | src/rf_raster_vision_plugin/raster_source/config.py:88-104 | Each `with_*` sets only its own property. |
| RasterSourceConfig.Assign | src/rf_raster_vision_plugin/raster_source/config.py:78-86 | The setter chain stores every read field under its property. |
| RasterSourceConfig.FirstMissing | src/rf_raster_vision_plugin/raster_source/config.py:78-86 | Finds the first property, in chain order, that the message lacks, or none when every property is present. |
| RasterSourceConfig.FromProto | src/rf_raster_vision_plugin/raster_source/config.py:78-86 | Succeeds exactly when the message has every property field. The builder then holds each field. |
| RasterSourceConfig.FromProtoFailsAtFirstMissing | src/rf_raster_vision_plugin/raster_source/config.py:78-86 | `from_proto` fails exactly when a field is missing, and then with `AttributeError` naming the first one missing. |
| RasterSourceConfig.FromProtoConfig | src/rf_raster_vision_plugin/raster_source/config.py:78-86 | A successful read into a builder of this class has, as its `config`, the message's non-`None` property fields. |
| ClassMaps.ProjectLabels | src/rf_raster_vision_plugin/label_source/rf_annotation_group_label_source.py:88 | `project["extras"]["annotate"]["labels"]` succeeds exactly when each step reads a dict holding the next key and the labels are a list, and then gives those labels. A non-dict project raises `TypeError`, and a missing `extras` raises `KeyError`. |
| ClassMaps.SourceClassMap | src/rf_raster_vision_plugin/label_source/rf_annotation_group_label_source.py:89 | The label-source map is built exactly when every label has an `id`. |
| ClassMaps.SourceClassMapContents | src/rf_raster_vision_plugin/label_source/rf_annotation_group_label_source.py:89 | Every label's id is a key, and every value is a class id `c` in `1..n` whose `c`-th label carries that key. A label whose id does not recur later maps to its index plus one. |
| ClassMaps.ExperimentClassMap | src/examples/object_detection/post_experiments.py:46-48 | The keys are exactly `1..n`, and `i+1` maps to the i-th label's id. |
| ClassMaps.Invert | src/rf_raster_vision_plugin/label_store/rf_annotation_group_label_store.py:60 | `{v: k}` has the visited values as its keys. Each value maps back to a key holding it, and a value that no later key shares maps to its own key. |
| ClassMaps.InvertIsInverse | src/rf_raster_vision_plugin/label_store/rf_annotation_group_label_store.py:60 | Over a full iteration order, the inverse's keys are the map's values. When the values are distinct, each value maps back to its key. |
| ClassMaps.ExperimentMapInvertsSourceMap | src/examples/object_detection/post_experiments.py:46-48 | With distinct label ids, the experiment map and the label-source map are mutual inverses, in both directions. |
| ClassMaps.StoreInversionIsExperimentMap | src/rf_raster_vision_plugin/label_store/rf_annotation_group_label_store.py:60 | With distinct label ids, inverting the label-source map in any iteration order gives exactly the experiment map. |
| Converters.EmptyLabels | src/rf_raster_vision_plugin/label_store/rf_annotation_group_label_store.py:47-48 | The empty label set has no boxes, classes or scores. |
| Converters.FeatureCount | src/rf_raster_vision_plugin/http/converters.py:45-47 | `zip` yields as many triples as the shortest of the three arrays. |
| Converters.AnnotationFeatureFields | src/rf_raster_vision_plugin/http/converters.py:30-44 | A feature's geometry is a `Polygon` with the single ring given. It carries the label, score and group it was given, and `machineGenerated` is true. |
| Converters.AnnotationFeatureNulls | src/rf_raster_vision_plugin/http/converters.py:33-42 | `owner`, `description`, `quality`, `labeledBy` and `verifiedBy` are `None`. |
| Converters.AnnotationFeatures | src/rf_raster_vision_plugin/http/converters.py:30-48 | The first n features convert exactly when every class id among them is in the inverted map. The i-th feature has the i-th reprojected box, label and score. A failure is a `KeyError` for one of those class ids. |
| Converters.AnnotationFeaturesFromLabels | src/rf_raster_vision_plugin/http/converters.py:12-48 | The conversion succeeds exactly when `crs_transformer` is a CRS transformer and every zipped class id is in the inverted map, and then gives one feature per triple. Any other transformer value raises `AttributeError` on `transform` before any prediction is read. |
| Converters.AnnotationFeaturesContents | src/rf_raster_vision_plugin/http/converters.py:12-48 | The i-th feature holds the i-th box's ring, the label mapped from the i-th class, the i-th score, the given group and the fixed flags. |
| Converters.EmptyLabelsConvertToNothing | src/rf_raster_vision_plugin/http/converters.py:19-47 | Empty labels convert to an empty feature list when `crs_transformer` is a CRS transformer, and otherwise still raise `AttributeError` on `transform`. |
| LabelSource.ToRvFeature | src/rf_raster_vision_plugin/label_source/rf_annotation_group_label_source.py:15-22 | Succeeds exactly when the annotation has a geometry, a label, and a label the class map knows. The result has exactly `geometry`, unchanged, and `properties`, holding only `class_id`. |
| LabelSource.RvFeatures | src/rf_raster_vision_plugin/label_source/rf_annotation_group_label_source.py:62-71 | One converted feature per raw feature, in order. The list fails exactly when some feature fails. |
| LabelSource.New | src/rf_raster_vision_plugin/label_source/rf_annotation_group_label_source.py:26-60 | The constructor builds the class map from the project's labels before converting the raw features with it. It fails exactly when the project has no label list, a label has no `id`, the raw document has no feature list, or some raw feature does not convert. On success it holds the reprojected converted features. |
| LabelStore.ConstructorRequest | src/rf_raster_vision_plugin/label_store/rf_annotation_group_label_store.py:32-35 | The store's constructor posts its refresh token to the tokens endpoint of its host. |
| LabelStore.New | src/rf_raster_vision_plugin/label_store/rf_annotation_group_label_store.py:14-35 | A store exists exactly when the token exchange succeeds, and it keeps its arguments and the token. |
| LabelStore.ReadBackSource | src/rf_raster_vision_plugin/label_store/rf_annotation_group_label_store.py:37-45 | `get_labels` reads through a label source with the store's group, project, layer, token, transformer and host. |
| LabelStore.EmptyLabels | src/rf_raster_vision_plugin/label_store/rf_annotation_group_label_store.py:47-48 | `empty_labels` has no features. |
| LabelStore.InvertedClassMap | src/rf_raster_vision_plugin/label_store/rf_annotation_group_label_store.py:60 | The inversion succeeds exactly on a dict, and its keys are the dict's values. Each value maps back to a key holding it, and to its own key when the values are distinct. |
| LabelStore.Save | src/rf_raster_vision_plugin/label_store/rf_annotation_group_label_store.py:50-62 | `save` posts to the store's project and layer with its token exactly when the class map is a dict, the store's `crs_transformer` is a CRS transformer and every predicted class is among the class map's values. A non-dict class map raises `AttributeError` on `items`, and a store without a transformer raises `AttributeError` on `transform`. |
| LabelStore.SavedFeatures | src/rf_raster_vision_plugin/label_store/rf_annotation_group_label_store.py:50-62 | One posted feature per prediction, tagged with the store's group. Its confidence is the score, and its label is a key of the class map whose value is the predicted class. |
| LabelStore.SaveEmptyLabels | src/rf_raster_vision_plugin/label_store/rf_annotation_group_label_store.py:47-62 | Saving the empty labels succeeds exactly when the store has a CRS transformer, and then posts no features. |
| LabelStore.SavedLabelIsProjectLabel | src/rf_raster_vision_plugin/label_store/rf_annotation_group_label_store.py:60 | With the label source's class map, a prediction of class `c` is posted with the id of the project's `c`-th label. |
| RasterFoundry.RaiseForStatus | src/rf_raster_vision_plugin/http/raster_foundry.py:14 | Raises exactly on a 4xx or 5xx status, and otherwise gives the body. |
| RasterFoundry.TokenRequest | src/rf_raster_vision_plugin/http/raster_foundry.py:9-13 | Posts `{"refresh_token": ...}` to the host's tokens endpoint. |
| RasterFoundry.ApiToken | src/rf_raster_vision_plugin/http/raster_foundry.py:9-15 | Gives the body's `id_token` exactly when the status is a success and the body has one. |
| RasterFoundry.ProjectRequest | src/rf_raster_vision_plugin/http/raster_foundry.py:50-56 | Sends a GET to the project's endpoint with the token. |
| RasterFoundry.ProjectBody | src/rf_raster_vision_plugin/http/raster_foundry.py:57-58 | Gives the body exactly on a success status. |
| RasterFoundry.PostLabelsRequest | src/rf_raster_vision_plugin/http/raster_foundry.py:61-76 | Posts exactly `{"features": labels}` to the layer's annotations endpoint with the token. |
| RasterFoundry.PageParams | src/rf_raster_vision_plugin/http/raster_foundry.py:37 | Page parameters carry the group filter, `pageSize` 100 and the page index. |
| RasterFoundry.LabelsRequest | src/rf_raster_vision_plugin/http/raster_foundry.py:26-37 | Each page request is a GET to the layer's annotations endpoint with the token and the page parameters. |
| RasterFoundry.FirstEnd | src/rf_raster_vision_plugin/http/raster_foundry.py:41 | Finds the first answer that stops the loop: no earlier answer stops it. |
| RasterFoundry.MergePage | src/rf_raster_vision_plugin/http/raster_foundry.py:43-45 | One loop turn raises on an error status. On success it copies the page's `hasNext`, appends the page's features, and keeps every other key. |
| RasterFoundry.LabelsRequests | src/rf_raster_vision_plugin/http/raster_foundry.py:37-43 | The requests are for pages 0, 1, 2, … in order. |
| RasterFoundry.GetLabels | src/rf_raster_vision_plugin/http/raster_foundry.py:18-47 | The loop computes the recursive definition. It requests pages 0, 1, … in order and, on success, exactly up to the first answer whose `hasNext` is false. |
| RasterFoundry.PaginateStep | src/rf_raster_vision_plugin/http/raster_foundry.py:41-45 | A truthy `hasNext` means the next answer exists and does not stop the loop first. The next turn raises or merges that answer. |
| RasterFoundry.PaginateContents | src/rf_raster_vision_plugin/http/raster_foundry.py:39-47 | The result's `features` are the pages' features, concatenated in page order. Its `hasNext` is the last page's, and its other keys are the first answer's. |
| RasterFoundry.LabelsContents | src/rf_raster_vision_plugin/http/raster_foundry.py:18-47 | `get_labels` returns every fetched page's features in order, with the first answer's other keys and a falsy `hasNext`. |
| RfLayerRasterSource.Len | src/rf_raster_vision_plugin/raster_source/rf_layer_raster_source.py:98 | `len` counts a list's items and raises on values that have no length. |
| RfLayerRasterSource.FirstScenesEnd | src/rf_raster_vision_plugin/raster_source/rf_layer_raster_source.py:90 | Finds the first scenes answer whose `hasNext` stops the loop. |
| RfLayerRasterSource.AppendPage | src/rf_raster_vision_plugin/raster_source/rf_layer_raster_source.py:99 | As written, a later page's `results` become one new element of the scene list. |
| RfLayerRasterSource.ExtendPage | src/rf_raster_vision_plugin/raster_source/rf_layer_raster_source.py:99 | Corrected, a later page's results are spliced into the scene list. |
| RfLayerRasterSource.GetRfScenes | src/rf_raster_vision_plugin/raster_source/rf_layer_raster_source.py:78-101 | The loop computes the recursive definition. The first request has no page and later ones ask for pages 1, 2, …; on success they run exactly up to the first falsy `hasNext`. |
| RfLayerRasterSource.ScenesAsWritten | src/rf_raster_vision_plugin/raster_source/rf_layer_raster_source.py:85-101 | As written, the result is the first page's scenes, followed by each non-empty later page as one nested list. |
| RfLayerRasterSource.ScenesSpliced | src/rf_raster_vision_plugin/raster_source/rf_layer_raster_source.py:85-101 | Corrected, the result is every fetched page's scenes in page order. |
| RfLayerRasterSource.SceneUri | src/rf_raster_vision_plugin/raster_source/rf_layer_raster_source.py:56-60 | A scene yields its unquoted `ingestLocation` exactly when its status is `INGESTED`, and is skipped exactly when the status is readable and different. A non-dict raises. |
| RfLayerRasterSource.SceneUris | src/rf_raster_vision_plugin/raster_source/rf_layer_raster_source.py:56-60 | The URI list fails exactly when some scene fails, and is never longer than the scene list. |
| RfLayerRasterSource.SceneUrisAreIngestedLocations | src/rf_raster_vision_plugin/raster_source/rf_layer_raster_source.py:56-60 | When the selection succeeds, its URIs are exactly the unquoted `ingestLocation` of the scenes whose status is `INGESTED`, in order, for any mix of ingested and other scenes. |
| RfLayerRasterSource.SceneUrisAppend | src/rf_raster_vision_plugin/raster_source/rf_layer_raster_source.py:56-60 | The URIs of two scene lists in a row are the first list's URIs followed by the second's. |
| RfLayerRasterSource.IngestedSceneUris | src/rf_raster_vision_plugin/raster_source/rf_layer_raster_source.py:56-60 | Ingested scenes with locations yield every location, unquoted, in order. |
| RfLayerRasterSource.LayerSceneUrisPageByPage | src/rf_raster_vision_plugin/raster_source/rf_layer_raster_source.py:56-101 | With spliced pages, a layer's URIs are the URIs of every fetched page's scenes, in order. |
| RfLayerRasterSource.AsWrittenFailsOnLaterPages | src/rf_raster_vision_plugin/raster_source/rf_layer_raster_source.py:56-101 | As written, the URI selection raises on any layer whose scenes reach a non-empty later page. |
| RfLayerRasterSource.NestedPageRejected | src/rf_raster_vision_plugin/raster_source/rf_layer_raster_source.py:56-60 | A nested page among the scenes makes the URI selection raise. |
| RfLayerRasterSource.SceneUrisRejectNonDict | src/rf_raster_vision_plugin/raster_source/rf_layer_raster_source.py:59 | Any non-dict scene makes the URI selection raise. |
| RfLayerRasterSource.NestedPageBreaksSceneUris | src/rf_raster_vision_plugin/raster_source/rf_layer_raster_source.py:99 | On two pages of one ingested scene each, the code as written builds `[scene, [scene]]`, and the URI selection raises `TypeError`. |
| RfLayerRasterSource.SplicedPagesKeepEveryScene | src/rf_raster_vision_plugin/raster_source/rf_layer_raster_source.py:56-101 | On the same two pages, splicing yields both locations. |
| PostExperiments.ToAnnotation | src/examples/object_detection/post_experiments.py:14-28 | Succeeds exactly when the feature has a class id the map knows, a score and a geometry. The result is a `Feature` with the mapped label, the score as confidence, the group, `machineGenerated` true, and the geometry unchanged. |
| PostExperiments.FeatureCollection | src/examples/object_detection/post_experiments.py:31-34 | The result is a `FeatureCollection` holding the given features. |
| PostExperiments.ObjectDetectionLabelsToAnnotations | src/examples/object_detection/post_experiments.py:12-34 | The loop gives one annotation per input feature, in order. It raises what reading `features` raises, `TypeError` on a non-list, and otherwise the first failing feature's error. |
| PostExperiments.AnnotationLabelLeadsBack | src/examples/object_detection/post_experiments.py:15 | With distinct label ids, an annotation's label is a key of the label-source map, whose class id is the feature's. |
| PostExperiments.ExpClassMapEntry | src/examples/object_detection/post_experiments.py:67-74 | An entry exists exactly when the label has `id`, `name` and `colorHexCode`. It holds those and `classId` equal to the index plus one. |
| PostExperiments.ExpClassMap | src/examples/object_detection/post_experiments.py:67-74 | One entry per project label, in order. It fails exactly when some label fails. |
| PostExperiments.ExpClassMapAgreesWithClassMap | src/examples/object_detection/post_experiments.py:46-74 | Each entry's `classId` and `labelId` pair is the `class_map` entry for that class id. |
| PostExperiments.AverageEntries | src/examples/object_detection/post_experiments.py:91-92 | The filter succeeds exactly when every `overall` entry has a `class_name`, and raises at the first entry without one. On success it is the reference filter `Averages` of `overall`, and it holds exactly the `average` entries, with the first `average` entry first. |
| PostExperiments.AveragesAppend | src/examples/object_detection/post_experiments.py:91-92 | The filter works entry by entry: filtering a concatenation is concatenating the filtered parts, so the kept entries stay in the order of `overall`. |
| PostExperiments.AveragesCount | src/examples/object_detection/post_experiments.py:91-92 | Every `average` entry is kept as many times as it occurs in `overall`, and no other entry is kept. |
| PostExperiments.AveragesMembers | src/examples/object_detection/post_experiments.py:91-92 | A value is kept exactly when it is an `overall` entry whose `class_name` is `average`. |
| PostExperiments.AveragesFirst | src/examples/object_detection/post_experiments.py:91-93 | The first kept entry is the first `average` entry of `overall`. |
| PostExperiments.SelectAverage | src/examples/object_detection/post_experiments.py:91-93 | The selected score is the first `average` entry. |
| PostExperiments.SelectAverageIndexError | src/examples/object_detection/post_experiments.py:91-93 | With no `average` entry, `[0]` raises `IndexError`. |

## Left out

- HTTP: `requests` calls are not made. Requests are values, and answers are inputs indexed by page. `make_request`'s URL formatting is an uninterpreted endpoint constructor.
- Tokens and vision calls: `with_token.py`, `vision.py` (all stubs), the Vision evaluator and the plugin registration are framework or HTTP wrappers, and are not part of this model.
- Floating point and geometry: reprojection (`Box.reproject`, `transform_geojson`) is a function parameter. `RasterioCRSTransformer` is the record `Geo.CrsTransformer` of its affine transform, image CRS and map CRS, and does not transform points. Coordinates are opaque values, and affine coefficients are `real`.
- ConfigCodec.DecodeTransformer, LabelSourceConfig.FromProto, LabelStoreConfig.FromProto: `RasterioCRSTransformer` opens `map_crs` with `pyproj.Proj(init=...)`, which raises on a string it cannot parse. The model keeps any string map CRS, because the projection library is not modelled. The round-trip lemmas therefore also cover map CRS strings that library would reject.
- Geo.CrsFromInit: `CRS({'init': ...})` is modelled as accepting exactly `epsg:` followed by decimal digits. The library also accepts other forms, none of which this code writes. It also rejects digit strings that are not codes in its EPSG registry, such as `epsg:0`, which the model accepts, because the registry is not modelled.
- Protobuf `Struct`: key coercion and numbers becoming doubles are not modelled. A value it cannot hold is modelled as a transformer anywhere inside a property. A dict with non-string keys inside a property is not rejected. `custom_config` is a string-keyed map of values, and reading a missing key raises `ValueError`.
- `unquote` is an uninterpreted function parameter.
- `build()`, `to_builder()` and the host framework's base `to_proto`/`from_proto` belong to the framework. The evaluator's base `from_proto` is a function parameter.
- EvaluatorConfig.ToProto: the framework's evaluator message declares top-level fields of its own, such as `evaluator_type`, and reading one gives its default value instead of raising. The model's message has no top-level fields. None of the seven properties is such a field, so `from_proto` still fails at `project_id`.
- Python dict keys: in Python, `1`, `1.0` and `True` are the same key, and a list or dict used as a key raises `TypeError`. The model's maps compare `Value`s structurally, so `Int(1)`, `Num(1.0)` and `Bool(true)` are different keys, and list or dict keys are accepted. The statements below hold as written for the string label ids and integer class ids the plugin uses.
- ClassMaps.SourceClassMap, ClassMaps.Invert and LabelStore.InvertedClassMap: do not merge numerically equal keys of different types, and do not reject unhashable keys.
- LabelSource.ToRvFeature, Converters.AnnotationFeatures and PostExperiments.ToAnnotation: a lookup with a key numerically equal to a map key of another type fails in the model where Python finds the entry.
- The `uuid4()` class defaults of the raster-source config are random. They are a parameter, `IdDefaults`.
- `RfLabelStoreConfig.for_prediction` calls a `with_uri` that the builder does not define, so it always raises. It is not modelled.
- The raster-source configuration has no `to_proto` in the source, so there is no round trip to state for it. Its `from_proto` reads top-level message fields and is modelled on a field map.
- Raster reading, statistics, chips and activation in the layer raster source are I/O.
- The example and orchestration scripts (`post_experiments` itself, project creation, downloads, intersection, the training script) are HTTP and file sequencing. Only their pure comprehensions are modelled.
- Dict iteration order is an explicit key sequence parameter, because Dafny maps are unordered.
- The label store's `class_map` type hint says `Dict[int, str]`, but the value it receives maps label ids to class ids. The model follows the values, not the hint.
- RasterFoundry.GetLabels: pagination assumes some answer ends the paging (`EndsFrom`), so it covers a server with finitely many pages only.
- RfLayerRasterSource.GetRfScenes: pagination likewise assumes some answer ends the paging (`ScenesEndFrom`).
- RasterSourceConfig.CreateSource: the ignored `crs_transformer`, `extent` and `class_map` arguments are accepted but not stated about.
- RasterFoundry.MergePage: `+=` on two strings concatenates in Python, and on a list and a string it extends the list by characters. The model raises `TypeError` unless both `features` are lists, which is what the API sends.
- Iterating a value that is not a list, as in `for f in labels['features']`, raises `TypeError`. Iterating a dict or string is not modelled.
- The error raised for a missing `custom_config` key is modelled as a single `ValueError`, whichever key is missing.

## Findings

| source | as written | input that shows it | evidently intended | confidence | as-written member | corrected member |
|---|---|---|---|---|---|---|
| src/rf_raster_vision_plugin/raster_source/rf_layer_raster_source.py:99 | `scenes.append(scenes_resp["results"])` adds each later page's scene list as one nested element | two scenes pages, each holding one `INGESTED` scene; the first has `hasNext` true and the second false. The scenes become `[scene, [scene]]`, and the URI comprehension raises `TypeError` on the nested list | `scenes.extend(...)`, splicing each page's scenes, so that the URIs of every page are kept | not executed | RfLayerRasterSource.NestedPageBreaksSceneUris | RfLayerRasterSource.SplicedPagesKeepEveryScene |

=== FILE: class_maps.dfy ===
/** The three class maps the plugin builds from a Raster Foundry project's
    label list, and how they relate:
      - the label source maps the i-th label's id to class id `i + 1`;
      - the experiment poster maps `i + 1` back to the i-th label's id;
      - the label store inverts whatever map it was configured with. */
module ClassMaps {
  import opened Values

  /** `project["extras"]["annotate"]["labels"]`, which must be a list. */
  function ProjectLabels(project: Value): (r: Result<seq<Value>>)
    ensures r.Ok? <==> && project.Dict? && Str("extras") in project.entries
                       && var extras := project.entries[Str("extras")];
                          && extras.Dict? && Str("annotate") in extras.entries
                          && var annotate := extras.entries[Str("annotate")];
                             && annotate.Dict? && Str("labels") in annotate.entries
                             && annotate.entries[Str("labels")].List?
    ensures r.Ok? ==> r.value == project.entries[Str("extras")].entries[Str("annotate")].entries[Str("labels")].items
    ensures !project.Dict? ==> r == Err(TypeError)
    ensures project.Dict? && Str("extras") !in project.entries ==> r == Err(KeyError(Str("extras")))
  {
    var extras :- Field(project, "extras");
    var annotate :- Field(extras, "annotate");
    var labels :- Field(annotate, "labels");
    Items(labels)
  }

  predicate HasId(item: Value) {
    item.Dict? && Str("id") in item.entries
  }

  function IdOf(item: Value): Value
    requires HasId(item)
  {
    item.entries[Str("id")]
  }

  predicate AllHaveIds(labels: seq<Value>) {
    forall i :: 0 <= i < |labels| ==> HasId(labels[i])
  }

  /** The id of the `i`-th label. */
  function LabelId(labels: seq<Value>, i: int): Value
    requires AllHaveIds(labels) && 0 <= i < |labels|
  {
    IdOf(labels[i])
  }

  /** No two labels share an id. */
  predicate DistinctIds(labels: seq<Value>) {
    && AllHaveIds(labels)
    && forall i, j :: 0 <= i < j < |labels| ==> LabelId(labels, i) != LabelId(labels, j)
  }

  /** No later label carries the same id as label `i`. */
  predicate LastWithItsId(labels: seq<Value>, i: int)
    requires AllHaveIds(labels) && 0 <= i < |labels|
  {
    forall j :: i < j < |labels| ==> IdOf(labels[j]) != IdOf(labels[i])
  }

  /** Class id `c` is `i + 1` for a label `i` whose id is `k`. */
  predicate NamesLabelWithId(labels: seq<Value>, c: Value, k: Value)
    requires AllHaveIds(labels)
  {
    c.Int? && 1 <= c.i <= |labels| && LabelId(labels, c.i - 1) == k
  }

  /** `{item["id"]: idx + 1 for idx, item in enumerate(labels)}`: a label
      without an id raises at that label; when ids repeat, the later index
      wins. */
  function SourceClassMap(labels: seq<Value>): (r: Result<map<Value, Value>>)
    ensures r.Ok? <==> AllHaveIds(labels)
  {
    if |labels| == 0 then Ok(map[])
    else
      var init := labels[..|labels| - 1];
      var last := labels[|labels| - 1];
      assert forall i :: 0 <= i < |init| ==> init[i] == labels[i];
      var m :- SourceClassMap(init);
      var id :- Field(last, "id");
      Ok(m[id := Int(|labels|)])
  }

  /** What the label-source map holds: every label's id is a key; each key's
      class id `c` lies in `1..n` and the `c`-th label carries that id; a
      label whose id does not recur later gets class id `index + 1`. */
  lemma {:induction false} SourceClassMapContents(labels: seq<Value>)
    requires AllHaveIds(labels)
    ensures SourceClassMap(labels).Ok?
    ensures forall i :: 0 <= i < |labels| ==> LabelId(labels, i) in SourceClassMap(labels).value
    ensures forall k :: k in SourceClassMap(labels).value ==>
              NamesLabelWithId(labels, SourceClassMap(labels).value[k], k)
    ensures forall i :: 0 <= i < |labels| && LastWithItsId(labels, i) ==>
              SourceClassMap(labels).value[LabelId(labels, i)] == Int(i + 1)
  {
    if |labels| > 0 {
      var n := |labels|;
      var init := labels[..n - 1];
      var last := labels[n - 1];
      assert forall i :: 0 <= i < n - 1 ==> init[i] == labels[i];
      SourceClassMapContents(init);
      var prev := SourceClassMap(init).value;
      var m := SourceClassMap(labels).value;
      assert m == prev[IdOf(last) := Int(n)];
      forall i | 0 <= i < n
        ensures LabelId(labels, i) in m
      {
        if i < n - 1 {
          assert LabelId(init, i) == LabelId(labels, i);
        }
      }
      forall k | k in m
        ensures NamesLabelWithId(labels, m[k], k)
      {
        if k != IdOf(last) {
          var c := prev[k];
          assert NamesLabelWithId(init, c, k);
          assert init[c.i - 1] == labels[c.i - 1];
        } else {
          assert m[k] == Int(n) && labels[n - 1] == last;
        }
      }
      forall i | 0 <= i < n && LastWithItsId(labels, i)
        ensures m[LabelId(labels, i)] == Int(i + 1)
      {
        assert LabelId(labels, i) in m;
        if i < n - 1 {
          assert LastWithItsId(init, i);
          assert LabelId(init, i) == LabelId(labels, i);
        }
      }
    }
  }

  /** `{idx + 1: item["id"] for idx, item in enumerate(labels)}`. */
  function ExperimentClassMap(labels: seq<Value>): (r: Result<map<Value, Value>>)
    ensures r.Ok? <==> AllHaveIds(labels)
    ensures r.Ok? ==> forall c :: c in r.value <==> c.Int? && 1 <= c.i <= |labels|
    ensures r.Ok? ==> forall i :: 0 <= i < |labels| ==> r.value[Int(i + 1)] == LabelId(labels, i)
  {
    if |labels| == 0 then Ok(map[])
    else
      var init := labels[..|labels| - 1];
      var last := labels[|labels| - 1];
      assert forall i :: 0 <= i < |init| ==> init[i] == labels[i];
      var m :- ExperimentClassMap(init);
      var id :- Field(last, "id");
      assert forall i :: 0 <= i < |init| ==> LabelId(init, i) == LabelId(labels, i);
      Ok(m[Int(|labels|) := id])
  }

  /** `order` is an iteration order of `m`: it lists keys of `m`, and every
      key at least once (a Python dict lists each exactly once). */
  predicate IterationOrder(order: seq<Value>, m: map<Value, Value>) {
    && (forall i :: 0 <= i < |order| ==> order[i] in m)
    && (forall k :: k in m ==> k in order)
  }

  /** `{v: k for k, v in m.items()}` with the keys visited in `order`: a value
      shared by several keys ends up mapped to the last of them. */
  function Invert(m: map<Value, Value>, order: seq<Value>): (r: map<Value, Value>)
    requires forall i :: 0 <= i < |order| ==> order[i] in m
    ensures r.Keys == set i | 0 <= i < |order| :: m[order[i]]
    ensures forall v :: v in r ==> r[v] in m && m[r[v]] == v
    ensures forall i :: 0 <= i < |order| && (forall j :: i < j < |order| ==> m[order[j]] != m[order[i]]) ==>
              r[m[order[i]]] == order[i]
  {
    if |order| == 0 then map[]
    else
      var init := order[..|order| - 1];
      var k := order[|order| - 1];
      assert forall i :: 0 <= i < |init| ==> init[i] == order[i];
      Invert(m, init)[m[k] := k]
  }

  predicate Injective(m: map<Value, Value>) {
    forall k, k' :: k in m && k' in m && k != k' ==> m[k] != m[k']
  }

  /** Over a whole dict, the inverse's keys are exactly the dict's values;
      when the values are distinct it sends each value back to its key. */
  lemma InvertIsInverse(m: map<Value, Value>, order: seq<Value>)
    requires IterationOrder(order, m)
    ensures Invert(m, order).Keys == m.Values
    ensures Injective(m) ==> forall k :: k in m ==> Invert(m, order)[m[k]] == k
  {
    var r := Invert(m, order);
    forall v | v in m.Values
      ensures v in r
    {
      var k :| k in m && m[k] == v;
      var i :| 0 <= i < |order| && order[i] == k;
      assert m[order[i]] == v;
    }
    forall v | v in r
      ensures v in m.Values
    {
      assert r[v] in m && m[r[v]] == v;
    }
    if Injective(m) {
      forall k | k in m
        ensures r[m[k]] == k
      {
        var v := m[k];
        assert v in m.Values;
        assert r[v] in m && m[r[v]] == v;
      }
    }
  }

  /** With distinct label ids the experiment map is exactly the inverse of
      the label-source map, in both directions. */
  lemma ExperimentMapInvertsSourceMap(labels: seq<Value>)
    requires DistinctIds(labels)
    ensures SourceClassMap(labels).Ok? && ExperimentClassMap(labels).Ok?
    ensures ExperimentClassMap(labels).value.Keys == SourceClassMap(labels).value.Values
    ensures forall k :: k in SourceClassMap(labels).value ==>
              ExperimentClassMap(labels).value[SourceClassMap(labels).value[k]] == k
    ensures forall c :: c in ExperimentClassMap(labels).value ==>
              SourceClassMap(labels).value[ExperimentClassMap(labels).value[c]] == c
  {
    SourceClassMapContents(labels);
    var src := SourceClassMap(labels).value;
    var exp := ExperimentClassMap(labels).value;
    forall i | 0 <= i < |labels|
      ensures src[LabelId(labels, i)] == Int(i + 1)
    {
      forall j | i < j < |labels|
        ensures IdOf(labels[j]) != IdOf(labels[i])
      {
        assert LabelId(labels, i) != LabelId(labels, j);
      }
      assert LastWithItsId(labels, i);
    }
    forall c | c in exp
      ensures c in src.Values && src[exp[c]] == c
    {
      var i := c.i - 1;
      assert exp[c] == LabelId(labels, i);
    }
    forall k | k in src
      ensures src[k] in exp && exp[src[k]] == k
    {
      assert NamesLabelWithId(labels, src[k], k);
    }
  }

  /** The label store, configured with the label source's class map, inverts
      it into exactly the experiment poster's map, whatever the iteration
      order; so a label id survives the trip to a class id and back. */
  lemma StoreInversionIsExperimentMap(labels: seq<Value>, order: seq<Value>)
    requires DistinctIds(labels)
    requires SourceClassMap(labels).Ok? && IterationOrder(order, SourceClassMap(labels).value)
    ensures Invert(SourceClassMap(labels).value, order) == ExperimentClassMap(labels).value
    ensures forall k :: k in SourceClassMap(labels).value ==>
              Invert(SourceClassMap(labels).value, order)[SourceClassMap(labels).value[k]] == k
  {
    var src := SourceClassMap(labels).value;
    var exp := ExperimentClassMap(labels).value;
    ExperimentMapInvertsSourceMap(labels);
    InvertIsInverse(src, order);
    var inv := Invert(src, order);
    forall c | c in inv
      ensures inv[c] == exp[c]
    {
      assert src[inv[c]] == c;
      assert src[exp[c]] == c;
      assert exp[src[inv[c]]] == inv[c];
    }
    assert inv.Keys == exp.Keys;
    forall k | k in src
      ensures inv[src[k]] == k
    {
      assert exp[src[k]] == k;
    }
  }
}

=== FILE: config_codec.dfy ===
/** The `custom_config` encoding shared by the label-source and label-store
    configurations: every declared property is written under its own name,
    except `crs_transformer`, which is expanded into `map_crs`, `image_crs`
    and a 6-element `transform`. The evaluator uses the same loop with no
    transformer among its properties. */
module ConfigCodec {
  import opened Wrappers
  import opened Geo
  import opened Values

  const CRS_TRANSFORMER: string := "crs_transformer"
  const MAP_CRS: string := "map_crs"
  const IMAGE_CRS: string := "image_crs"
  const TRANSFORM: string := "transform"
  const CRS_KEYS: set<string> := {MAP_CRS, IMAGE_CRS, TRANSFORM}

  /** The three keys a transformer is written under. */
  function EncodeTransformer(t: CrsTransformer): (m: map<string, Value>)
    ensures m.Keys == CRS_KEYS
    ensures m[MAP_CRS] == Str(t.mapCrs)
    ensures m[IMAGE_CRS] == Str(EPSG_PREFIX + (if t.imageCrs.EpsgCrs? then Decimal(t.imageCrs.code) else "None"))
    ensures m[TRANSFORM].List? && |m[TRANSFORM].items| == 6
    ensures forall i :: 0 <= i < 6 ==> m[TRANSFORM].items[i] == Num(Coefficients(t.transform)[i])
  {
    var xs := Coefficients(t.transform);
    map[MAP_CRS := Str(t.mapCrs),
        IMAGE_CRS := Str(EpsgInit(t.imageCrs)),
        TRANSFORM := List([Num(xs[0]), Num(xs[1]), Num(xs[2]), Num(xs[3]), Num(xs[4]), Num(xs[5])])]
  }

  /** `x * 1.0`, which `Affine` applies to each coefficient: defined on
      numbers and on booleans (`True` is 1), a `TypeError` on anything else. */
  predicate IsNumeric(v: Value) {
    v.Num? || v.Int? || v.Bool?
  }

  function AsReal(v: Value): real
    requires IsNumeric(v)
  {
    match v
    case Num(x) => x
    case Int(i) => i as real
    case Bool(b) => if b then 1.0 else 0.0
  }

  /** A list of values as the reals `Affine` receives. */
  function Numbers(vs: seq<Value>): (r: Result<seq<real>>)
    ensures r.Ok? <==> forall i :: 0 <= i < |vs| ==> vs[i].Num? || vs[i].Int? || vs[i].Bool?
    ensures r.Ok? ==> |r.value| == |vs|
    ensures r.Ok? ==> forall i :: 0 <= i < |vs| ==>
              && (vs[i].Num? ==> r.value[i] == vs[i].x)
              && (vs[i].Int? ==> r.value[i] == vs[i].i as real)
              && (vs[i].Bool? ==> r.value[i] == if vs[i].b then 1.0 else 0.0)
    ensures r.Err? ==> r.error == TypeError
  {
    if |vs| == 0 then Ok([])
    else
      var init :- Numbers(vs[..|vs| - 1]);
      var last := vs[|vs| - 1];
      if IsNumeric(last) then Ok(init + [AsReal(last)])
      else Err(TypeError)
  }

  /** The coefficient list `Affine(*transform)` accepts: numbers only, six
      of them, optionally followed by up to three more that begin the
      default third row `0, 0, 1`. */
  predicate AffineList(v: Value) {
    && v.List?
    && (forall i :: 0 <= i < |v.items| ==> IsNumeric(v.items[i]))
    && 6 <= |v.items| <= 9
    && IsThirdRowPrefix(Numbers(v.items).value[6..])
  }

  /** `with_crs_transformer_from_msg`: `Affine(*transform)`, then the image
      CRS from its init string, then the map CRS. A wrong number of
      coefficients is a `TypeError`, a wrong third row a `ValueError`. The
      map CRS is kept as the string it is. */
  function DecodeTransformer(cc: map<string, Value>): (r: Result<CrsTransformer>)
    ensures r.Ok? <==> && TRANSFORM in cc && AffineList(cc[TRANSFORM])
                       && IMAGE_CRS in cc && cc[IMAGE_CRS].Str? && CrsFromInit(cc[IMAGE_CRS].s).Some?
                       && MAP_CRS in cc && cc[MAP_CRS].Str?
    ensures r.Ok? ==> && Coefficients(r.value.transform) == Numbers(cc[TRANSFORM].items).value[..6]
                      && Some(r.value.imageCrs) == CrsFromInit(cc[IMAGE_CRS].s)
                      && r.value.mapCrs == cc[MAP_CRS].s
    ensures TRANSFORM !in cc ==> r == Err(ValueError)
    ensures TRANSFORM in cc && !cc[TRANSFORM].List? ==> r == Err(TypeError)
    ensures TRANSFORM in cc && cc[TRANSFORM].List? && !(6 <= |cc[TRANSFORM].items| <= 9) ==> r == Err(TypeError)
  {
    var transform :- StructGet(cc, TRANSFORM);
    var coefficientValues :- Items(transform);
    var xs :- Numbers(coefficientValues);
    var affine := AffineFromCoefficients(xs);
    if affine.None? then (if AffineArity(xs) then Err(ValueError) else Err(TypeError))
    else
      var image :- StructGet(cc, IMAGE_CRS);
      if !image.Str? then Err(TypeError)
      else
        var crs := CrsFromInit(image.s);
        if crs.None? then Err(ValueError)
        else
          var mapCrs :- StructGet(cc, MAP_CRS);
          if !mapCrs.Str? then Err(TypeError)
          else Ok(CrsTransformer(affine.value, crs.value, mapCrs.s))
  }

  /** Reading a transformer back from any struct that holds what
      `EncodeTransformer` wrote succeeds exactly when the image CRS has an
      EPSG code, and then gives the same transformer. */
  lemma {:induction false} TransformerRoundTrip(t: CrsTransformer, cc: map<string, Value>)
    requires forall k :: k in CRS_KEYS ==> k in cc && cc[k] == EncodeTransformer(t)[k]
    ensures DecodeTransformer(cc).Ok? <==> t.imageCrs.EpsgCrs?
    ensures t.imageCrs.EpsgCrs? ==> DecodeTransformer(cc) == Ok(t)
  {
    var xs := Coefficients(t.transform);
    var vs := cc[TRANSFORM].items;
    assert vs == [Num(xs[0]), Num(xs[1]), Num(xs[2]), Num(xs[3]), Num(xs[4]), Num(xs[5])];
    var ns := Numbers(vs);
    assert ns.Ok?;
    assert forall i :: 0 <= i < 6 ==> ns.value[i] == xs[i];
    assert ns.value == xs;
    CoefficientsRoundTrip(t.transform);
    CrsInitRoundTrip(t.imageCrs);
    assert cc[IMAGE_CRS] == Str(EpsgInit(t.imageCrs));
  }

  /** A value `Struct` can hold: `None`, a bool, a number, a string, or a
      list or dict of such values. An object such as a CRS transformer,
      anywhere inside, makes the assignment raise `ValueError`. */
  predicate StructValue(v: Value)
    decreases v
  {
    match v
    case Transformer(_) => false
    case List(items) => forall i :: 0 <= i < |items| ==> StructValue(items[i])
    case Dict(entries) => forall k :: k in entries ==> StructValue(entries[k])
    case _ => true
  }

  /** Every property of `props` that is written under its own name, that
      is every one but the transformer, holds a value `Struct` can hold. */
  predicate PlainValues(props: seq<string>, attrs: map<string, Value>) {
    forall k :: k in props && k != CRS_TRANSFORMER && k in attrs ==> StructValue(attrs[k])
  }

  /** One turn of the `to_proto` loop: property `k` written into the struct
      built so far, either under its own name or, for the transformer, as
      its three keys. */
  function EncodeEntry(s: map<string, Value>, k: string, attrs: map<string, Value>): (r: Result<map<string, Value>>)
    ensures r.Ok? <==> k in attrs && if k == CRS_TRANSFORMER then attrs[k].Transformer? else StructValue(attrs[k])
    ensures r.Err? ==> r.error == ValueError || r.error.AttributeError?
    ensures r.Err? && k in attrs && k != CRS_TRANSFORMER ==> r.error == ValueError
    ensures r.Ok? && k != CRS_TRANSFORMER ==> r.value == s[k := attrs[k]]
    ensures r.Ok? && k == CRS_TRANSFORMER ==> r.value == s + EncodeTransformer(attrs[k].t)
  {
    if k !in attrs then Err(AttributeError(k))
    else if k != CRS_TRANSFORMER then (if StructValue(attrs[k]) then Ok(s[k := attrs[k]]) else Err(ValueError))
    else if !attrs[k].Transformer? then Err(AttributeError(TRANSFORM))
    else Ok(s + EncodeTransformer(attrs[k].t))
  }

  /** The `custom_config` loop of `to_proto` over a property list, reading
      each property from the object's attributes. A missing attribute, a
      `crs_transformer` that is not a transformer, or a plain property that
      `Struct` cannot hold raises. */
  function EncodeStruct(props: seq<string>, attrs: map<string, Value>): (r: Result<map<string, Value>>)
    requires forall k :: k in props ==> k !in CRS_KEYS
    ensures r.Ok? <==> (forall k :: k in props ==> k in attrs)
                       && (CRS_TRANSFORMER in props ==> attrs[CRS_TRANSFORMER].Transformer?)
                       && PlainValues(props, attrs)
    ensures r.Err? ==> r.error == ValueError || r.error.AttributeError?
    ensures r.Err? && (forall k :: k in props ==> k in attrs) && CRS_TRANSFORMER !in props ==> r.error == ValueError
    ensures r.Ok? ==> r.value.Keys == (set k | k in props && k != CRS_TRANSFORMER)
                                      + (if CRS_TRANSFORMER in props then CRS_KEYS else {})
    ensures r.Ok? ==> forall k :: k in props && k != CRS_TRANSFORMER ==> r.value[k] == attrs[k]
    ensures r.Ok? && CRS_TRANSFORMER in props ==>
              forall k :: k in CRS_KEYS ==> r.value[k] == EncodeTransformer(attrs[CRS_TRANSFORMER].t)[k]
  {
    if |props| == 0 then Ok(map[])
    else
      var init := props[..|props| - 1];
      var k := props[|props| - 1];
      assert forall j :: j in props <==> j in init || j == k;
      var s :- EncodeStruct(init, attrs);
      EncodeEntry(s, k, attrs)
  }

  /** `EncodeStruct` for properties that are all present and none of them
      the transformer: it fails only on a value `Struct` cannot hold, and
      then with `ValueError`; otherwise each property is written under its
      own name. */
  function EncodePlain(props: seq<string>, attrs: map<string, Value>): (r: Result<map<string, Value>>)
    requires forall k :: k in props ==> k in attrs && k !in CRS_KEYS && k != CRS_TRANSFORMER
    ensures r.Ok? <==> PlainValues(props, attrs)
    ensures r.Err? ==> r.error == ValueError
    ensures r.Ok? ==> r.value.Keys == (set k | k in props)
    ensures r.Ok? ==> forall k :: k in props ==> r.value[k] == attrs[k]
  {
    EncodeStruct(props, attrs)
  }
}

=== FILE: converters.dfy ===
/** The conversion of Raster Vision object-detection predictions into the
    annotation features Raster Foundry accepts. The box reprojection (from
    pixel to map coordinates through the store's CRS transformer) is a
    function parameter. */
module Converters {
  import opened Values

  /** The parts of an `ObjectDetectionLabels` the converter reads: the box
      list's `boxes`, `classes` and `scores` arrays. */
  datatype ObjectDetectionLabels = ObjectDetectionLabels(boxes: seq<Value>, classes: seq<Value>, scores: seq<Value>)

  /** `ObjectDetectionLabels.make_empty()`. */
  function EmptyLabels(): (l: ObjectDetectionLabels)
    ensures FeatureCount(l) == 0
    ensures |l.boxes| == 0 && |l.classes| == 0 && |l.scores| == 0
  {
    ObjectDetectionLabels([], [], [])
  }

  /** How many `(box, class_id, score)` triples `zip` yields: as many as the
      shortest of the three arrays has. */
  function FeatureCount(l: ObjectDetectionLabels): (n: nat)
    ensures n <= |l.boxes| && n <= |l.classes| && n <= |l.scores|
    ensures n == |l.boxes| || n == |l.classes| || n == |l.scores|
  {
    var m := if |l.boxes| <= |l.classes| then |l.boxes| else |l.classes|;
    if m <= |l.scores| then m else |l.scores|
  }

  /** The pixel-to-map reprojection of one box into GeoJSON coordinates,
      given the CRS transformer it is built from. */
  type Reprojection = (Value, Value) -> Value

  const POLYGON: string := "Polygon"

  /** `feature["properties"][name]`. */
  function Property(feature: Value, name: string): Result<Value> {
    var properties :- Field(feature, "properties");
    Field(properties, name)
  }

  /** One posted annotation feature: a polygon whose only ring is the
      reprojected box, and the fixed set of annotation properties. */
  function AnnotationFeature(coordinates: Value, labelName: Value, score: Value, group: Value): Value {
    Dict(map[
      Str("geometry") := Dict(map[Str("type") := Str(POLYGON), Str("coordinates") := List([coordinates])]),
      Str("properties") := Dict(map[
        Str("owner") := Null,
        Str("label") := labelName,
        Str("description") := Null,
        Str("machineGenerated") := Bool(true),
        Str("confidence") := score,
        Str("quality") := Null,
        Str("annotationGroup") := group,
        Str("labeledBy") := Null,
        Str("verifiedBy") := Null])])
  }

  /** What an annotation feature holds, read back the way the API reads it:
      the polygon geometry, the label, score and group it was given, and the
      machine-generated flag. */
  lemma AnnotationFeatureFields(coordinates: Value, labelName: Value, score: Value, group: Value)
    ensures var f := AnnotationFeature(coordinates, labelName, score, group);
            && Field(f, "geometry") == Ok(Dict(map[Str("type") := Str(POLYGON), Str("coordinates") := List([coordinates])]))
            && Property(f, "label") == Ok(labelName)
            && Property(f, "confidence") == Ok(score)
            && Property(f, "annotationGroup") == Ok(group)
            && Property(f, "machineGenerated") == Ok(Bool(true))
  {
  }

  /** Every other property of an annotation feature is `None`. */
  lemma AnnotationFeatureNulls(coordinates: Value, labelName: Value, score: Value, group: Value)
    ensures var f := AnnotationFeature(coordinates, labelName, score, group);
            && Property(f, "owner") == Ok(Null) && Property(f, "description") == Ok(Null)
            && Property(f, "quality") == Ok(Null) && Property(f, "labeledBy") == Ok(Null)
            && Property(f, "verifiedBy") == Ok(Null)
  {
  }

  /** The first `n` features of the list comprehension: the `i`-th triple's
      class id is looked up in the inverted class map, and the first id the
      map lacks raises `KeyError`. */
  function AnnotationFeatures(labels: ObjectDetectionLabels, crsTransformer: Value, group: Value,
                              invertedClassMap: map<Value, Value>, reproject: Reprojection, n: nat)
    : (r: Result<seq<Value>>)
    requires n <= FeatureCount(labels)
    ensures r.Ok? <==> forall i :: 0 <= i < n ==> labels.classes[i] in invertedClassMap
    ensures r.Ok? ==> |r.value| == n
    ensures r.Ok? ==> forall i :: 0 <= i < n ==>
              r.value[i] == AnnotationFeature(reproject(crsTransformer, labels.boxes[i]),
                                              invertedClassMap[labels.classes[i]], labels.scores[i], group)
    ensures r.Err? ==> exists j :: 0 <= j < n && r.error == KeyError(labels.classes[j])
                                   && labels.classes[j] !in invertedClassMap
                                   && forall i :: 0 <= i < j ==> labels.classes[i] in invertedClassMap
  {
    if n == 0 then Ok([])
    else
      var init :- AnnotationFeatures(labels, crsTransformer, group, invertedClassMap, reproject, n - 1);
      var classId := labels.classes[n - 1];
      if classId !in invertedClassMap then Err(KeyError(classId))
      else
        var r := init + [AnnotationFeature(reproject(crsTransformer, labels.boxes[n - 1]),
                                           invertedClassMap[classId], labels.scores[n - 1], group)];
        assert forall i :: 0 <= i < n - 1 ==> r[i] == init[i];
        Ok(r)
  }

  /** The attribute the converter reads first from its CRS transformer;
      any value that is not a transformer lacks it. */
  const TRANSFORM_ATTRIBUTE: string := "transform"

  /** `annotation_features_from_labels`: the latitude-longitude transformer
      is built from `crs_transformer.transform` before any prediction is
      read, then one feature per triple of the zipped box, class and score
      arrays, in order. */
  function AnnotationFeaturesFromLabels(labels: ObjectDetectionLabels, crsTransformer: Value, group: Value,
                                        invertedClassMap: map<Value, Value>, reproject: Reprojection)
    : (r: Result<seq<Value>>)
    ensures r.Ok? <==> && crsTransformer.Transformer?
                       && forall i :: 0 <= i < FeatureCount(labels) ==> labels.classes[i] in invertedClassMap
    ensures !crsTransformer.Transformer? ==> r == Err(AttributeError(TRANSFORM_ATTRIBUTE))
    ensures r.Ok? ==> |r.value| == FeatureCount(labels)
  {
    if !crsTransformer.Transformer? then Err(AttributeError(TRANSFORM_ATTRIBUTE))
    else AnnotationFeatures(labels, crsTransformer, group, invertedClassMap, reproject, FeatureCount(labels))
  }

  /** What each converted feature holds: the reprojected box as its only
      polygon ring, the label the inverted map gives its class id, its own
      score, the given annotation group, and the fixed flags. */
  lemma AnnotationFeaturesContents(labels: ObjectDetectionLabels, crsTransformer: Value, group: Value,
                                   invertedClassMap: map<Value, Value>, reproject: Reprojection, i: nat)
    requires AnnotationFeaturesFromLabels(labels, crsTransformer, group, invertedClassMap, reproject).Ok?
    requires i < FeatureCount(labels)
    ensures var f := AnnotationFeaturesFromLabels(labels, crsTransformer, group, invertedClassMap, reproject).value[i];
            && Field(f, "geometry") == Ok(Dict(map[Str("type") := Str(POLYGON),
                                                   Str("coordinates") := List([reproject(crsTransformer, labels.boxes[i])])]))
            && Property(f, "label") == Ok(invertedClassMap[labels.classes[i]])
            && Property(f, "confidence") == Ok(labels.scores[i])
            && Property(f, "annotationGroup") == Ok(group)
            && Property(f, "machineGenerated") == Ok(Bool(true))
  {
    AnnotationFeatureFields(reproject(crsTransformer, labels.boxes[i]), invertedClassMap[labels.classes[i]],
                            labels.scores[i], group);
  }

  /** Converting empty labels posts no features, but still needs a CRS
      transformer to build the reprojection from. */
  lemma EmptyLabelsConvertToNothing(crsTransformer: Value, group: Value, invertedClassMap: map<Value, Value>,
                                    reproject: Reprojection)
    ensures AnnotationFeaturesFromLabels(EmptyLabels(), crsTransformer, group, invertedClassMap, reproject)
            == if crsTransformer.Transformer? then Ok([]) else Err(AttributeError(TRANSFORM_ATTRIBUTE))
  {
  }
}

=== FILE: evaluator_config.dfy ===
/** The object-detection evaluator configuration and its immutable builder.
    `to_proto` writes the seven properties into `custom_config`, but the
    builder's `from_proto` reads them from top-level message fields, which
    that message does not have. */
module EvaluatorConfig {
  import opened Wrappers
  import opened Values
  import opened ImmutableBuilder
  import opened ConfigCodec

  /** `_properties`, in declaration order. */
  const PROPERTIES: seq<string> :=
    ["project_id", "experiment_id", "refresh_token", "class_map", "output_uri", "rf_api_host", "vision_api_host"]

  const PROPERTY_KEYS: set<string> :=
    {"project_id", "experiment_id", "refresh_token", "class_map", "output_uri", "rf_api_host", "vision_api_host"}

  /** A configuration: the seven constructor arguments. */
  datatype VisionObjectDetectionEvaluatorConfig = VisionObjectDetectionEvaluatorConfig(
    projectId: Value,
    experimentId: Value,
    refreshToken: Value,
    classMap: Value,
    outputUri: Value,
    rfApiHost: Value,
    visionApiHost: Value)

  /** What `getattr(config, k)` sees for every declared property. */
  function Attributes(c: VisionObjectDetectionEvaluatorConfig): (m: map<string, Value>)
    ensures m.Keys == PROPERTY_KEYS
  {
    map["project_id" := c.projectId,
        "experiment_id" := c.experimentId,
        "refresh_token" := c.refreshToken,
        "class_map" := c.classMap,
        "output_uri" := c.outputUri,
        "rf_api_host" := c.rfApiHost,
        "vision_api_host" := c.visionApiHost]
  }

  /** No property is the transformer or is spelled like one of its keys. */
  lemma PropertiesArePlain()
    ensures forall k :: k in PROPERTIES <==> k in PROPERTY_KEYS
    ensures CRS_TRANSFORMER !in PROPERTY_KEYS
    ensures forall k :: k in PROPERTIES ==> k !in CRS_KEYS
    ensures (set k | k in PROPERTIES && k != CRS_TRANSFORMER) == PROPERTY_KEYS
    ensures (set k | k in PROPERTIES) == PROPERTY_KEYS
  {
    forall k | k in PROPERTY_KEYS
      ensures k in PROPERTIES
    {
      if k == "project_id" { assert PROPERTIES[0] == k; }
      else if k == "experiment_id" { assert PROPERTIES[1] == k; }
      else if k == "refresh_token" { assert PROPERTIES[2] == k; }
      else if k == "class_map" { assert PROPERTIES[3] == k; }
      else if k == "output_uri" { assert PROPERTIES[4] == k; }
      else if k == "rf_api_host" { assert PROPERTIES[5] == k; }
      else { assert PROPERTIES[6] == k; }
    }
  }

  /** `to_proto`: a message whose only content is `custom_config`, holding
      exactly the seven properties, each under its own name. It raises
      `ValueError` when a property is a value `Struct` cannot hold. */
  function ToProto(c: VisionObjectDetectionEvaluatorConfig): (r: Result<ConfigMsg>)
    ensures r.Ok? <==> PlainValues(PROPERTIES, Attributes(c))
    ensures r.Err? ==> r.error == ValueError
    ensures r.Ok? ==> r.value.fields == map[]
    ensures r.Ok? ==> r.value.customConfig.Keys == PROPERTY_KEYS
    ensures r.Ok? ==> forall k :: k in PROPERTY_KEYS ==> r.value.customConfig[k] == Attributes(c)[k]
  {
    PropertiesArePlain();
    var customConfig :- EncodePlain(PROPERTIES, Attributes(c));
    Ok(ConfigMsg(map[], customConfig))
  }

  /** The constructor arguments of the evaluator. */
  datatype EvaluatorParams = EvaluatorParams(
    projectId: Value,
    experimentId: Value,
    refreshToken: Value,
    classMap: Value,
    outputUri: Value,
    rfApiHost: Value,
    visionApiHost: Value)

  /** `create_evaluator`: the seven fields, in declaration order. */
  function CreateEvaluator(c: VisionObjectDetectionEvaluatorConfig): (e: EvaluatorParams)
    ensures e.projectId == c.projectId && e.experimentId == c.experimentId && e.refreshToken == c.refreshToken
    ensures e.classMap == c.classMap && e.outputUri == c.outputUri
    ensures e.rfApiHost == c.rfApiHost && e.visionApiHost == c.visionApiHost
  {
    EvaluatorParams(c.projectId, c.experimentId, c.refreshToken, c.classMap, c.outputUri, c.rfApiHost,
                    c.visionApiHost)
  }

  /** The builder class: its properties and no class attributes. */
  const BUILDER_CLASS: BuilderClass := BuilderClass(PROPERTIES, map[])

  /** The builder's constructor: both hosts set to staging. */
  function NewBuilder(): (b: Builder)
    ensures b.cls == BUILDER_CLASS
    ensures GetAttr(b, "rf_api_host") == Some(Str(STAGING_RF_API_HOST))
    ensures GetAttr(b, "vision_api_host") == Some(Str(STAGING_VISION_API_HOST))
  {
    Builder(BUILDER_CLASS, map["rf_api_host" := Str(STAGING_RF_API_HOST),
                               "vision_api_host" := Str(STAGING_VISION_API_HOST)])
  }

  /** A fresh builder's `config` holds the two staging hosts and nothing else. */
  lemma NewBuilderConfig()
    ensures Config(NewBuilder()) == map["rf_api_host" := Str(STAGING_RF_API_HOST),
                                        "vision_api_host" := Str(STAGING_VISION_API_HOST)]
  {
    var c := Config(NewBuilder());
    assert "rf_api_host" in c && "vision_api_host" in c;
  }

  /** The properties the `with_*` methods set. */
  datatype Property = ProjectId | ExperimentId | RefreshToken | ClassMap | OutputUri | RfApiHost | VisionApiHost

  function PropertyName(p: Property): (n: string)
  {
    match p
    case ProjectId => "project_id"
    case ExperimentId => "experiment_id"
    case RefreshToken => "refresh_token"
    case ClassMap => "class_map"
    case OutputUri => "output_uri"
    case RfApiHost => "rf_api_host"
    case VisionApiHost => "vision_api_host"
  }

  /** Every declared property has exactly one `with_*` setter. */
  lemma SettersCoverProperties()
    ensures forall k :: k in PROPERTIES ==> exists p :: PropertyName(p) == k
    ensures forall p, q :: PropertyName(p) == PropertyName(q) ==> p == q
  {
    assert PropertyName(ProjectId) == PROPERTIES[0];
    assert PropertyName(ExperimentId) == PROPERTIES[1];
    assert PropertyName(RefreshToken) == PROPERTIES[2];
    assert PropertyName(ClassMap) == PROPERTIES[3];
    assert PropertyName(OutputUri) == PROPERTIES[4];
    assert PropertyName(RfApiHost) == PROPERTIES[5];
    assert PropertyName(VisionApiHost) == PROPERTIES[6];
  }

  /** `with_<property>(value)`: only that property changes. */
  function With(b: Builder, p: Property, value: Value): (r: Builder)
    ensures r.cls == b.cls
    ensures GetAttr(r, PropertyName(p)) == Some(value)
    ensures forall k :: k != PropertyName(p) ==> GetAttr(r, k) == GetAttr(b, k)
  {
    WithProperty(b, PropertyName(p), value)
  }

  /** The `with_*` calls of `from_proto`, once every field has been read. */
  function Assign(b: Builder, fields: map<string, Value>): (r: Builder)
    requires PROPERTY_KEYS <= fields.Keys
    ensures r.cls == b.cls
    ensures forall k :: k in PROPERTY_KEYS ==> GetAttr(r, k) == Some(fields[k])
  {
    var b1 := With(b, ProjectId, fields["project_id"]);
    var b2 := With(b1, ExperimentId, fields["experiment_id"]);
    var b3 := With(b2, RefreshToken, fields["refresh_token"]);
    var b4 := With(b3, ClassMap, fields["class_map"]);
    var b5 := With(b4, OutputUri, fields["output_uri"]);
    var b6 := With(b5, RfApiHost, fields["rf_api_host"]);
    With(b6, VisionApiHost, fields["vision_api_host"])
  }

  /** What the base class's `from_proto` does with a builder and a
      message; it belongs to the host framework. */
  type BaseFromProto = (Builder, ConfigMsg) -> Result<Builder>

  /** `from_proto`: the base class reads the message first, then each
      property is read from the top-level message field of the same name;
      a message type without that field raises `AttributeError`. */
  function FromProto(b: Builder, msg: ConfigMsg, base: BaseFromProto): (r: Result<Builder>)
    ensures r.Ok? <==> base(b, msg).Ok? && PROPERTY_KEYS <= msg.fields.Keys
    ensures r.Ok? ==> r.value.cls == base(b, msg).value.cls
    ensures r.Ok? ==> forall k :: k in PROPERTY_KEYS ==> GetAttr(r.value, k) == Some(msg.fields[k])
    ensures base(b, msg).Ok? && "project_id" !in msg.fields ==> r == Err(AttributeError("project_id"))
  {
    var b0 :- base(b, msg);
    if "project_id" !in msg.fields then Err(AttributeError("project_id"))
    else if "experiment_id" !in msg.fields then Err(AttributeError("experiment_id"))
    else if "refresh_token" !in msg.fields then Err(AttributeError("refresh_token"))
    else if "class_map" !in msg.fields then Err(AttributeError("class_map"))
    else if "output_uri" !in msg.fields then Err(AttributeError("output_uri"))
    else if "rf_api_host" !in msg.fields then Err(AttributeError("rf_api_host"))
    else if "vision_api_host" !in msg.fields then Err(AttributeError("vision_api_host"))
    else Ok(Assign(b0, msg.fields))
  }

  /** The builder cannot read what the configuration writes: whatever the
      base class does, `from_proto` on `to_proto`'s message raises, at the
      first property, when the base class itself does not. */
  lemma FromProtoRejectsToProto(c: VisionObjectDetectionEvaluatorConfig, b: Builder, base: BaseFromProto)
    ensures ToProto(c).Ok? ==> var msg := ToProto(c).value;
              && FromProto(b, msg, base).Err?
              && (base(b, msg).Ok? ==> FromProto(b, msg, base) == Err(AttributeError("project_id")))
              && (base(b, msg).Err? ==> FromProto(b, msg, base) == Err(base(b, msg).error))
  {
    assert "project_id" in PROPERTY_KEYS;
  }
}

=== FILE: immutable_builder.dfy ===
/** The immutable builder every configuration builder of the plugin derives
    from: a builder is a bag of named attributes, `with_property` returns a
    modified copy, and `config` projects the declared properties that are
    set to something other than `None`. */
module ImmutableBuilder {
  import opened Wrappers
  import opened Values

  /** What a builder class contributes: its `_properties` list and the
      attributes declared on the class itself (such as `source_type`). */
  datatype BuilderClass = BuilderClass(properties: seq<string>, classAttrs: map<string, Value>)

  /** A builder instance: its class and its own (instance) attributes. */
  datatype Builder = Builder(cls: BuilderClass, attrs: map<string, Value>)

  /** `getattr(b, name, None)` with absence kept apart from a stored `None`:
      the instance attribute if there is one, else the class attribute. */
  function GetAttr(b: Builder, name: string): Option<Value> {
    if name in b.attrs then Some(b.attrs[name])
    else if name in b.cls.classAttrs then Some(b.cls.classAttrs[name])
    else None
  }

  /** `getattr(b, name, None) is not None`. */
  predicate IsSet(b: Builder, name: string) {
    GetAttr(b, name).Some? && GetAttr(b, name).value != Null
  }

  /** `with_property`: a copy of `b` whose attribute `name` is `value`. The
      receiver is a value and so is never altered. */
  function WithProperty(b: Builder, name: string, value: Value): (r: Builder)
    ensures r.cls == b.cls
    ensures GetAttr(r, name) == Some(value)
    ensures forall k :: k != name ==> GetAttr(r, k) == GetAttr(b, k)
  {
    b.(attrs := b.attrs[name := value])
  }

  /** `config`: every declared property that is set to something other than
      `None`, mapped to its current value. */
  function Config(b: Builder): (r: map<string, Value>)
    ensures forall k :: k in r <==> k in b.cls.properties && IsSet(b, k)
    ensures forall k :: k in r ==> GetAttr(b, k) == Some(r[k])
  {
    map k | k in b.cls.properties && IsSet(b, k) :: GetAttr(b, k).value
  }

  /** Last write wins. */
  lemma WithPropertyLastWriteWins(b: Builder, name: string, x: Value, y: Value)
    ensures WithProperty(WithProperty(b, name, x), name, y) == WithProperty(b, name, y)
  {
  }

  /** Setting two different properties gives the same builder in either order. */
  lemma WithPropertyCommutes(b: Builder, n: string, x: Value, m: string, y: Value)
    requires n != m
    ensures WithProperty(WithProperty(b, n, x), m, y) == WithProperty(WithProperty(b, m, y), n, x)
  {
  }

  /** How one `with_property` changes the projected config: the property is
      added (or replaced) when it is declared and the value is not `None`,
      dropped otherwise, and every other entry stays as it was. */
  lemma ConfigAfterWithProperty(b: Builder, name: string, value: Value)
    ensures Config(WithProperty(b, name, value))
         == if name in b.cls.properties && value != Null then Config(b)[name := value] else Config(b) - {name}
  {
    var r := WithProperty(b, name, value);
    var lhs := Config(r);
    var rhs := if name in b.cls.properties && value != Null then Config(b)[name := value] else Config(b) - {name};
    forall k | k in lhs
      ensures k in rhs && lhs[k] == rhs[k]
    {
      if k != name {
        assert GetAttr(r, k) == GetAttr(b, k);
      }
    }
    forall k | k in rhs
      ensures k in lhs
    {
      if k != name {
        assert GetAttr(r, k) == GetAttr(b, k);
      }
    }
  }

  /** A builder reused as a common base: two copies that differ only in the
      value given to one property project the same config apart from that
      property, and the base keeps every other entry. */
  lemma SharedBaseBuilder(base: Builder, name: string, x: Value, y: Value)
    ensures Config(WithProperty(base, name, x)) - {name} == Config(base) - {name}
    ensures Config(WithProperty(base, name, x)) - {name} == Config(WithProperty(base, name, y)) - {name}
    ensures name in base.cls.properties && x != Null ==> Config(WithProperty(base, name, x))[name] == x
  {
    ConfigAfterWithProperty(base, name, x);
    ConfigAfterWithProperty(base, name, y);
  }

  /** A builder in which every declared property holds the value `attrs`
      gives it projects exactly the non-`None` part of `attrs`. */
  lemma ConfigOfAssignedBuilder(b: Builder, attrs: map<string, Value>)
    requires forall k :: k in attrs ==> k in b.cls.properties
    requires forall k :: k in b.cls.properties ==> k in attrs && GetAttr(b, k) == Some(attrs[k])
    ensures Config(b) == map k | k in attrs && attrs[k] != Null :: attrs[k]
  {
    var lhs := Config(b);
    var rhs := map k | k in attrs && attrs[k] != Null :: attrs[k];
    forall k | k in rhs
      ensures k in lhs
    {
      assert GetAttr(b, k) == Some(attrs[k]);
    }
    assert lhs.Keys == rhs.Keys;
  }
}

=== FILE: label_source.dfy ===
/** The annotation-group label source: it fetches a project's annotations
    and label list from Raster Foundry, turns each annotation into the
    minimal feature Raster Vision needs (geometry plus `class_id`), and hands
    the collection to the framework's reprojection. The HTTP calls are the
    inputs of `New`; the reprojection is a function parameter. */
module LabelSource {
  import opened Values
  import opened ClassMaps

  /** The constructor arguments of the label source. */
  datatype LabelSourceParams = LabelSourceParams(
    annotationGroup: Value,
    projectId: Value,
    projectLayerId: Value,
    refreshToken: Value,
    crsTransformer: Value,
    rfApiHost: Value,
    rfTileHost: Value)

  const STAGING_TILE_HOST: string := "tiles.staging.rasterfoundry.com"

  /** `annotation["properties"]["label"]`, when it can be read. */
  predicate HasLabel(annotation: Value) {
    && Field(annotation, "properties").Ok?
    && Field(Field(annotation, "properties").value, "label").Ok?
  }

  function LabelOf(annotation: Value): Value
    requires HasLabel(annotation)
  {
    Field(Field(annotation, "properties").value, "label").value
  }

  /** `_to_rv_feature`: keep the annotation's geometry as it is and replace
      its properties by the single `class_id` the class map gives its label.
      A missing geometry, properties or label, or a label the class map does
      not know, raises. */
  function ToRvFeature(annotation: Value, classMap: Value): (r: Result<Value>)
    ensures r.Ok? <==> Field(annotation, "geometry").Ok? && HasLabel(annotation)
                       && Get(classMap, LabelOf(annotation)).Ok?
    ensures r.Ok? ==> r.value.Dict? && r.value.entries.Keys == {Str("geometry"), Str("properties")}
    ensures r.Ok? ==> Field(r.value, "geometry") == Field(annotation, "geometry")
    ensures r.Ok? ==> Field(r.value, "properties")
                      == Ok(Dict(map[Str("class_id") := classMap.entries[LabelOf(annotation)]]))
  {
    var geometry :- Field(annotation, "geometry");
    var properties :- Field(annotation, "properties");
    var labelName :- Field(properties, "label");
    var classId :- Get(classMap, labelName);
    Ok(Dict(map[Str("geometry") := geometry, Str("properties") := Dict(map[Str("class_id") := classId])]))
  }

  /** The feature list of `_set_rv_labels`: one converted feature per raw
      feature, in the same order; the first feature that fails to convert
      makes the whole conversion fail. */
  function RvFeatures(features: seq<Value>, classMap: Value): (r: Result<seq<Value>>)
    ensures r.Ok? <==> forall i :: 0 <= i < |features| ==> ToRvFeature(features[i], classMap).Ok?
    ensures r.Ok? ==> |r.value| == |features|
    ensures r.Ok? ==> forall i :: 0 <= i < |features| ==> ToRvFeature(features[i], classMap) == Ok(r.value[i])
  {
    if |features| == 0 then Ok([])
    else
      var init := features[..|features| - 1];
      assert forall i :: 0 <= i < |init| ==> init[i] == features[i];
      var converted :- RvFeatures(init, classMap);
      var last :- ToRvFeature(features[|features| - 1], classMap);
      var r := converted + [last];
      assert forall i :: 0 <= i < |init| ==> r[i] == converted[i];
      Ok(r)
  }

  /** A constructed label source. */
  datatype RfAnnotationGroupLabelSource = RfAnnotationGroupLabelSource(
    params: LabelSourceParams,
    token: Value,
    rawLabels: Value,
    classMap: Value,
    rvLabelGeojson: Value)

  /** The collection handed to the reprojection. */
  function FeatureCollection(features: seq<Value>): Value {
    Object(map["features" := List(features)])
  }

  /** The constructor, given what its three API calls returned (`token`
      from the token call, `rawLabels` from the paginated annotation fetch,
      `project` from the project call) and the framework's
      `transform_geojson` for this source's CRS transformer. The class map is
      built from the project's labels first and then used to convert every
      raw annotation. */
  function New(params: LabelSourceParams, token: Value, rawLabels: Value, project: Value,
               transformGeojson: Value -> Value): (r: Result<RfAnnotationGroupLabelSource>)
    ensures r.Ok? ==> r.value.params == params && r.value.token == token && r.value.rawLabels == rawLabels
    ensures r.Ok? ==> ProjectLabels(project).Ok? && SourceClassMap(ProjectLabels(project).value).Ok?
    ensures r.Ok? ==> r.value.classMap == Dict(SourceClassMap(ProjectLabels(project).value).value)
    ensures r.Ok? ==> Field(rawLabels, "features").Ok? && Field(rawLabels, "features").value.List?
    ensures r.Ok? ==>
              var raw := Field(rawLabels, "features").value.items;
              && RvFeatures(raw, r.value.classMap).Ok?
              && |RvFeatures(raw, r.value.classMap).value| == |raw|
              && r.value.rvLabelGeojson == transformGeojson(FeatureCollection(RvFeatures(raw, r.value.classMap).value))
    ensures r.Err? <==> ProjectLabels(project).Err?
                        || SourceClassMap(ProjectLabels(project).value).Err?
                        || Field(rawLabels, "features").Err?
                        || !Field(rawLabels, "features").value.List?
                        || RvFeatures(Field(rawLabels, "features").value.items,
                                      Dict(SourceClassMap(ProjectLabels(project).value).value)).Err?
  {
    var labels :- ProjectLabels(project);
    var classMap :- SourceClassMap(labels);
    var features :- Field(rawLabels, "features");
    var raw :- Items(features);
    var converted :- RvFeatures(raw, Dict(classMap));
    Ok(RfAnnotationGroupLabelSource(params, token, rawLabels, Dict(classMap),
                                    transformGeojson(FeatureCollection(converted))))
  }
}

=== FILE: label_source_config.dfy ===
/** The label-source configuration and its immutable builder: the seven
    declared properties, the `custom_config` encoding written by `to_proto`,
    and the builder that reads it back. */
module LabelSourceConfig {
  import opened Wrappers
  import opened Values
  import opened ImmutableBuilder
  import opened ConfigCodec
  import Geo
  import LabelSource

  const SOURCE_TYPE: string := "RF_ANNOTATION_GROUP_LABEL_SOURCE"

  /** `_properties`, in declaration order. */
  const PROPERTIES: seq<string> :=
    ["annotation_group", "project_id", "project_layer_id", "refresh_token",
     "crs_transformer", "rf_api_host", "source_type"]

  /** The properties written and read back under their own names. */
  const PLAIN_KEYS: set<string> :=
    {"annotation_group", "project_id", "project_layer_id", "refresh_token", "rf_api_host", "source_type"}

  /** A configuration: the six constructor arguments. `source_type` is a
      class attribute, the same for every instance. */
  datatype RfLabelSourceConfig = RfLabelSourceConfig(
    annotationGroup: Value,
    projectId: Value,
    projectLayerId: Value,
    refreshToken: Value,
    crsTransformer: Value,
    rfApiHost: Value)

  /** What `getattr(config, k)` sees for every declared property. */
  function Attributes(c: RfLabelSourceConfig): (m: map<string, Value>)
    ensures forall k :: k in PROPERTIES ==> k in m
    ensures forall p :: PropertyName(p) in m
  {
    map["annotation_group" := c.annotationGroup,
        "project_id" := c.projectId,
        "project_layer_id" := c.projectLayerId,
        "refresh_token" := c.refreshToken,
        "crs_transformer" := c.crsTransformer,
        "rf_api_host" := c.rfApiHost,
        "source_type" := Str(SOURCE_TYPE)]
  }

  /** The keys `to_proto` writes into `custom_config`. */
  const ENCODED_KEYS: set<string> :=
    {"annotation_group", "project_id", "project_layer_id", "refresh_token",
     "map_crs", "image_crs", "transform", "rf_api_host", "source_type"}

  /** No property is spelled like a key of the transformer's encoding, and
      the transformer is among the properties. */
  lemma PropertiesAvoidCrsKeys()
    ensures forall k :: k in PROPERTIES ==> k !in CRS_KEYS
    ensures CRS_TRANSFORMER in PROPERTIES
  {
    forall i | 0 <= i < |PROPERTIES|
      ensures PROPERTIES[i] !in CRS_KEYS
    {
    }
    assert PROPERTIES[4] == CRS_TRANSFORMER;
  }

  /** Every plain key is a property other than the transformer. */
  lemma PlainKeysAreProperties()
    ensures forall k :: k in PLAIN_KEYS ==> k in PROPERTIES && k != CRS_TRANSFORMER
    ensures forall k :: k in PROPERTIES && k != CRS_TRANSFORMER ==> k in PLAIN_KEYS
  {
    assert PROPERTIES[0] == "annotation_group" && PROPERTIES[1] == "project_id";
    assert PROPERTIES[2] == "project_layer_id" && PROPERTIES[3] == "refresh_token";
    assert PROPERTIES[5] == "rf_api_host" && PROPERTIES[6] == "source_type";
  }

  lemma EncodedKeys()
    ensures (set k | k in PROPERTIES && k != CRS_TRANSFORMER) + CRS_KEYS == ENCODED_KEYS
  {
    var a := (set k | k in PROPERTIES && k != CRS_TRANSFORMER) + CRS_KEYS;
    forall k | k in ENCODED_KEYS
      ensures k in a
    {
      if k !in CRS_KEYS {
        assert k in PROPERTIES;
      }
    }
  }


  /** `to_proto`'s `custom_config`: every property but the transformer under
      its own name, the transformer as `map_crs`, `image_crs` and
      `transform`. It raises when the configured transformer is not one, or
      when a plain property is a value `Struct` cannot hold. */
  function ToProto(c: RfLabelSourceConfig): (r: Result<map<string, Value>>)
    ensures r.Ok? <==> c.crsTransformer.Transformer? && PlainValues(PROPERTIES, Attributes(c))
    ensures r.Ok? ==> r.value.Keys == ENCODED_KEYS
    ensures r.Ok? ==> forall k :: k in PLAIN_KEYS ==> r.value[k] == Attributes(c)[k]
    ensures r.Ok? ==> r.value["source_type"] == Str(SOURCE_TYPE)
    ensures r.Ok? ==> forall k :: k in CRS_KEYS ==> r.value[k] == EncodeTransformer(c.crsTransformer.t)[k]
  {
    PropertiesAvoidCrsKeys();
    PlainKeysAreProperties();
    EncodedKeys();
    EncodeStruct(PROPERTIES, Attributes(c))
  }

  /** `create_source`: the label source receives the six fields in
      declaration order, and its own default tile host. */
  function CreateSource(c: RfLabelSourceConfig): (s: LabelSource.LabelSourceParams)
    ensures s.annotationGroup == c.annotationGroup && s.projectId == c.projectId
    ensures s.projectLayerId == c.projectLayerId && s.refreshToken == c.refreshToken
    ensures s.crsTransformer == c.crsTransformer && s.rfApiHost == c.rfApiHost
    ensures s.rfTileHost == Str(LabelSource.STAGING_TILE_HOST)
  {
    LabelSource.LabelSourceParams(c.annotationGroup, c.projectId, c.projectLayerId, c.refreshToken,
                                  c.crsTransformer, c.rfApiHost, Str(LabelSource.STAGING_TILE_HOST))
  }

  /** The builder class: its properties and its `source_type` class attribute. */
  const BUILDER_CLASS: BuilderClass := BuilderClass(PROPERTIES, map["source_type" := Str(SOURCE_TYPE)])

  /** `RfLabelSourceConfigBuilder()`: only `rf_api_host` is set, to staging. */
  function NewBuilder(): (b: Builder)
    ensures b.cls == BUILDER_CLASS
    ensures GetAttr(b, "rf_api_host") == Some(Str(STAGING_RF_API_HOST))
  {
    Builder(BUILDER_CLASS, map["rf_api_host" := Str(STAGING_RF_API_HOST)])
  }

  /** A fresh builder's `config` already holds two entries: the staging host
      and, through the class attribute, the source type. */
  lemma NewBuilderConfig()
    ensures Config(NewBuilder()) == map["rf_api_host" := Str(STAGING_RF_API_HOST), "source_type" := Str(SOURCE_TYPE)]
  {
    var c := Config(NewBuilder());
    assert "rf_api_host" in c && "source_type" in c;
  }

  /** The properties the `with_*` methods set. */
  datatype Property =
    | AnnotationGroup | ProjectId | ProjectLayerId | RefreshToken | CrsTransformerProperty | RfApiHost | SourceType

  function PropertyName(p: Property): (n: string)
  {
    match p
    case AnnotationGroup => "annotation_group"
    case ProjectId => "project_id"
    case ProjectLayerId => "project_layer_id"
    case RefreshToken => "refresh_token"
    case CrsTransformerProperty => "crs_transformer"
    case RfApiHost => "rf_api_host"
    case SourceType => "source_type"
  }

  /** Every declared property has exactly one `with_*` setter. */
  lemma SettersCoverProperties()
    ensures forall k :: k in PROPERTIES ==> exists p :: PropertyName(p) == k
    ensures forall p, q :: PropertyName(p) == PropertyName(q) ==> p == q
  {
    assert PropertyName(AnnotationGroup) == PROPERTIES[0];
    assert PropertyName(ProjectId) == PROPERTIES[1];
    assert PropertyName(ProjectLayerId) == PROPERTIES[2];
    assert PropertyName(RefreshToken) == PROPERTIES[3];
    assert PropertyName(CrsTransformerProperty) == PROPERTIES[4];
    assert PropertyName(RfApiHost) == PROPERTIES[5];
    assert PropertyName(SourceType) == PROPERTIES[6];
  }

  /** `with_<property>(value)`: only that property changes. */
  function With(b: Builder, p: Property, value: Value): (r: Builder)
    ensures r.cls == b.cls
    ensures GetAttr(r, PropertyName(p)) == Some(value)
    ensures forall k :: k != PropertyName(p) ==> GetAttr(r, k) == GetAttr(b, k)
    ensures forall q :: q != p ==> GetAttr(r, PropertyName(q)) == GetAttr(b, PropertyName(q))
  {
    SettersCoverProperties();
    WithProperty(b, PropertyName(p), value)
  }

  /** The `with_*` calls of `from_proto`, once every value has been read:
      each plain key's value goes under the property of the same name. */
  function Assign(b: Builder, cc: map<string, Value>, transformer: Geo.CrsTransformer): (r: Builder)
    requires PLAIN_KEYS <= cc.Keys
    ensures r.cls == b.cls
    ensures GetAttr(r, PropertyName(AnnotationGroup)) == Some(cc["annotation_group"])
    ensures GetAttr(r, PropertyName(ProjectId)) == Some(cc["project_id"])
    ensures GetAttr(r, PropertyName(ProjectLayerId)) == Some(cc["project_layer_id"])
    ensures GetAttr(r, PropertyName(RefreshToken)) == Some(cc["refresh_token"])
    ensures GetAttr(r, PropertyName(CrsTransformerProperty)) == Some(Transformer(transformer))
    ensures GetAttr(r, PropertyName(RfApiHost)) == Some(cc["rf_api_host"])
    ensures GetAttr(r, PropertyName(SourceType)) == Some(cc["source_type"])
  {
    var b1 := With(b, AnnotationGroup, cc["annotation_group"]);
    var b2 := With(b1, ProjectId, cc["project_id"]);
    var b3 := With(b2, ProjectLayerId, cc["project_layer_id"]);
    var b4 := With(b3, RefreshToken, cc["refresh_token"]);
    var b5 := With(b4, CrsTransformerProperty, Transformer(transformer));
    var b6 := With(b5, RfApiHost, cc["rf_api_host"]);
    With(b6, SourceType, cc["source_type"])
  }

  /** `from_proto`: the four keys before the transformer, the transformer
      rebuilt from its three keys, then the last two keys; the first missing
      key or unreadable transformer raises. Every missing key raises the
      same `ValueError`, so checking them together keeps the error the
      source raises. */
  function FromProto(b: Builder, customConfig: map<string, Value>): (r: Result<Builder>)
    ensures r.Ok? <==> PLAIN_KEYS <= customConfig.Keys && DecodeTransformer(customConfig).Ok?
    ensures r.Ok? ==> r == Ok(Assign(b, customConfig, DecodeTransformer(customConfig).value))
  {
    if !("annotation_group" in customConfig && "project_id" in customConfig
         && "project_layer_id" in customConfig && "refresh_token" in customConfig)
    then Err(ValueError)
    else
      var transformer := DecodeTransformer(customConfig);
      if transformer.Err? then Err(transformer.error)
      else if !("rf_api_host" in customConfig && "source_type" in customConfig) then Err(ValueError)
      else Ok(Assign(b, customConfig, transformer.value))
  }

  /** For a configuration with a transformer, encoding succeeds exactly
      when its plain properties are values `Struct` can hold, and reading
      the encoding back then succeeds exactly when the transformer's image
      CRS has an EPSG code: `to_proto` writes no code otherwise, and
      `from_proto` cannot parse `epsg:None`. */
  lemma ProtoRoundTripSucceeds(c: RfLabelSourceConfig, b: Builder)
    requires c.crsTransformer.Transformer?
    ensures ToProto(c).Ok? <==> PlainValues(PROPERTIES, Attributes(c))
    ensures ToProto(c).Ok? ==> (FromProto(b, ToProto(c).value).Ok? <==> c.crsTransformer.t.imageCrs.EpsgCrs?)
  {
    if ToProto(c).Ok? {
      var cc := ToProto(c).value;
      TransformerRoundTrip(c.crsTransformer.t, cc);
      assert PLAIN_KEYS <= ENCODED_KEYS;
    }
  }

  /** Reading back what `to_proto` wrote assigns the configuration's own
      transformer along with the written entries. */
  lemma FromProtoOfToProto(c: RfLabelSourceConfig, b: Builder)
    requires c.crsTransformer.Transformer? && c.crsTransformer.t.imageCrs.EpsgCrs? && PlainValues(PROPERTIES, Attributes(c))
    ensures ToProto(c).Ok? && PLAIN_KEYS <= ToProto(c).value.Keys
    ensures FromProto(b, ToProto(c).value) == Ok(Assign(b, ToProto(c).value, c.crsTransformer.t))
  {
    ProtoRoundTripSucceeds(c, b);
    TransformerRoundTrip(c.crsTransformer.t, ToProto(c).value);
  }

  /** Assigning entries that agree with a configuration's attributes, and
      its transformer, stores every attribute under its property. */
  lemma AssignedAttributes(c: RfLabelSourceConfig, b: Builder, cc: map<string, Value>)
    requires c.crsTransformer.Transformer?
    requires PLAIN_KEYS <= cc.Keys
    requires forall k :: k in PLAIN_KEYS ==> cc[k] == Attributes(c)[k]
    ensures forall p :: GetAttr(Assign(b, cc, c.crsTransformer.t), PropertyName(p)) == Some(Attributes(c)[PropertyName(p)])
  {
    var attrs := Attributes(c);
    forall p
      ensures GetAttr(Assign(b, cc, c.crsTransformer.t), PropertyName(p)) == Some(attrs[PropertyName(p)])
    {
      if p == CrsTransformerProperty {
        assert attrs[CRS_TRANSFORMER] == Transformer(c.crsTransformer.t);
      } else {
        assert PropertyName(p) in PLAIN_KEYS;
      }
    }
  }

  /** After a successful round trip, every property's setter has stored
      the configuration's own value: the plain keys come back from their
      entries, the transformer from its three keys. */
  lemma ProtoRoundTripAttributes(c: RfLabelSourceConfig, b: Builder)
    requires c.crsTransformer.Transformer? && c.crsTransformer.t.imageCrs.EpsgCrs? && PlainValues(PROPERTIES, Attributes(c))
    ensures ToProto(c).Ok? && FromProto(b, ToProto(c).value).Ok?
    ensures forall p :: GetAttr(FromProto(b, ToProto(c).value).value, PropertyName(p))
                        == Some(Attributes(c)[PropertyName(p)])
  {
    FromProtoOfToProto(c, b);
    AssignedAttributes(c, b, ToProto(c).value);
  }

  /** After a successful round trip into any builder of this class, the
      builder holds every property of the configuration, so its `config` is
      the configuration's non-`None` attributes. */
  lemma ProtoRoundTrip(c: RfLabelSourceConfig, b: Builder)
    requires b.cls == BUILDER_CLASS
    requires c.crsTransformer.Transformer? && c.crsTransformer.t.imageCrs.EpsgCrs? && PlainValues(PROPERTIES, Attributes(c))
    ensures ToProto(c).Ok? && FromProto(b, ToProto(c).value).Ok?
    ensures forall k :: k in PROPERTIES ==> GetAttr(FromProto(b, ToProto(c).value).value, k) == Some(Attributes(c)[k])
    ensures Config(FromProto(b, ToProto(c).value).value)
            == map k | k in Attributes(c) && Attributes(c)[k] != Null :: Attributes(c)[k]
  {
    ProtoRoundTripAttributes(c, b);
    var r := FromProto(b, ToProto(c).value).value;
    var attrs := Attributes(c);
    SettersCoverProperties();
    assert forall k :: k in PROPERTIES ==> GetAttr(r, k) == Some(attrs[k]);
    assert forall k :: k in attrs ==> k in PROPERTIES;
    ConfigOfAssignedBuilder(r, attrs);
  }
}

=== FILE: label_store.dfy ===
/** The annotation-group label store: it reads labels back through the
    label source and saves predictions by posting them as annotations of
    its own group, project and layer. The token exchange of its constructor
    is answered by an `HttpResponse` input; the box reprojection is a
    function parameter. */
module LabelStore {
  import opened Values
  import opened ClassMaps
  import LabelSource
  import Converters
  import RasterFoundry

  /** The constructor arguments of the label store. */
  datatype LabelStoreParams = LabelStoreParams(
    annotationGroup: Value,
    projectId: Value,
    projectLayerId: Value,
    refreshToken: Value,
    crsTransformer: Value,
    classMap: Value,
    rfApiHost: Value)

  /** A constructed label store: its arguments and the API token its
      constructor obtained. */
  datatype RfAnnotationGroupLabelStore = RfAnnotationGroupLabelStore(params: LabelStoreParams, token: Value)

  /** The token request the constructor makes. */
  function ConstructorRequest(params: LabelStoreParams): (q: RasterFoundry.Request)
    ensures q.verb == RasterFoundry.Post && q.endpoint == RasterFoundry.Tokens(params.rfApiHost)
    ensures Field(q.json, "refresh_token") == Ok(params.refreshToken)
  {
    RasterFoundry.TokenRequest(params.refreshToken, params.rfApiHost)
  }

  /** The constructor, given the token endpoint's answer: a failed
      exchange raises and yields no store. */
  function New(params: LabelStoreParams, tokenResponse: RasterFoundry.HttpResponse)
    : (r: Result<RfAnnotationGroupLabelStore>)
    ensures r.Ok? <==> RasterFoundry.ApiToken(tokenResponse).Ok?
    ensures r.Ok? ==> r.value.params == params && r.value.token == RasterFoundry.ApiToken(tokenResponse).value
  {
    var token :- RasterFoundry.ApiToken(tokenResponse);
    Ok(RfAnnotationGroupLabelStore(params, token))
  }

  /** `get_labels`: the label source it reads through has the store's
      group, project, layer, refresh token, transformer and host, and the
      label source's own default tile host. */
  function ReadBackSource(store: RfAnnotationGroupLabelStore): (s: LabelSource.LabelSourceParams)
    ensures s.annotationGroup == store.params.annotationGroup && s.projectId == store.params.projectId
    ensures s.projectLayerId == store.params.projectLayerId && s.refreshToken == store.params.refreshToken
    ensures s.crsTransformer == store.params.crsTransformer && s.rfApiHost == store.params.rfApiHost
    ensures s.rfTileHost == Str(LabelSource.STAGING_TILE_HOST)
  {
    var p := store.params;
    LabelSource.LabelSourceParams(p.annotationGroup, p.projectId, p.projectLayerId, p.refreshToken,
                                  p.crsTransformer, p.rfApiHost, Str(LabelSource.STAGING_TILE_HOST))
  }

  /** `empty_labels`. */
  function EmptyLabels(store: RfAnnotationGroupLabelStore): (l: Converters.ObjectDetectionLabels)
    ensures Converters.FeatureCount(l) == 0
  {
    Converters.EmptyLabels()
  }

  /** `{v: k for k, v in class_map.items()}`, `order` being the dict's
      iteration order; a class map that is not a dict has no `items`. */
  function InvertedClassMap(classMap: Value, order: seq<Value>): (r: Result<map<Value, Value>>)
    requires classMap.Dict? ==> IterationOrder(order, classMap.entries)
    ensures r.Ok? <==> classMap.Dict?
    ensures r.Ok? ==> r.value.Keys == classMap.entries.Values
    ensures r.Ok? ==> forall v :: v in r.value ==> r.value[v] in classMap.entries && classMap.entries[r.value[v]] == v
    ensures r.Ok? && Injective(classMap.entries) ==>
              forall k :: k in classMap.entries ==> r.value[classMap.entries[k]] == k
  {
    if !classMap.Dict? then Err(AttributeError("items"))
    else
      InvertIsInverse(classMap.entries, order);
      Ok(Invert(classMap.entries, order))
  }

  /** `save`: the request it posts, with the features converted under the
      inverted class map. */
  function Save(store: RfAnnotationGroupLabelStore, labels: Converters.ObjectDetectionLabels, order: seq<Value>,
                reproject: Converters.Reprojection): (r: Result<RasterFoundry.Request>)
    requires store.params.classMap.Dict? ==> IterationOrder(order, store.params.classMap.entries)
    ensures r.Ok? <==> && store.params.classMap.Dict? && store.params.crsTransformer.Transformer?
                       && forall i :: 0 <= i < Converters.FeatureCount(labels) ==>
                            labels.classes[i] in store.params.classMap.entries.Values
    ensures !store.params.classMap.Dict? ==> r == Err(AttributeError("items"))
    ensures store.params.classMap.Dict? && !store.params.crsTransformer.Transformer? ==>
              r == Err(AttributeError(Converters.TRANSFORM_ATTRIBUTE))
    ensures r.Ok? ==> && r.value.verb == RasterFoundry.Post
                      && r.value.endpoint == RasterFoundry.Annotations(store.params.rfApiHost, store.params.projectId,
                                                                       store.params.projectLayerId)
                      && r.value.authorization == store.token
  {
    var p := store.params;
    var inverted :- InvertedClassMap(p.classMap, order);
    var features :- Converters.AnnotationFeaturesFromLabels(labels, p.crsTransformer, p.annotationGroup, inverted,
                                                            reproject);
    Ok(RasterFoundry.PostLabelsRequest(store.token, p.rfApiHost, p.projectId, p.projectLayerId, features))
  }

  /** The features `save` posts, when it posts. */
  function PostedFeatures(q: RasterFoundry.Request): seq<Value> {
    var features := Field(q.json, "features");
    if features.Ok? && features.value.List? then features.value.items else []
  }

  /** Every feature `save` posts belongs to the store's own annotation
      group, there is one per prediction, and its label is a key of the
      store's class map whose class id is the prediction's class: the label
      leads back to the class that was predicted. */
  lemma SavedFeatures(store: RfAnnotationGroupLabelStore, labels: Converters.ObjectDetectionLabels,
                      order: seq<Value>, reproject: Converters.Reprojection)
    requires store.params.classMap.Dict? ==> IterationOrder(order, store.params.classMap.entries)
    requires Save(store, labels, order, reproject).Ok?
    ensures var posted := PostedFeatures(Save(store, labels, order, reproject).value);
            && |posted| == Converters.FeatureCount(labels)
            && forall i :: 0 <= i < |posted| ==>
                 && Converters.Property(posted[i], "annotationGroup") == Ok(store.params.annotationGroup)
                 && Converters.Property(posted[i], "confidence") == Ok(labels.scores[i])
                 && Converters.Property(posted[i], "label").Ok?
                 && Converters.Property(posted[i], "label").value in store.params.classMap.entries
                 && store.params.classMap.entries[Converters.Property(posted[i], "label").value] == labels.classes[i]
  {
    var p := store.params;
    var inverted := InvertedClassMap(p.classMap, order).value;
    var features := Converters.AnnotationFeaturesFromLabels(labels, p.crsTransformer, p.annotationGroup, inverted,
                                                            reproject).value;
    assert PostedFeatures(Save(store, labels, order, reproject).value) == features;
    forall i | 0 <= i < |features|
      ensures Converters.Property(features[i], "annotationGroup") == Ok(p.annotationGroup)
      ensures Converters.Property(features[i], "confidence") == Ok(labels.scores[i])
      ensures Converters.Property(features[i], "label") == Ok(inverted[labels.classes[i]])
    {
      Converters.AnnotationFeaturesContents(labels, p.crsTransformer, p.annotationGroup, inverted, reproject, i);
    }
  }

  /** Saving the store's empty labels posts an empty feature list when the
      store has a CRS transformer, and raises when it has none. */
  lemma SaveEmptyLabels(store: RfAnnotationGroupLabelStore, order: seq<Value>, reproject: Converters.Reprojection)
    requires store.params.classMap.Dict? && IterationOrder(order, store.params.classMap.entries)
    ensures Save(store, EmptyLabels(store), order, reproject).Ok? <==> store.params.crsTransformer.Transformer?
    ensures Save(store, EmptyLabels(store), order, reproject).Ok? ==>
              PostedFeatures(Save(store, EmptyLabels(store), order, reproject).value) == []
  {
    Converters.EmptyLabelsConvertToNothing(store.params.crsTransformer, store.params.annotationGroup,
                                           InvertedClassMap(store.params.classMap, order).value, reproject);
  }

  /** For a store built with the label source's class map of a project,
      a prediction of class `c` is posted with the id of the project's
      `c`-th label. */
  lemma SavedLabelIsProjectLabel(store: RfAnnotationGroupLabelStore, labels: Converters.ObjectDetectionLabels,
                                 order: seq<Value>, reproject: Converters.Reprojection, projectLabels: seq<Value>)
    requires AllHaveIds(projectLabels)
    requires SourceClassMap(projectLabels).Ok? && store.params.classMap == Dict(SourceClassMap(projectLabels).value)
    requires IterationOrder(order, store.params.classMap.entries)
    requires Save(store, labels, order, reproject).Ok?
    ensures var posted := PostedFeatures(Save(store, labels, order, reproject).value);
            forall i :: 0 <= i < |posted| ==>
              && labels.classes[i].Int? && 1 <= labels.classes[i].i <= |projectLabels|
              && Converters.Property(posted[i], "label") == Ok(LabelId(projectLabels, labels.classes[i].i - 1))
  {
    SavedFeatures(store, labels, order, reproject);
    SourceClassMapContents(projectLabels);
  }
}

=== FILE: label_store_config.dfy ===
/** The label-store configuration and its immutable builder: the eight
    declared properties, the `custom_config` encoding written by `to_proto`,
    and the builder that reads it back. Unlike the label source's, this
    builder does not read `store_type` back; the class attribute supplies
    it. */
module LabelStoreConfig {
  import opened Wrappers
  import opened Values
  import opened ImmutableBuilder
  import opened ConfigCodec
  import Geo
  import LabelStore

  const STORE_TYPE: string := "RF_ANNOTATION_GROUP_LABEL_STORE"

  /** `_properties`, in declaration order. */
  const PROPERTIES: seq<string> :=
    ["annotation_group", "project_id", "project_layer_id", "refresh_token",
     "crs_transformer", "class_map", "rf_api_host", "store_type"]

  /** The properties `from_proto` reads back under their own names. */
  const READ_KEYS: set<string> :=
    {"annotation_group", "project_id", "project_layer_id", "refresh_token", "rf_api_host", "class_map"}

  /** A configuration: the seven constructor arguments. `store_type` is a
      class attribute, the same for every instance. */
  datatype RfLabelStoreConfig = RfLabelStoreConfig(
    annotationGroup: Value,
    projectId: Value,
    projectLayerId: Value,
    refreshToken: Value,
    crsTransformer: Value,
    classMap: Value,
    rfApiHost: Value)

  /** What `getattr(config, k)` sees for every declared property. */
  function Attributes(c: RfLabelStoreConfig): (m: map<string, Value>)
    ensures forall k :: k in PROPERTIES ==> k in m
    ensures forall p :: PropertyName(p) in m
  {
    map["annotation_group" := c.annotationGroup,
        "project_id" := c.projectId,
        "project_layer_id" := c.projectLayerId,
        "refresh_token" := c.refreshToken,
        "crs_transformer" := c.crsTransformer,
        "class_map" := c.classMap,
        "rf_api_host" := c.rfApiHost,
        "store_type" := Str(STORE_TYPE)]
  }

  /** The keys `to_proto` writes into `custom_config`. */
  const ENCODED_KEYS: set<string> :=
    {"annotation_group", "project_id", "project_layer_id", "refresh_token",
     "map_crs", "image_crs", "transform", "class_map", "rf_api_host", "store_type"}

  lemma EncodedKeys()
    ensures (set k | k in PROPERTIES && k != CRS_TRANSFORMER) + CRS_KEYS == ENCODED_KEYS
  {
    var a := (set k | k in PROPERTIES && k != CRS_TRANSFORMER) + CRS_KEYS;
    forall k | k in ENCODED_KEYS
      ensures k in a
    {
      if k !in CRS_KEYS {
        assert k in PROPERTIES;
      }
    }
  }

  /** The transformer is a declared property, and no property is spelled
      like one of the keys the transformer is encoded under. */
  lemma PropertiesEncodable()
    ensures CRS_TRANSFORMER in PROPERTIES
    ensures forall k :: k in PROPERTIES ==> k !in CRS_KEYS
  {
    forall i | 0 <= i < |PROPERTIES|
      ensures PROPERTIES[i] !in CRS_KEYS
    {
    }
    assert PROPERTIES[4] == CRS_TRANSFORMER;
  }

  /** Every key read back, and `store_type`, is a property other than the
      transformer. */
  lemma ReadKeysAreProperties()
    ensures forall k :: k in READ_KEYS ==> k in PROPERTIES && k != CRS_TRANSFORMER
    ensures "store_type" in PROPERTIES && "store_type" != CRS_TRANSFORMER
    ensures forall k :: k in PROPERTIES && k != CRS_TRANSFORMER ==> k in READ_KEYS || k == "store_type"
  {
    assert PROPERTIES[0] == "annotation_group" && PROPERTIES[1] == "project_id";
    assert PROPERTIES[2] == "project_layer_id" && PROPERTIES[3] == "refresh_token";
    assert PROPERTIES[5] == "class_map" && PROPERTIES[6] == "rf_api_host" && PROPERTIES[7] == "store_type";
  }


  /** `to_proto`'s `custom_config`: every property but the transformer under
      its own name, `class_map` and `store_type` included, the transformer
      as `map_crs`, `image_crs` and `transform`. It raises when the
      configured transformer is not one, or when a plain property is a
      value `Struct` cannot hold. */
  function ToProto(c: RfLabelStoreConfig): (r: Result<map<string, Value>>)
    ensures r.Ok? <==> c.crsTransformer.Transformer? && PlainValues(PROPERTIES, Attributes(c))
    ensures r.Ok? ==> r.value.Keys == ENCODED_KEYS
    ensures r.Ok? ==> forall k :: k in READ_KEYS ==> r.value[k] == Attributes(c)[k]
    ensures r.Ok? ==> r.value["store_type"] == Str(STORE_TYPE)
    ensures r.Ok? ==> forall k :: k in CRS_KEYS ==> r.value[k] == EncodeTransformer(c.crsTransformer.t)[k]
  {
    EncodedKeys();
    PropertiesEncodable();
    ReadKeysAreProperties();
    EncodeStruct(PROPERTIES, Attributes(c))
  }

  /** `create_store`: the store receives the seven fields in declaration
      order. */
  function CreateStore(c: RfLabelStoreConfig): (s: LabelStore.LabelStoreParams)
    ensures s.annotationGroup == c.annotationGroup && s.projectId == c.projectId
    ensures s.projectLayerId == c.projectLayerId && s.refreshToken == c.refreshToken
    ensures s.crsTransformer == c.crsTransformer && s.classMap == c.classMap && s.rfApiHost == c.rfApiHost
  {
    LabelStore.LabelStoreParams(c.annotationGroup, c.projectId, c.projectLayerId, c.refreshToken,
                                c.crsTransformer, c.classMap, c.rfApiHost)
  }

  /** The builder class: its properties and its `store_type` class attribute. */
  const BUILDER_CLASS: BuilderClass := BuilderClass(PROPERTIES, map["store_type" := Str(STORE_TYPE)])

  /** `RfLabelStoreConfigBuilder()`: only `rf_api_host` is set, to staging. */
  function NewBuilder(): (b: Builder)
    ensures b.cls == BUILDER_CLASS
    ensures GetAttr(b, "rf_api_host") == Some(Str(STAGING_RF_API_HOST))
  {
    Builder(BUILDER_CLASS, map["rf_api_host" := Str(STAGING_RF_API_HOST)])
  }

  /** A fresh builder's `config` already holds two entries: the staging host
      and, through the class attribute, the store type. */
  lemma NewBuilderConfig()
    ensures Config(NewBuilder()) == map["rf_api_host" := Str(STAGING_RF_API_HOST), "store_type" := Str(STORE_TYPE)]
  {
    var c := Config(NewBuilder());
    assert "rf_api_host" in c && "store_type" in c;
  }

  /** The properties the `with_*` methods set. */
  datatype Property =
    | AnnotationGroup | ProjectId | ProjectLayerId | RefreshToken | CrsTransformerProperty | ClassMap
    | RfApiHost | StoreType

  function PropertyName(p: Property): (n: string)
  {
    match p
    case AnnotationGroup => "annotation_group"
    case ProjectId => "project_id"
    case ProjectLayerId => "project_layer_id"
    case RefreshToken => "refresh_token"
    case CrsTransformerProperty => "crs_transformer"
    case ClassMap => "class_map"
    case RfApiHost => "rf_api_host"
    case StoreType => "store_type"
  }

  /** Every declared property has exactly one `with_*` setter. */
  lemma SettersCoverProperties()
    ensures forall k :: k in PROPERTIES ==> exists p :: PropertyName(p) == k
    ensures forall p, q :: PropertyName(p) == PropertyName(q) ==> p == q
  {
    assert PropertyName(AnnotationGroup) == PROPERTIES[0];
    assert PropertyName(ProjectId) == PROPERTIES[1];
    assert PropertyName(ProjectLayerId) == PROPERTIES[2];
    assert PropertyName(RefreshToken) == PROPERTIES[3];
    assert PropertyName(CrsTransformerProperty) == PROPERTIES[4];
    assert PropertyName(ClassMap) == PROPERTIES[5];
    assert PropertyName(RfApiHost) == PROPERTIES[6];
    assert PropertyName(StoreType) == PROPERTIES[7];
  }

  /** `with_<property>(value)`: only that property changes. */
  function With(b: Builder, p: Property, value: Value): (r: Builder)
    ensures r.cls == b.cls
    ensures GetAttr(r, PropertyName(p)) == Some(value)
    ensures forall k :: k != PropertyName(p) ==> GetAttr(r, k) == GetAttr(b, k)
    ensures forall q :: q != p ==> GetAttr(r, PropertyName(q)) == GetAttr(b, PropertyName(q))
  {
    SettersCoverProperties();
    WithProperty(b, PropertyName(p), value)
  }

  /** The `with_*` calls of `from_proto`, once every value has been read:
      each read key's value goes under the property of the same name, and
      `store_type` is left as it was. */
  function Assign(b: Builder, cc: map<string, Value>, transformer: Geo.CrsTransformer): (r: Builder)
    requires READ_KEYS <= cc.Keys
    ensures r.cls == b.cls
    ensures GetAttr(r, PropertyName(AnnotationGroup)) == Some(cc["annotation_group"])
    ensures GetAttr(r, PropertyName(ProjectId)) == Some(cc["project_id"])
    ensures GetAttr(r, PropertyName(ProjectLayerId)) == Some(cc["project_layer_id"])
    ensures GetAttr(r, PropertyName(RefreshToken)) == Some(cc["refresh_token"])
    ensures GetAttr(r, PropertyName(CrsTransformerProperty)) == Some(Transformer(transformer))
    ensures GetAttr(r, PropertyName(ClassMap)) == Some(cc["class_map"])
    ensures GetAttr(r, PropertyName(RfApiHost)) == Some(cc["rf_api_host"])
    ensures GetAttr(r, PropertyName(StoreType)) == GetAttr(b, PropertyName(StoreType))
  {
    var b1 := With(b, AnnotationGroup, cc["annotation_group"]);
    var b2 := With(b1, ProjectId, cc["project_id"]);
    var b3 := With(b2, ProjectLayerId, cc["project_layer_id"]);
    var b4 := With(b3, RefreshToken, cc["refresh_token"]);
    var b5 := With(b4, CrsTransformerProperty, Transformer(transformer));
    var b6 := With(b5, RfApiHost, cc["rf_api_host"]);
    With(b6, ClassMap, cc["class_map"])
  }

  /** `from_proto`: the four keys before the transformer, the transformer
      rebuilt from its three keys, then `rf_api_host` and `class_map`; the
      first missing key or unreadable transformer raises. Every missing key
      raises the same `ValueError`, so checking them together keeps the
      error the source raises. */
  function FromProto(b: Builder, customConfig: map<string, Value>): (r: Result<Builder>)
    ensures r.Ok? <==> READ_KEYS <= customConfig.Keys && DecodeTransformer(customConfig).Ok?
    ensures r.Ok? ==> r == Ok(Assign(b, customConfig, DecodeTransformer(customConfig).value))
  {
    if !("annotation_group" in customConfig && "project_id" in customConfig
         && "project_layer_id" in customConfig && "refresh_token" in customConfig)
    then Err(ValueError)
    else
      var transformer := DecodeTransformer(customConfig);
      if transformer.Err? then Err(transformer.error)
      else if !("rf_api_host" in customConfig && "class_map" in customConfig) then Err(ValueError)
      else Ok(Assign(b, customConfig, transformer.value))
  }

  /** For a configuration with a transformer, encoding succeeds exactly
      when its plain properties are values `Struct` can hold, and reading
      the encoding back then succeeds exactly when the transformer's image
      CRS has an EPSG code. */
  lemma ProtoRoundTripSucceeds(c: RfLabelStoreConfig, b: Builder)
    requires c.crsTransformer.Transformer?
    ensures ToProto(c).Ok? <==> PlainValues(PROPERTIES, Attributes(c))
    ensures ToProto(c).Ok? ==> (FromProto(b, ToProto(c).value).Ok? <==> c.crsTransformer.t.imageCrs.EpsgCrs?)
  {
    if ToProto(c).Ok? {
      var cc := ToProto(c).value;
      TransformerRoundTrip(c.crsTransformer.t, cc);
      assert READ_KEYS <= ENCODED_KEYS;
    }
  }

  /** Reading back what `to_proto` wrote assigns the configuration's own
      transformer along with the written entries. */
  lemma FromProtoOfToProto(c: RfLabelStoreConfig, b: Builder)
    requires c.crsTransformer.Transformer? && c.crsTransformer.t.imageCrs.EpsgCrs? && PlainValues(PROPERTIES, Attributes(c))
    ensures ToProto(c).Ok? && READ_KEYS <= ToProto(c).value.Keys
    ensures FromProto(b, ToProto(c).value) == Ok(Assign(b, ToProto(c).value, c.crsTransformer.t))
  {
    ProtoRoundTripSucceeds(c, b);
    TransformerRoundTrip(c.crsTransformer.t, ToProto(c).value);
  }

  /** Assigning entries that agree with a configuration's attributes, and
      its transformer, to a builder of this class without a `store_type` of
      its own stores every attribute under its property, `store_type`
      through the class attribute. */
  lemma AssignedAttributes(c: RfLabelStoreConfig, b: Builder, cc: map<string, Value>)
    requires b.cls == BUILDER_CLASS && "store_type" !in b.attrs
    requires c.crsTransformer.Transformer?
    requires READ_KEYS <= cc.Keys
    requires forall k :: k in READ_KEYS ==> cc[k] == Attributes(c)[k]
    ensures forall p :: GetAttr(Assign(b, cc, c.crsTransformer.t), PropertyName(p)) == Some(Attributes(c)[PropertyName(p)])
  {
    var attrs := Attributes(c);
    forall p
      ensures GetAttr(Assign(b, cc, c.crsTransformer.t), PropertyName(p)) == Some(attrs[PropertyName(p)])
    {
      if p == CrsTransformerProperty {
        assert attrs[CRS_TRANSFORMER] == Transformer(c.crsTransformer.t);
      } else if p == StoreType {
        assert PropertyName(p) == "store_type";
        assert GetAttr(b, "store_type") == Some(Str(STORE_TYPE));
        assert attrs["store_type"] == Str(STORE_TYPE);
      } else {
        assert PropertyName(p) in READ_KEYS;
      }
    }
  }

  /** After a successful round trip into a builder of this class that has
      no `store_type` of its own, the builder holds every property of the
      configuration, `store_type` through the class attribute. */
  lemma ProtoRoundTripAttributes(c: RfLabelStoreConfig, b: Builder)
    requires b.cls == BUILDER_CLASS && "store_type" !in b.attrs
    requires c.crsTransformer.Transformer? && c.crsTransformer.t.imageCrs.EpsgCrs? && PlainValues(PROPERTIES, Attributes(c))
    ensures ToProto(c).Ok? && FromProto(b, ToProto(c).value).Ok?
    ensures forall k :: k in PROPERTIES ==> GetAttr(FromProto(b, ToProto(c).value).value, k) == Some(Attributes(c)[k])
  {
    FromProtoOfToProto(c, b);
    AssignedAttributes(c, b, ToProto(c).value);
    SettersCoverProperties();
  }

  /** Hence the round trip's `config` is the configuration's non-`None`
      attributes, although `store_type` was never read back. */
  lemma ProtoRoundTrip(c: RfLabelStoreConfig, b: Builder)
    requires b.cls == BUILDER_CLASS && "store_type" !in b.attrs
    requires c.crsTransformer.Transformer? && c.crsTransformer.t.imageCrs.EpsgCrs? && PlainValues(PROPERTIES, Attributes(c))
    ensures ToProto(c).Ok? && FromProto(b, ToProto(c).value).Ok?
    ensures Config(FromProto(b, ToProto(c).value).value)
            == map k | k in Attributes(c) && Attributes(c)[k] != Null :: Attributes(c)[k]
  {
    ProtoRoundTripAttributes(c, b);
    var attrs := Attributes(c);
    assert forall k :: k in attrs ==> k in PROPERTIES;
    ConfigOfAssignedBuilder(FromProto(b, ToProto(c).value).value, attrs);
  }
}

=== FILE: post_experiments.dfy ===
/** The data preparation of the experiment-posting example: predictions
    turned into annotations under the experiment's class map, the class-map
    entries sent with a new experiment, and the choice of the `average`
    evaluation entry. The HTTP calls around them are not modelled. */
module PostExperiments {
  import opened Values
  import opened ClassMaps
  import Converters

  /** One prediction turned into an annotation feature. The reads happen in
      the source's order: the prediction's class id, its label in the class
      map, its score, its geometry; the first that fails raises. */
  function ToAnnotation(f: Value, groupId: Value, classMap: map<Value, Value>): (r: Result<Value>)
    ensures r.Ok? <==> && Converters.Property(f, "class_id").Ok?
                       && Converters.Property(f, "class_id").value in classMap
                       && Converters.Property(f, "score").Ok?
                       && Field(f, "geometry").Ok?
    ensures Converters.Property(f, "class_id").Ok? && Converters.Property(f, "class_id").value !in classMap ==>
              r == Err(KeyError(Converters.Property(f, "class_id").value))
    ensures r.Ok? ==> && Field(r.value, "type") == Ok(Str("Feature"))
                      && Field(r.value, "geometry") == Field(f, "geometry")
                      && Converters.Property(r.value, "label")
                         == Ok(classMap[Converters.Property(f, "class_id").value])
                      && Converters.Property(r.value, "confidence") == Converters.Property(f, "score")
                      && Converters.Property(r.value, "annotationGroup") == Ok(groupId)
                      && Converters.Property(r.value, "machineGenerated") == Ok(Bool(true))
                      && Converters.Property(r.value, "description") == Ok(Null)
                      && Converters.Property(r.value, "quality") == Ok(Null)
                      && Converters.Property(r.value, "taskId") == Ok(Null)
  {
    var classId :- Converters.Property(f, "class_id");
    if classId !in classMap then Err(KeyError(classId))
    else
      var score :- Converters.Property(f, "score");
      var geometry :- Field(f, "geometry");
      Ok(Dict(map[
        Str("type") := Str("Feature"),
        Str("properties") := Dict(map[
          Str("label") := classMap[classId],
          Str("description") := Null,
          Str("machineGenerated") := Bool(true),
          Str("confidence") := score,
          Str("quality") := Null,
          Str("annotationGroup") := groupId,
          Str("taskId") := Null]),
        Str("geometry") := geometry]))
  }

  /** The feature collection wrapped around converted features. */
  function FeatureCollection(features: seq<Value>): (v: Value)
    ensures Field(v, "type") == Ok(Str("FeatureCollection"))
    ensures Field(v, "features") == Ok(List(features))
  {
    Dict(map[Str("type") := Str("FeatureCollection"), Str("features") := List(features)])
  }

  /** `_object_detection_labels_to_annotations`: every prediction of
      `labels["features"]` converted, in order, into one feature collection;
      the first prediction that cannot be converted raises its error. */
  method ObjectDetectionLabelsToAnnotations(labels: Value, groupId: Value, classMap: map<Value, Value>)
    returns (r: Result<Value>)
    ensures Field(labels, "features").Err? ==> r == Err(Field(labels, "features").error)
    ensures Field(labels, "features").Ok? && !Field(labels, "features").value.List? ==> r == Err(TypeError)
    ensures r.Ok? <==> && Field(labels, "features").Ok? && Field(labels, "features").value.List?
                       && var fs := Field(labels, "features").value.items;
                          forall i :: 0 <= i < |fs| ==> ToAnnotation(fs[i], groupId, classMap).Ok?
    ensures r.Ok? ==> && Field(labels, "features").Ok? && Field(labels, "features").value.List?
                      && var fs := Field(labels, "features").value.items;
                         && Field(r.value, "type") == Ok(Str("FeatureCollection"))
                         && Field(r.value, "features").Ok? && Field(r.value, "features").value.List?
                         && var out := Field(r.value, "features").value.items;
                            && |out| == |fs|
                            && forall i :: 0 <= i < |fs| ==> out[i] == ToAnnotation(fs[i], groupId, classMap).value
    ensures r.Err? && Field(labels, "features").Ok? && Field(labels, "features").value.List? ==>
              var fs := Field(labels, "features").value.items;
              exists j :: && 0 <= j < |fs| && ToAnnotation(fs[j], groupId, classMap) == Err(r.error)
                          && forall i :: 0 <= i < j ==> ToAnnotation(fs[i], groupId, classMap).Ok?
  {
    var input := Field(labels, "features");
    if input.Err? {
      return Err(input.error);
    }
    var items := Items(input.value);
    if items.Err? {
      return Err(items.error);
    }
    var fs := items.value;
    var features: seq<Value> := [];
    var i := 0;
    while i < |fs|
      invariant 0 <= i <= |fs|
      invariant |features| == i
      invariant forall j :: 0 <= j < i ==> ToAnnotation(fs[j], groupId, classMap).Ok?
      invariant forall j :: 0 <= j < i ==> features[j] == ToAnnotation(fs[j], groupId, classMap).value
    {
      var next := ToAnnotation(fs[i], groupId, classMap);
      if next.Err? {
        return Err(next.error);
      }
      features := features + [next.value];
      i := i + 1;
    }
    return Ok(FeatureCollection(features));
  }

  /** With the experiment map of a project whose label ids are distinct, a
      converted prediction's label leads back, under the label source's map,
      to the prediction's class id. */
  lemma AnnotationLabelLeadsBack(f: Value, groupId: Value, labels: seq<Value>)
    requires DistinctIds(labels)
    requires ExperimentClassMap(labels).Ok? && ToAnnotation(f, groupId, ExperimentClassMap(labels).value).Ok?
    ensures SourceClassMap(labels).Ok?
    ensures var name := Converters.Property(ToAnnotation(f, groupId, ExperimentClassMap(labels).value).value, "label");
            && name.Ok? && name.value in SourceClassMap(labels).value
            && SourceClassMap(labels).value[name.value] == Converters.Property(f, "class_id").value
  {
    ExperimentMapInvertsSourceMap(labels);
  }

  /** One `exp_class_map` entry, for the label at index `idx`: its id, the
      class id `idx + 1`, its name and its colour, read in that order. */
  function ExpClassMapEntry(idx: nat, item: Value): (r: Result<Value>)
    ensures r.Ok? <==> && Field(item, "id").Ok? && Field(item, "name").Ok?
                       && Field(item, "colorHexCode").Ok?
    ensures r.Ok? ==> && Field(r.value, "labelId") == Field(item, "id")
                      && Field(r.value, "classId") == Ok(Int(idx + 1))
                      && Field(r.value, "className") == Field(item, "name")
                      && Field(r.value, "colorHexCode") == Field(item, "colorHexCode")
  {
    var labelId :- Field(item, "id");
    var className :- Field(item, "name");
    var color :- Field(item, "colorHexCode");
    Ok(Dict(map[Str("labelId") := labelId, Str("classId") := Int(idx + 1), Str("className") := className,
                Str("colorHexCode") := color]))
  }

  /** `exp_class_map`: one entry per project label, in order; the first
      label missing a key raises. */
  function ExpClassMap(labels: seq<Value>): (r: Result<seq<Value>>)
    ensures r.Ok? <==> forall i :: 0 <= i < |labels| ==> ExpClassMapEntry(i, labels[i]).Ok?
    ensures r.Ok? ==> |r.value| == |labels|
    ensures r.Ok? ==> forall i :: 0 <= i < |labels| ==> r.value[i] == ExpClassMapEntry(i, labels[i]).value
  {
    if |labels| == 0 then Ok([])
    else
      var init := labels[..|labels| - 1];
      assert forall i :: 0 <= i < |init| ==> init[i] == labels[i];
      var entries :- ExpClassMap(init);
      var last :- ExpClassMapEntry(|labels| - 1, labels[|labels| - 1]);
      Ok(entries + [last])
  }

  /** The experiment's class-map entries agree with the class map its
      predictions are converted under: entry `i` pairs class id `i + 1` with
      the label id that map gives it. */
  lemma ExpClassMapAgreesWithClassMap(labels: seq<Value>)
    requires ExpClassMap(labels).Ok?
    ensures ExperimentClassMap(labels).Ok?
    ensures forall i :: 0 <= i < |labels| ==>
              var entry := ExpClassMap(labels).value[i];
              && Field(entry, "classId") == Ok(Int(i + 1))
              && Int(i + 1) in ExperimentClassMap(labels).value
              && Field(entry, "labelId") == Ok(ExperimentClassMap(labels).value[Int(i + 1)])
  {
    forall i | 0 <= i < |labels|
      ensures HasId(labels[i])
    {
      assert ExpClassMapEntry(i, labels[i]).Ok?;
      assert Field(labels[i], "id").Ok?;
    }
    var entries := ExpClassMap(labels).value;
    var exp := ExperimentClassMap(labels).value;
    forall i | 0 <= i < |labels|
      ensures && Field(entries[i], "classId") == Ok(Int(i + 1))
              && Int(i + 1) in exp
              && Field(entries[i], "labelId") == Ok(exp[Int(i + 1)])
    {
      assert entries[i] == ExpClassMapEntry(i, labels[i]).value;
      assert Field(labels[i], "id") == Ok(LabelId(labels, i));
      assert exp[Int(i + 1)] == LabelId(labels, i);
    }
  }

  /** The `average` entries of a list, in order and with their repeats:
      the filter's reference, leaving out the class-name lookups that can
      raise. */
  function Averages(s: seq<Value>): seq<Value> {
    if |s| == 0 then []
    else (if Field(s[0], "class_name") == Ok(Str("average")) then [s[0]] else []) + Averages(s[1..])
  }

  /** The reference filter works entry by entry: filtering two lists one
      after the other is filtering their concatenation. */
  lemma {:induction false} AveragesAppend(a: seq<Value>, b: seq<Value>)
    ensures Averages(a + b) == Averages(a) + Averages(b)
    decreases |a|
  {
    if |a| == 0 {
      assert a + b == b;
    } else {
      var kept := if Field(a[0], "class_name") == Ok(Str("average")) then [a[0]] else [];
      assert (a + b)[0] == a[0] && (a + b)[1..] == a[1..] + b;
      assert Averages(a + b) == kept + Averages(a[1..] + b);
      AveragesAppend(a[1..], b);
      assert kept + (Averages(a[1..]) + Averages(b)) == (kept + Averages(a[1..])) + Averages(b);
    }
  }

  /** The reference filter keeps exactly the `average` entries. */
  lemma {:induction false} AveragesMembers(s: seq<Value>)
    ensures forall x :: x in Averages(s) <==> x in s && Field(x, "class_name") == Ok(Str("average"))
    decreases |s|
  {
    if |s| > 0 {
      AveragesMembers(s[1..]);
      assert s == [s[0]] + s[1..];
    }
  }

  /** The reference filter keeps every `average` entry as often as it
      occurs, and nothing else. */
  lemma {:induction false} AveragesCount(s: seq<Value>)
    ensures forall x :: multiset(Averages(s))[x] ==
                          if Field(x, "class_name") == Ok(Str("average")) then multiset(s)[x] else 0
    decreases |s|
  {
    if |s| > 0 {
      AveragesCount(s[1..]);
      assert s == [s[0]] + s[1..];
      assert multiset(s) == multiset([s[0]]) + multiset(s[1..]);
    }
  }

  /** The reference filter's first element is the first `average` entry. */
  lemma {:induction false} AveragesFirst(s: seq<Value>)
    ensures |Averages(s)| > 0 ==>
              exists i :: && 0 <= i < |s| && s[i] == Averages(s)[0]
                          && Field(s[i], "class_name") == Ok(Str("average"))
                          && forall j :: 0 <= j < i ==> Field(s[j], "class_name") != Ok(Str("average"))
    decreases |s|
  {
    if |s| > 0 && Field(s[0], "class_name") != Ok(Str("average")) && |Averages(s)| > 0 {
      AveragesFirst(s[1..]);
      var i :| && 0 <= i < |s[1..]| && s[1..][i] == Averages(s[1..])[0]
               && Field(s[1..][i], "class_name") == Ok(Str("average"))
               && forall j :: 0 <= j < i ==> Field(s[1..][j], "class_name") != Ok(Str("average"));
      assert forall j :: 1 <= j < i + 1 ==> s[j] == s[1..][j - 1];
      assert s[i + 1] == Averages(s)[0];
    }
  }

  /** `[x for x in overall if x["class_name"] == "average"]`: every entry is
      tested before anything is kept, so an entry without a class name
      raises even after a match. */
  function AverageEntries(overall: seq<Value>): (r: Result<seq<Value>>)
    ensures r.Ok? <==> forall i :: 0 <= i < |overall| ==> Field(overall[i], "class_name").Ok?
    ensures r.Ok? ==> forall x :: x in r.value <==> x in overall && Field(x, "class_name") == Ok(Str("average"))
    ensures r.Ok? ==> r.value == Averages(overall)
    ensures r.Ok? && |r.value| > 0 ==>
              exists i :: && 0 <= i < |overall| && overall[i] == r.value[0]
                          && Field(overall[i], "class_name") == Ok(Str("average"))
                          && forall j :: 0 <= j < i ==> Field(overall[j], "class_name") != Ok(Str("average"))
    ensures r.Err? ==> exists i :: && 0 <= i < |overall| && Field(overall[i], "class_name") == Err(r.error)
                                   && forall j :: 0 <= j < i ==> Field(overall[j], "class_name").Ok?
  {
    if |overall| == 0 then Ok([])
    else
      var name :- Field(overall[0], "class_name");
      var rest :- AverageEntries(overall[1..]);
      assert forall i :: 1 <= i < |overall| ==> overall[i] == overall[1..][i - 1];
      var kept := if name == Str("average") then [overall[0]] else [];
      assert Averages(overall) == kept + Averages(overall[1..]);
      AveragesMembers(overall);
      AveragesFirst(overall);
      Ok(kept + rest)
  }

  /** The overall score posted for an experiment: the first `average` entry
      of `eval_item["overall"]`; `IndexError` when there is none. */
  function SelectAverage(evalItem: Value): (r: Result<Value>)
    ensures r.Ok? <==> && Field(evalItem, "overall").Ok? && Field(evalItem, "overall").value.List?
                       && var overall := Field(evalItem, "overall").value.items;
                          && (forall i :: 0 <= i < |overall| ==> Field(overall[i], "class_name").Ok?)
                          && exists i :: 0 <= i < |overall| && Field(overall[i], "class_name") == Ok(Str("average"))
    ensures r.Ok? ==> var overall := Field(evalItem, "overall").value.items;
                      exists i :: && 0 <= i < |overall| && r.value == overall[i]
                                  && Field(overall[i], "class_name") == Ok(Str("average"))
                                  && forall j :: 0 <= j < i ==> Field(overall[j], "class_name") != Ok(Str("average"))
  {
    var overall :- Field(evalItem, "overall");
    var entries :- Items(overall);
    var averages :- AverageEntries(entries);
    if |averages| == 0 then Err(IndexError) else Ok(averages[0])
  }

  /** The only way to get `IndexError` out of the selection: every entry
      has a class name and none is `average`. */
  lemma SelectAverageIndexError(evalItem: Value)
    requires Field(evalItem, "overall").Ok? && Field(evalItem, "overall").value.List?
    ensures var overall := Field(evalItem, "overall").value.items;
            SelectAverage(evalItem) == Err(IndexError) <==>
              && (forall i :: 0 <= i < |overall| ==> Field(overall[i], "class_name").Ok?)
              && forall i :: 0 <= i < |overall| ==> Field(overall[i], "class_name") != Ok(Str("average"))
  {
    var overall := Field(evalItem, "overall").value.items;
    var averages := AverageEntries(overall);
    if averages.Ok? {
      if |averages.value| > 0 {
        assert averages.value[0] in averages.value;
      } else {
        forall i | 0 <= i < |overall|
          ensures Field(overall[i], "class_name") != Ok(Str("average"))
        {
          assert overall[i] in overall;
        }
      }
    } else {
      var i :| 0 <= i < |overall| && Field(overall[i], "class_name") == Err(averages.error);
      assert averages.error != IndexError;
    }
  }
}

=== FILE: raster_foundry.dfy ===
/** The Raster Foundry API client: token exchange, paginated annotation
    fetch, project fetch and annotation post. A request is a value the
    model builds; the server's answers are inputs, one `HttpResponse` per
    request in the order the requests are made. */
module RasterFoundry {
  import opened Values

  /** An HTTP answer: its status code and its decoded JSON body. */
  datatype HttpResponse = HttpResponse(status: int, body: Value)

  datatype Verb = Get | Post

  /** The API paths the client addresses, on a given host. */
  datatype Endpoint =
    | Tokens(host: Value)
    | Annotations(host: Value, projectId: Value, layerId: Value)
    | Project(host: Value, projectId: Value)

  /** One request: its verb, endpoint, query parameters, `Authorization`
      header and JSON body (`Null` where the call sends none). */
  datatype Request = Request(verb: Verb, endpoint: Endpoint, params: Value, authorization: Value, json: Value)

  /** `resp.raise_for_status()` followed by `resp.json()`: a 4xx or 5xx
      status raises and nothing of the body is returned. */
  function RaiseForStatus(resp: HttpResponse): (r: Result<Value>)
    ensures r.Err? <==> 400 <= resp.status < 600
    ensures r.Err? ==> r.error == HttpError(resp.status)
    ensures r.Ok? ==> r.value == resp.body
  {
    if 400 <= resp.status < 600 then Err(HttpError(resp.status)) else Ok(resp.body)
  }

  /** The request of `get_api_token`. */
  function TokenRequest(refreshToken: Value, host: Value): (q: Request)
    ensures q.verb == Post && q.endpoint == Tokens(host)
    ensures Field(q.json, "refresh_token") == Ok(refreshToken)
  {
    Request(Post, Tokens(host), Null, Null, Dict(map[Str("refresh_token") := refreshToken]))
  }

  /** What `get_api_token` returns for the token endpoint's answer: the
      body's `id_token`. */
  function ApiToken(resp: HttpResponse): (r: Result<Value>)
    ensures r.Ok? <==> RaiseForStatus(resp).Ok? && Field(resp.body, "id_token").Ok?
    ensures r.Ok? ==> Field(resp.body, "id_token") == Ok(r.value)
  {
    var body :- RaiseForStatus(resp);
    Field(body, "id_token")
  }

  /** The request of `get_project`. */
  function ProjectRequest(jwt: Value, host: Value, projectId: Value): (q: Request)
    ensures q.verb == Get && q.endpoint == Project(host, projectId) && q.authorization == jwt
  {
    Request(Get, Project(host, projectId), Null, jwt, Null)
  }

  /** What `get_project` returns for the project endpoint's answer. */
  function ProjectBody(resp: HttpResponse): (r: Result<Value>)
    ensures r.Ok? <==> !(400 <= resp.status < 600)
    ensures r.Ok? ==> r.value == resp.body
  {
    RaiseForStatus(resp)
  }

  /** The request of `post_labels`: the features under the one key
      `features`. */
  function PostLabelsRequest(jwt: Value, host: Value, projectId: Value, layerId: Value, labels: seq<Value>)
    : (q: Request)
    ensures q.verb == Post && q.endpoint == Annotations(host, projectId, layerId) && q.authorization == jwt
    ensures q.json.Dict? && q.json.entries.Keys == {Str("features")}
    ensures Field(q.json, "features") == Ok(List(labels))
  {
    Request(Post, Annotations(host, projectId, layerId), Null, jwt, Dict(map[Str("features") := List(labels)]))
  }

  /** The annotation page size `get_labels` asks for. */
  const PAGE_SIZE: int := 100

  /** The query parameters of the `page`-th annotation request. */
  function PageParams(group: Value, page: nat): (p: Value)
    ensures Field(p, "annotationGroup") == Ok(group)
    ensures Field(p, "pageSize") == Ok(Int(PAGE_SIZE))
    ensures Field(p, "page") == Ok(Int(page))
  {
    Dict(map[Str("annotationGroup") := group, Str("pageSize") := Int(PAGE_SIZE), Str("page") := Int(page)])
  }

  /** The `page`-th annotation request of `get_labels`. */
  function LabelsRequest(jwt: Value, host: Value, projectId: Value, layerId: Value, group: Value, page: nat)
    : (q: Request)
    ensures q.verb == Get && q.endpoint == Annotations(host, projectId, layerId) && q.authorization == jwt
    ensures q.params == PageParams(group, page)
  {
    Request(Get, Annotations(host, projectId, layerId), PageParams(group, page), jwt, Null)
  }

  /** A response after which `get_labels` requests no further page: an
      error status, a body without `hasNext`, or a falsy `hasNext`. */
  predicate EndsPaging(resp: HttpResponse) {
    || RaiseForStatus(resp).Err?
    || Field(resp.body, "hasNext").Err?
    || !Truthy(Field(resp.body, "hasNext").value)
  }

  /** Some response from index `from` on ends the paging: the server the
      sequence describes has finitely many pages. */
  predicate EndsFrom(responses: seq<HttpResponse>, from: nat) {
    exists i :: from <= i < |responses| && EndsPaging(responses[i])
  }

  /** The first response from index `from` on that ends the paging. */
  function FirstEnd(responses: seq<HttpResponse>, from: nat): (n: nat)
    requires EndsFrom(responses, from)
    ensures from <= n < |responses| && EndsPaging(responses[n])
    ensures forall j :: from <= j < n ==> !EndsPaging(responses[j])
    decreases |responses| - from
  {
    if EndsPaging(responses[from]) then from
    else
      assert EndsFrom(responses, from + 1);
      FirstEnd(responses, from + 1)
  }

  /** One turn of the `while` body on the next page's answer: raise on an
      error status, copy the page's `hasNext` into the accumulated document,
      then extend its `features` by the page's. */
  function MergePage(acc: Value, resp: HttpResponse): (r: Result<Value>)
    ensures r.Ok? ==> RaiseForStatus(resp).Ok? && acc.Dict? && r.value.Dict?
    ensures r.Ok? ==> Field(r.value, "hasNext") == Field(resp.body, "hasNext")
    ensures r.Ok? ==> && HasFeatureList(acc) && HasFeatureList(resp.body)
                      && Field(r.value, "features") == Ok(List(FeatureItems(acc) + FeatureItems(resp.body)))
    ensures r.Ok? ==> OtherKeysAgree(r.value, acc)
  {
    var page :- RaiseForStatus(resp);
    var hasNext :- Field(page, "hasNext");
    if !acc.Dict? then Err(TypeError)
    else
      var acc1 := Dict(acc.entries[Str("hasNext") := hasNext]);
      var mine :- Field(acc1, "features");
      var theirs :- Field(page, "features");
      if !(mine.List? && theirs.List?) then Err(TypeError)
      else Ok(Dict(acc1.entries[Str("features") := List(mine.items + theirs.items)]))
  }

  /** `v["features"]` is a list. */
  predicate HasFeatureList(v: Value) {
    Field(v, "features").Ok? && Field(v, "features").value.List?
  }

  /** The items of `v["features"]`, or none when it is not a list. */
  function FeatureItems(v: Value): seq<Value> {
    if HasFeatureList(v) then Field(v, "features").value.items else []
  }

  /** Two documents agree on every key but `hasNext` and `features`. */
  ghost predicate OtherKeysAgree(a: Value, b: Value) {
    && a.Dict? && b.Dict?
    && forall k :: k != Str("hasNext") && k != Str("features") ==>
         (k in a.entries <==> k in b.entries) && (k in a.entries ==> a.entries[k] == b.entries[k])
  }

  /** The features of the first `hi` pages, in page order. */
  function PagesFeatures(responses: seq<HttpResponse>, hi: nat): (fs: seq<Value>)
    requires hi <= |responses|
  {
    if hi == 0 then [] else PagesFeatures(responses, hi - 1) + FeatureItems(responses[hi - 1].body)
  }

  /** What `Paginate` needs of its state: the `page`-th answer was a
      success and the document's `hasNext` is that answer's. */
  predicate PagingState(responses: seq<HttpResponse>, page: nat, acc: Value) {
    && page < |responses|
    && EndsFrom(responses, page)
    && RaiseForStatus(responses[page]).Ok?
    && Field(acc, "hasNext") == Field(responses[page].body, "hasNext")
  }

  /** The `while` loop of `get_labels` from the `page`-th answer on, `acc`
      being the document built so far: a reference definition by recursion
      on the remaining answers. */
  function Paginate(responses: seq<HttpResponse>, page: nat, acc: Value): Result<Value>
    requires PagingState(responses, page, acc)
    decreases |responses| - page
  {
    var hasNext :- Field(acc, "hasNext");
    if !Truthy(hasNext) then Ok(acc)
    else
      assert !EndsPaging(responses[page]);
      var next :- MergePage(acc, responses[page + 1]);
      Paginate(responses, page + 1, next)
  }

  /** `get_labels`, given the server's answers: the first page's document,
      extended by every later page until one says there is no next page. */
  function Labels(responses: seq<HttpResponse>): Result<Value>
    requires EndsFrom(responses, 0)
  {
    var first :- RaiseForStatus(responses[0]);
    Paginate(responses, 0, first)
  }

  /** The requests for pages `0` to `n - 1`, in order. */
  function LabelsRequests(jwt: Value, host: Value, projectId: Value, layerId: Value, group: Value, n: nat)
    : (qs: seq<Request>)
    ensures |qs| == n
    ensures forall i :: 0 <= i < n ==> qs[i] == LabelsRequest(jwt, host, projectId, layerId, group, i)
  {
    if n == 0 then [] else LabelsRequests(jwt, host, projectId, layerId, group, n - 1)
                           + [LabelsRequest(jwt, host, projectId, layerId, group, n - 1)]
  }

  /** `get_labels` as the loop it is, with `make_request` answered by the
      next response of the sequence. It also returns the requests made. */
  method GetLabels(jwt: Value, host: Value, projectId: Value, layerId: Value, group: Value,
                   responses: seq<HttpResponse>)
    returns (r: Result<Value>, requests: seq<Request>)
    requires EndsFrom(responses, 0)
    ensures r == Labels(responses)
    ensures 1 <= |requests| <= |responses|
    ensures requests == LabelsRequests(jwt, host, projectId, layerId, group, |requests|)
    ensures r.Ok? ==> |requests| == FirstEnd(responses, 0) + 1
  {
    requests := [LabelsRequest(jwt, host, projectId, layerId, group, 0)];
    var first := RaiseForStatus(responses[0]);
    if first.Err? {
      return Err(first.error), requests;
    }
    var geojson := first.value;
    var page := 0;
    while true
      invariant PagingState(responses, page, geojson)
      invariant Paginate(responses, page, geojson) == Labels(responses)
      invariant requests == LabelsRequests(jwt, host, projectId, layerId, group, page + 1)
      invariant FirstEnd(responses, page) == FirstEnd(responses, 0)
      decreases |responses| - page
    {
      var hasNext := Field(geojson, "hasNext");
      if hasNext.Err? {
        return Err(hasNext.error), requests;
      }
      if !Truthy(hasNext.value) {
        return Ok(geojson), requests;
      }
      PaginateStep(responses, page, geojson);
      var next := MergePage(geojson, responses[page + 1]);
      page := page + 1;
      requests := requests + [LabelsRequest(jwt, host, projectId, layerId, group, page)];
      if next.Err? {
        return Err(next.error), requests;
      }
      geojson := next.value;
    }
  }

  /** One turn of the loop: a truthy `hasNext` means the next answer exists
      and is merged, and the rest of the loop starts from the merged
      document. */
  lemma PaginateStep(responses: seq<HttpResponse>, page: nat, acc: Value)
    requires PagingState(responses, page, acc)
    requires Field(acc, "hasNext").Ok? && Truthy(Field(acc, "hasNext").value)
    ensures page + 1 < |responses| && !EndsPaging(responses[page])
    ensures EndsFrom(responses, page + 1) && FirstEnd(responses, page + 1) == FirstEnd(responses, page)
    ensures MergePage(acc, responses[page + 1]).Err? ==>
              Paginate(responses, page, acc) == Err(MergePage(acc, responses[page + 1]).error)
    ensures MergePage(acc, responses[page + 1]).Ok? ==>
              && PagingState(responses, page + 1, MergePage(acc, responses[page + 1]).value)
              && Paginate(responses, page, acc) == Paginate(responses, page + 1, MergePage(acc, responses[page + 1]).value)
  {
    assert !EndsPaging(responses[page]);
  }

  /** The document `Paginate` holds at page `page`: the first answer's body
      itself, or, once later pages have been merged, that body with the
      features of every page so far and its other keys as they were. */
  ghost predicate Accumulated(responses: seq<HttpResponse>, page: nat, acc: Value)
    requires page < |responses|
  {
    if page == 0 then acc == responses[0].body
    else
      && (forall j :: 0 <= j <= page ==> HasFeatureList(responses[j].body))
      && Field(acc, "features") == Ok(List(PagesFeatures(responses, page + 1)))
      && OtherKeysAgree(acc, responses[0].body)
  }

  lemma {:induction false} PaginateContents(responses: seq<HttpResponse>, page: nat, acc: Value)
    requires PagingState(responses, page, acc) && Accumulated(responses, page, acc)
    requires Paginate(responses, page, acc).Ok?
    ensures var n := FirstEnd(responses, page);
            && (forall j :: page <= j <= n ==> RaiseForStatus(responses[j]).Ok?)
            && Accumulated(responses, n, Paginate(responses, page, acc).value)
            && Field(Paginate(responses, page, acc).value, "hasNext") == Field(responses[n].body, "hasNext")
            && Field(Paginate(responses, page, acc).value, "hasNext").Ok?
            && !Truthy(Field(Paginate(responses, page, acc).value, "hasNext").value)
    decreases |responses| - page
  {
    var hasNext := Field(acc, "hasNext").value;
    if Truthy(hasNext) {
      assert !EndsPaging(responses[page]);
      var next := MergePage(acc, responses[page + 1]).value;
      assert PagesFeatures(responses, page + 2) == PagesFeatures(responses, page + 1) + FeatureItems(responses[page + 1].body);
      if page == 0 {
        assert PagesFeatures(responses, 1) == FeatureItems(responses[0].body);
      }
      assert Accumulated(responses, page + 1, next);
      PaginateContents(responses, page + 1, next);
    }
  }

  /** What `get_labels` returns when it returns: every answer up to the
      first that ends the paging was a success; the result's `hasNext` is
      that last answer's and is falsy; after a single page the result is the
      first body itself, and otherwise it is the first body with `features`
      the concatenation of every fetched page's features in page order. */
  lemma LabelsContents(responses: seq<HttpResponse>)
    requires EndsFrom(responses, 0)
    requires Labels(responses).Ok?
    ensures var n := FirstEnd(responses, 0);
            var r := Labels(responses).value;
            && (forall j :: 0 <= j <= n ==> RaiseForStatus(responses[j]).Ok?)
            && Field(r, "hasNext") == Field(responses[n].body, "hasNext")
            && Field(r, "hasNext").Ok? && !Truthy(Field(r, "hasNext").value)
            && (n == 0 ==> r == responses[0].body)
            && (n > 0 ==> && (forall j :: 0 <= j <= n ==> HasFeatureList(responses[j].body))
                          && Field(r, "features") == Ok(List(PagesFeatures(responses, n + 1)))
                          && OtherKeysAgree(r, responses[0].body))
  {
    var n := FirstEnd(responses, 0);
    var r := Labels(responses).value;
    PaginateContents(responses, 0, responses[0].body);
    assert Labels(responses) == Paginate(responses, 0, responses[0].body);
  }
}

=== FILE: raster_source_config.dfy ===
/** The raster source configuration and its immutable builder. The
    constructor falls back, field by field, to a class default whenever the
    argument is falsy. The project and layer id defaults are random UUIDs
    drawn when the class is defined, so they are a parameter here. */
module RasterSourceConfig {
  import opened Wrappers
  import opened Values
  import opened ImmutableBuilder
  import RfLayerRasterSource

  /** The two class defaults drawn at random (`uuid4()`). */
  datatype IdDefaults = IdDefaults(projectId: Value, projectLayerId: Value)

  /** The class defaults that are fixed. */
  const DEFAULT_REFRESH_TOKEN: Value := Str("")
  const DEFAULT_CHANNEL_ORDER: Value := List([])
  const DEFAULT_NUM_CHANNELS: Value := Int(0)
  const DEFAULT_RF_API_HOST: Value := Str(STAGING_RF_API_HOST)

  /** A configuration: the six fields the constructor sets. */
  datatype RfRasterSourceConfig = RfRasterSourceConfig(
    projectId: Value,
    projectLayerId: Value,
    refreshToken: Value,
    channelOrder: Value,
    numChannels: Value,
    rfApiHost: Value)

  /** Python's `x or fallback`. */
  function Or(x: Value, fallback: Value): Value {
    if Truthy(x) then x else fallback
  }

  /** The constructor: each field is its argument when that is truthy and
      the class default otherwise. */
  function New(ids: IdDefaults, projectId: Value, projectLayerId: Value, refreshToken: Value,
               channelOrder: Value, numChannels: Value, rfApiHost: Value): (c: RfRasterSourceConfig)
    ensures Truthy(projectId) ==> c.projectId == projectId
    ensures !Truthy(projectId) ==> c.projectId == ids.projectId
    ensures Truthy(projectLayerId) ==> c.projectLayerId == projectLayerId
    ensures !Truthy(projectLayerId) ==> c.projectLayerId == ids.projectLayerId
    ensures Truthy(refreshToken) ==> c.refreshToken == refreshToken
    ensures !Truthy(refreshToken) ==> c.refreshToken == Str("")
    ensures Truthy(channelOrder) ==> c.channelOrder == channelOrder
    ensures !Truthy(channelOrder) ==> c.channelOrder == List([])
    ensures Truthy(numChannels) ==> c.numChannels == numChannels
    ensures !Truthy(numChannels) ==> c.numChannels == Int(0)
    ensures Truthy(rfApiHost) ==> c.rfApiHost == rfApiHost
    ensures !Truthy(rfApiHost) ==> c.rfApiHost == Str(STAGING_RF_API_HOST)
  {
    RfRasterSourceConfig(Or(projectId, ids.projectId), Or(projectLayerId, ids.projectLayerId),
                         Or(refreshToken, DEFAULT_REFRESH_TOKEN), Or(channelOrder, DEFAULT_CHANNEL_ORDER),
                         Or(numChannels, DEFAULT_NUM_CHANNELS), Or(rfApiHost, DEFAULT_RF_API_HOST))
  }

  /** A falsy argument (`0`, `""`, `[]`, `False`, ...) gives the same
      configuration as passing `None`. */
  lemma FalsyArgumentsAreNone(ids: IdDefaults, projectId: Value, projectLayerId: Value, refreshToken: Value,
                              channelOrder: Value, numChannels: Value, rfApiHost: Value)
    ensures New(ids, projectId, projectLayerId, refreshToken, channelOrder, numChannels, rfApiHost)
         == New(ids, if Truthy(projectId) then projectId else Null,
                if Truthy(projectLayerId) then projectLayerId else Null,
                if Truthy(refreshToken) then refreshToken else Null,
                if Truthy(channelOrder) then channelOrder else Null,
                if Truthy(numChannels) then numChannels else Null,
                if Truthy(rfApiHost) then rfApiHost else Null)
  {
  }

  /** Constructing again from a configuration's own fields changes nothing:
      a field is either a truthy argument, kept, or a default, which the
      second construction falls back to (or keeps) again. */
  lemma NewIsIdempotent(ids: IdDefaults, projectId: Value, projectLayerId: Value, refreshToken: Value,
                        channelOrder: Value, numChannels: Value, rfApiHost: Value)
    ensures var c := New(ids, projectId, projectLayerId, refreshToken, channelOrder, numChannels, rfApiHost);
            New(ids, c.projectId, c.projectLayerId, c.refreshToken, c.channelOrder, c.numChannels, c.rfApiHost) == c
  {
  }

  /** With truthy id defaults, every field of a configuration is truthy
      except a refresh token, channel order or channel count left at its
      (falsy) default. */
  lemma FieldsAreSetOrDefault(ids: IdDefaults, projectId: Value, projectLayerId: Value, refreshToken: Value,
                              channelOrder: Value, numChannels: Value, rfApiHost: Value)
    requires Truthy(ids.projectId) && Truthy(ids.projectLayerId)
    ensures var c := New(ids, projectId, projectLayerId, refreshToken, channelOrder, numChannels, rfApiHost);
            && Truthy(c.projectId) && Truthy(c.projectLayerId) && Truthy(c.rfApiHost)
            && (Truthy(c.refreshToken) || c.refreshToken == Str(""))
            && (Truthy(c.channelOrder) || c.channelOrder == List([]))
            && (Truthy(c.numChannels) || c.numChannels == Int(0))
  {
  }

  /** `create_local`: the configuration itself. */
  function CreateLocal(c: RfRasterSourceConfig, tmpDir: Value): (r: RfRasterSourceConfig)
    ensures r == c
  {
    c
  }

  /** `for_prediction`: the configuration itself, whatever the image. */
  function ForPrediction(c: RfRasterSourceConfig, imageUri: Value): (r: RfRasterSourceConfig)
    ensures r == c
  {
    c
  }

  /** `create_source`: the configuration's six fields and the temporary
      directory, in the raster source's argument order; the transformer,
      extent and class map are accepted and ignored. */
  function CreateSource(c: RfRasterSourceConfig, tmpDir: Value, crsTransformer: Value, extent: Value,
                        classMap: Value): (s: RfLayerRasterSource.LayerParams)
    ensures s.projectId == c.projectId && s.projectLayerId == c.projectLayerId
    ensures s.refreshToken == c.refreshToken && s.channelOrder == c.channelOrder
    ensures s.numChannels == c.numChannels && s.tmpDir == tmpDir && s.rfApiHost == c.rfApiHost
  {
    RfLayerRasterSource.LayerParams(c.projectId, c.projectLayerId, c.refreshToken, c.channelOrder, c.numChannels,
                                    tmpDir, c.rfApiHost)
  }

  /** Preparing a configuration for prediction and making it local leave
      the raster source it creates as it was. */
  lemma PreparedConfigCreatesSameSource(c: RfRasterSourceConfig, imageUri: Value, localDir: Value, tmpDir: Value,
                                        crsTransformer: Value, extent: Value, classMap: Value)
    ensures CreateSource(CreateLocal(ForPrediction(c, imageUri), localDir), tmpDir, crsTransformer, extent, classMap)
            == CreateSource(c, tmpDir, Null, Null, Null)
  {
  }

  /** `_properties`, in declaration order. */
  const PROPERTIES: seq<string> :=
    ["project_id", "project_layer_id", "refresh_token", "channel_order", "num_channels", "rf_api_host"]

  const PROPERTY_KEYS: set<string> :=
    {"project_id", "project_layer_id", "refresh_token", "channel_order", "num_channels", "rf_api_host"}

  /** The builder class: its properties and no class attribute among them. */
  const BUILDER_CLASS: BuilderClass := BuilderClass(PROPERTIES, map[])

  /** The builder's constructor: only the host is set, to staging. */
  function NewBuilder(): (b: Builder)
    ensures b.cls == BUILDER_CLASS
    ensures GetAttr(b, "rf_api_host") == Some(Str(STAGING_RF_API_HOST))
    ensures forall k :: k != "rf_api_host" ==> GetAttr(b, k) == None
  {
    Builder(BUILDER_CLASS, map["rf_api_host" := Str(STAGING_RF_API_HOST)])
  }

  /** A fresh builder's `config` holds the staging host and nothing else. */
  lemma NewBuilderConfig()
    ensures Config(NewBuilder()) == map["rf_api_host" := Str(STAGING_RF_API_HOST)]
  {
    assert "rf_api_host" in Config(NewBuilder());
  }

  /** The properties the `with_*` methods set. */
  datatype Property = ProjectId | ProjectLayerId | RefreshToken | ChannelOrder | NumChannels | RfApiHost

  function PropertyName(p: Property): (n: string)
  {
    match p
    case ProjectId => "project_id"
    case ProjectLayerId => "project_layer_id"
    case RefreshToken => "refresh_token"
    case ChannelOrder => "channel_order"
    case NumChannels => "num_channels"
    case RfApiHost => "rf_api_host"
  }

  /** Every declared property has exactly one `with_*` setter. */
  lemma SettersCoverProperties()
    ensures forall k :: k in PROPERTIES ==> exists p :: PropertyName(p) == k
    ensures forall p, q :: PropertyName(p) == PropertyName(q) ==> p == q
  {
    assert PropertyName(ProjectId) == PROPERTIES[0];
    assert PropertyName(ProjectLayerId) == PROPERTIES[1];
    assert PropertyName(RefreshToken) == PROPERTIES[2];
    assert PropertyName(ChannelOrder) == PROPERTIES[3];
    assert PropertyName(NumChannels) == PROPERTIES[4];
    assert PropertyName(RfApiHost) == PROPERTIES[5];
  }

  /** `with_<property>(value)`: only that property changes. */
  function With(b: Builder, p: Property, value: Value): (r: Builder)
    ensures r.cls == b.cls
    ensures GetAttr(r, PropertyName(p)) == Some(value)
    ensures forall k :: k != PropertyName(p) ==> GetAttr(r, k) == GetAttr(b, k)
  {
    WithProperty(b, PropertyName(p), value)
  }

  /** The `with_*` calls of `from_proto`, once every field has been read. */
  function Assign(b: Builder, fields: map<string, Value>): (r: Builder)
    requires PROPERTY_KEYS <= fields.Keys
    ensures r.cls == b.cls
    ensures forall k :: k in PROPERTY_KEYS ==> GetAttr(r, k) == Some(fields[k])
  {
    var b1 := With(b, ProjectId, fields["project_id"]);
    var b2 := With(b1, ProjectLayerId, fields["project_layer_id"]);
    var b3 := With(b2, RefreshToken, fields["refresh_token"]);
    var b4 := With(b3, ChannelOrder, fields["channel_order"]);
    var b5 := With(b4, NumChannels, fields["num_channels"]);
    With(b5, RfApiHost, fields["rf_api_host"])
  }

  /** The declared properties are exactly the property keys. */
  lemma PropertyKeys()
    ensures forall k :: k in PROPERTIES <==> k in PROPERTY_KEYS
  {
  }

  /** The index of the first of `names` missing from `fields`, if any. */
  function FirstMissing(names: seq<string>, fields: map<string, Value>): (r: Option<nat>)
    ensures r.None? <==> forall i :: 0 <= i < |names| ==> names[i] in fields
    ensures r.Some? ==> && r.value < |names| && names[r.value] !in fields
                        && forall j :: 0 <= j < r.value ==> names[j] in fields
  {
    if |names| == 0 then None
    else if names[0] !in fields then Some(0)
    else
      var rest := FirstMissing(names[1..], fields);
      if rest.None? then None else Some(rest.value + 1)
  }

  /** `from_proto`: each property from the top-level message field of the
      same name, in declaration order; a message type without that field
      raises `AttributeError`. */
  function FromProto(b: Builder, msg: ConfigMsg): (r: Result<Builder>)
    ensures r.Ok? <==> PROPERTY_KEYS <= msg.fields.Keys
    ensures r.Ok? ==> r.value.cls == b.cls
    ensures r.Ok? ==> forall k :: k in PROPERTY_KEYS ==> GetAttr(r.value, k) == Some(msg.fields[k])
  {
    if "project_id" !in msg.fields then Err(AttributeError("project_id"))
    else if "project_layer_id" !in msg.fields then Err(AttributeError("project_layer_id"))
    else if "refresh_token" !in msg.fields then Err(AttributeError("refresh_token"))
    else if "channel_order" !in msg.fields then Err(AttributeError("channel_order"))
    else if "num_channels" !in msg.fields then Err(AttributeError("num_channels"))
    else if "rf_api_host" !in msg.fields then Err(AttributeError("rf_api_host"))
    else Ok(Assign(b, msg.fields))
  }

  /** `from_proto` fails exactly when a property field is missing, and then
      names the first missing one in declaration order. */
  lemma FromProtoFailsAtFirstMissing(b: Builder, msg: ConfigMsg)
    ensures FromProto(b, msg).Err? <==> FirstMissing(PROPERTIES, msg.fields).Some?
    ensures FromProto(b, msg).Err? ==>
              FromProto(b, msg) == Err(AttributeError(PROPERTIES[FirstMissing(PROPERTIES, msg.fields).value]))
  {
    PropertyKeys();
    var m := FirstMissing(PROPERTIES, msg.fields);
    if m.Some? {
      var i := m.value;
      assert PROPERTIES[i] !in msg.fields;
      assert forall j :: 0 <= j < i ==> PROPERTIES[j] in msg.fields;
      if i == 0 {
      } else if i == 1 {
        assert PROPERTIES[0] in msg.fields;
      } else if i == 2 {
        assert PROPERTIES[0] in msg.fields && PROPERTIES[1] in msg.fields;
      } else if i == 3 {
        assert PROPERTIES[0] in msg.fields && PROPERTIES[1] in msg.fields && PROPERTIES[2] in msg.fields;
      } else if i == 4 {
        assert PROPERTIES[0] in msg.fields && PROPERTIES[1] in msg.fields && PROPERTIES[2] in msg.fields;
        assert PROPERTIES[3] in msg.fields;
      } else {
        assert PROPERTIES[0] in msg.fields && PROPERTIES[1] in msg.fields && PROPERTIES[2] in msg.fields;
        assert PROPERTIES[3] in msg.fields && PROPERTIES[4] in msg.fields;
      }
    }
  }

  /** The property fields of a message that has them all. */
  function PropertyFields(fields: map<string, Value>): (m: map<string, Value>)
    requires PROPERTY_KEYS <= fields.Keys
    ensures m.Keys == PROPERTY_KEYS
    ensures forall k :: k in m ==> k in PROPERTIES && m[k] == fields[k]
  {
    map["project_id" := fields["project_id"], "project_layer_id" := fields["project_layer_id"],
        "refresh_token" := fields["refresh_token"], "channel_order" := fields["channel_order"],
        "num_channels" := fields["num_channels"], "rf_api_host" := fields["rf_api_host"]]
  }

  /** The builder `from_proto` returns projects exactly the message's
      non-`None` property fields: nothing of the builder it started from
      survives. */
  lemma FromProtoConfig(b: Builder, msg: ConfigMsg)
    requires b.cls == BUILDER_CLASS && PROPERTY_KEYS <= msg.fields.Keys
    ensures FromProto(b, msg).Ok?
    ensures var m := PropertyFields(msg.fields);
            Config(FromProto(b, msg).value) == map k | k in m && m[k] != Null :: m[k]
  {
    var r := FromProto(b, msg).value;
    var attrs := PropertyFields(msg.fields);
    forall k | k in r.cls.properties
      ensures k in attrs && GetAttr(r, k) == Some(attrs[k])
    {
      PropertyKeys();
    }
    ConfigOfAssignedBuilder(r, attrs);
  }
}

=== FILE: rf_layer_raster_source.dfy ===
/** The Raster Foundry layer raster source, as far as it is not raster I/O:
    the paginated scene fetch of `get_rf_scenes` and the selection of the
    ingested scenes' locations. The scene answers are inputs, one JSON body
    per request; `unquote` is a function parameter. */
module RfLayerRasterSource {
  import opened Wrappers
  import opened Values

  /** The constructor arguments of the raster source. */
  datatype LayerParams = LayerParams(
    projectId: Value,
    projectLayerId: Value,
    refreshToken: Value,
    channelOrder: Value,
    numChannels: Value,
    tmpDir: Value,
    rfApiHost: Value)

  /** `len(v)` on the JSON values that have a length. */
  function Len(v: Value): (r: Result<nat>)
    ensures v.List? ==> r == Ok(|v.items|)
    ensures r.Err? <==> !(v.List? || v.Str? || v.Dict?)
  {
    match v
    case List(items) => Ok(|items|)
    case Str(s) => Ok(|s|)
    case Dict(entries) => Ok(|entries|)
    case _ => Err(TypeError)
  }

  /** A scenes answer after which no further page is requested: a body
      without `hasNext` (which raises) or with a falsy one. */
  predicate EndsScenes(body: Value) {
    Field(body, "hasNext").Err? || !Truthy(Field(body, "hasNext").value)
  }

  /** Some answer from index `from` on ends the paging. */
  predicate ScenesEndFrom(bodies: seq<Value>, from: nat) {
    exists i :: from <= i < |bodies| && EndsScenes(bodies[i])
  }

  /** The first answer from index `from` on that ends the paging. */
  function FirstScenesEnd(bodies: seq<Value>, from: nat): (n: nat)
    requires ScenesEndFrom(bodies, from)
    ensures from <= n < |bodies| && EndsScenes(bodies[n])
    ensures forall j :: from <= j < n ==> !EndsScenes(bodies[j])
    decreases |bodies| - from
  {
    if EndsScenes(bodies[from]) then from
    else
      assert ScenesEndFrom(bodies, from + 1);
      FirstScenesEnd(bodies, from + 1)
  }

  /** How a non-empty later page's `results` join the scenes so far. */
  type Combine = (Value, Value) -> Result<Value>

  /** `scenes.append(results)`, as the source writes it: the whole page
      becomes one element. */
  function AppendPage(scenes: Value, results: Value): (r: Result<Value>)
    ensures r.Ok? <==> scenes.List?
    ensures r.Ok? ==> r.value == List(scenes.items + [results])
  {
    if scenes.List? then Ok(List(scenes.items + [results])) else Err(AttributeError("append"))
  }

  /** `scenes.extend(results)`, the evident intent: the page's scenes are
      spliced in one by one. */
  function ExtendPage(scenes: Value, results: Value): (r: Result<Value>)
    ensures r.Ok? <==> scenes.List? && results.List?
    ensures r.Ok? ==> r.value == List(scenes.items + results.items)
  {
    if !scenes.List? then Err(AttributeError("extend"))
    else if !results.List? then Err(TypeError)
    else Ok(List(scenes.items + results.items))
  }

  /** The `while` loop of `get_rf_scenes` from request `page` on: `last` is the
      previous answer and `scenes` the list built so far. A reference
      definition by recursion on the remaining answers. */
  function CollectFrom(bodies: seq<Value>, page: nat, last: Value, scenes: Value, combine: Combine)
    : Result<Value>
    requires 1 <= page <= |bodies| && last == bodies[page - 1] && ScenesEndFrom(bodies, page - 1)
    decreases |bodies| - page
  {
    var hasNext :- Field(last, "hasNext");
    if !Truthy(hasNext) then Ok(scenes)
    else
      assert !EndsScenes(bodies[page - 1]);
      var body := bodies[page];
      var results :- Field(body, "results");
      var n :- Len(results);
      var next :- if n > 0 then combine(scenes, results) else Ok(scenes);
      CollectFrom(bodies, page + 1, body, next, combine)
  }

  /** `get_rf_scenes`, given the answers: the first page's `results`, then
      every later non-empty page joined by `combine`. */
  function Scenes(bodies: seq<Value>, combine: Combine): Result<Value>
    requires ScenesEndFrom(bodies, 0)
  {
    var results :- Field(bodies[0], "results");
    CollectFrom(bodies, 1, bodies[0], results, combine)
  }

  /** `get_rf_scenes` as the loop it is, given how pages are joined. It also
      returns the `page` parameter of each request: none on the first, then
      1, 2, 3 in order. */
  method GetRfScenes(bodies: seq<Value>, combine: Combine) returns (r: Result<Value>, pages: seq<Option<nat>>)
    requires ScenesEndFrom(bodies, 0)
    ensures r == Scenes(bodies, combine)
    ensures 1 <= |pages| <= |bodies| && pages[0] == None
    ensures forall i :: 1 <= i < |pages| ==> pages[i] == Some(i)
    ensures r.Ok? ==> |pages| == FirstScenesEnd(bodies, 0) + 1
  {
    pages := [None];
    var scenesResp := bodies[0];
    var first := Field(scenesResp, "results");
    if first.Err? {
      return Err(first.error), pages;
    }
    var scenes := first.value;
    var page := 1;
    while true
      invariant 1 <= page <= |bodies| && scenesResp == bodies[page - 1]
      invariant ScenesEndFrom(bodies, page - 1)
      invariant forall j :: 0 <= j < page - 1 ==> !EndsScenes(bodies[j])
      invariant CollectFrom(bodies, page, scenesResp, scenes, combine) == Scenes(bodies, combine)
      invariant |pages| == page && pages[0] == None
      invariant forall i :: 1 <= i < |pages| ==> pages[i] == Some(i)
      decreases |bodies| - page
    {
      var hasNext := Field(scenesResp, "hasNext");
      if hasNext.Err? {
        return Err(hasNext.error), pages;
      }
      if !Truthy(hasNext.value) {
        return Ok(scenes), pages;
      }
      assert !EndsScenes(bodies[page - 1]);
      pages := pages + [Some(page)];
      scenesResp := bodies[page];
      var results := Field(scenesResp, "results");
      if results.Err? {
        return Err(results.error), pages;
      }
      var n := Len(results.value);
      if n.Err? {
        return Err(n.error), pages;
      }
      if n.value > 0 {
        var next := combine(scenes, results.value);
        if next.Err? {
          return Err(next.error), pages;
        }
        scenes := next.value;
      }
      page := page + 1;
    }
  }

  /** The `results` list of an answer, or nothing when it has none. */
  function ResultItems(body: Value): seq<Value> {
    var results := Field(body, "results");
    if results.Ok? && results.value.List? then results.value.items else []
  }

  /** An answer whose `results` is a list. */
  predicate HasResultList(body: Value) {
    Field(body, "results").Ok? && Field(body, "results").value.List?
  }

  /** The scenes of answers `lo` to `hi - 1`, spliced in page order. */
  function SplicedResults(bodies: seq<Value>, lo: nat, hi: nat): seq<Value>
    requires lo <= hi <= |bodies|
    decreases hi - lo
  {
    if lo == hi then [] else ResultItems(bodies[lo]) + SplicedResults(bodies, lo + 1, hi)
  }

  /** What a later answer adds to the scenes as written: its `results`
      list, whole, as one element when it is non-empty; nothing otherwise. */
  function NestedPage(body: Value): seq<Value> {
    if |ResultItems(body)| > 0 then [Field(body, "results").value] else []
  }

  /** The pages of answers `lo` to `hi - 1` as written, in page order. */
  function NestedResults(bodies: seq<Value>, lo: nat, hi: nat): seq<Value>
    requires lo <= hi <= |bodies|
    decreases hi - lo
  {
    if lo == hi then [] else NestedPage(bodies[lo]) + NestedResults(bodies, lo + 1, hi)
  }

  /** Peeling the first answer off the spliced scenes, after `scenes`. */
  lemma SplicedResultsUnfold(bodies: seq<Value>, lo: nat, hi: nat, scenes: seq<Value>)
    requires lo < hi <= |bodies|
    ensures scenes + ResultItems(bodies[lo]) + SplicedResults(bodies, lo + 1, hi)
            == scenes + SplicedResults(bodies, lo, hi)
  {
  }

  /** Peeling the first answer off the nested pages, after `scenes`. */
  lemma NestedResultsUnfold(bodies: seq<Value>, lo: nat, hi: nat, scenes: seq<Value>)
    requires lo < hi <= |bodies|
    ensures scenes + NestedPage(bodies[lo]) + NestedResults(bodies, lo + 1, hi)
            == scenes + NestedResults(bodies, lo, hi)
  {
  }

  /** Answer `page - 1` asks for another page, so there is one. */
  lemma NextPageExists(bodies: seq<Value>, page: nat)
    requires 1 <= page <= |bodies| && ScenesEndFrom(bodies, page - 1) && !EndsScenes(bodies[page - 1])
    ensures page < |bodies| && ScenesEndFrom(bodies, page)
    ensures FirstScenesEnd(bodies, page) == FirstScenesEnd(bodies, page - 1) >= page
  {
    var i :| page - 1 <= i < |bodies| && EndsScenes(bodies[i]);
    assert i != page - 1;
  }

  /** The loop stops at an answer whose `hasNext` is falsy, with the scenes
      it has. */
  lemma LastStep(bodies: seq<Value>, page: nat, scenes: Value, combine: Combine)
    requires 1 <= page <= |bodies| && ScenesEndFrom(bodies, page - 1) && EndsScenes(bodies[page - 1])
    requires Field(bodies[page - 1], "hasNext").Ok?
    ensures CollectFrom(bodies, page, bodies[page - 1], scenes, combine) == Ok(scenes)
  {
  }

  /** One turn of the loop with pages spliced. */
  lemma SplicedStep(bodies: seq<Value>, page: nat, scenes: seq<Value>)
    requires 1 <= page < |bodies| && ScenesEndFrom(bodies, page) && !EndsScenes(bodies[page - 1])
    requires HasResultList(bodies[page])
    ensures CollectFrom(bodies, page, bodies[page - 1], List(scenes), ExtendPage)
            == CollectFrom(bodies, page + 1, bodies[page], List(scenes + ResultItems(bodies[page])), ExtendPage)
  {
    if |ResultItems(bodies[page])| == 0 {
      assert scenes + ResultItems(bodies[page]) == scenes;
    }
  }

  /** One turn of the loop as written. */
  lemma NestedStep(bodies: seq<Value>, page: nat, scenes: seq<Value>)
    requires 1 <= page < |bodies| && ScenesEndFrom(bodies, page) && !EndsScenes(bodies[page - 1])
    requires HasResultList(bodies[page])
    ensures CollectFrom(bodies, page, bodies[page - 1], List(scenes), AppendPage)
            == CollectFrom(bodies, page + 1, bodies[page], List(scenes + NestedPage(bodies[page])), AppendPage)
  {
    if |ResultItems(bodies[page])| == 0 {
      assert scenes + NestedPage(bodies[page]) == scenes;
    }
  }

  /** The loop from request `page` on, with pages spliced, appends every
      remaining page's scenes up to the one that ends the paging. */
  lemma {:induction false} CollectSpliced(bodies: seq<Value>, page: nat, scenes: seq<Value>)
    requires 1 <= page <= |bodies| && ScenesEndFrom(bodies, page - 1)
    requires forall j :: page <= j < |bodies| ==> HasResultList(bodies[j])
    requires Field(bodies[FirstScenesEnd(bodies, page - 1)], "hasNext").Ok?
    ensures CollectFrom(bodies, page, bodies[page - 1], List(scenes), ExtendPage)
            == Ok(List(scenes + SplicedResults(bodies, page, FirstScenesEnd(bodies, page - 1) + 1)))
    decreases |bodies| - page, 1
  {
    if !EndsScenes(bodies[page - 1]) {
      CollectSplicedOn(bodies, page, scenes);
    } else {
      LastStep(bodies, page, List(scenes), ExtendPage);
      assert scenes + SplicedResults(bodies, page, page) == scenes;
    }
  }

  /** The case of `CollectSpliced` where the loop goes on to the next page. */
  lemma {:induction false} CollectSplicedOn(bodies: seq<Value>, page: nat, scenes: seq<Value>)
    requires 1 <= page <= |bodies| && ScenesEndFrom(bodies, page - 1) && !EndsScenes(bodies[page - 1])
    requires forall j :: page <= j < |bodies| ==> HasResultList(bodies[j])
    requires Field(bodies[FirstScenesEnd(bodies, page - 1)], "hasNext").Ok?
    ensures CollectFrom(bodies, page, bodies[page - 1], List(scenes), ExtendPage)
            == Ok(List(scenes + SplicedResults(bodies, page, FirstScenesEnd(bodies, page - 1) + 1)))
    decreases |bodies| - page, 0
  {
    var n := FirstScenesEnd(bodies, page - 1);
    NextPageExists(bodies, page);
    var items := ResultItems(bodies[page]);
    SplicedStep(bodies, page, scenes);
    CollectSpliced(bodies, page + 1, scenes + items);
    SplicedResultsUnfold(bodies, page, n + 1, scenes);
  }

  /** The loop from request `page` on, as written, appends every remaining
      non-empty page as one element, up to the one that ends the paging. */
  lemma {:induction false} CollectNested(bodies: seq<Value>, page: nat, scenes: seq<Value>)
    requires 1 <= page <= |bodies| && ScenesEndFrom(bodies, page - 1)
    requires forall j :: page <= j < |bodies| ==> HasResultList(bodies[j])
    requires Field(bodies[FirstScenesEnd(bodies, page - 1)], "hasNext").Ok?
    ensures CollectFrom(bodies, page, bodies[page - 1], List(scenes), AppendPage)
            == Ok(List(scenes + NestedResults(bodies, page, FirstScenesEnd(bodies, page - 1) + 1)))
    decreases |bodies| - page, 1
  {
    if !EndsScenes(bodies[page - 1]) {
      CollectNestedOn(bodies, page, scenes);
    } else {
      LastStep(bodies, page, List(scenes), AppendPage);
      assert scenes + NestedResults(bodies, page, page) == scenes;
    }
  }

  /** The case of `CollectNested` where the loop goes on to the next page. */
  lemma {:induction false} CollectNestedOn(bodies: seq<Value>, page: nat, scenes: seq<Value>)
    requires 1 <= page <= |bodies| && ScenesEndFrom(bodies, page - 1) && !EndsScenes(bodies[page - 1])
    requires forall j :: page <= j < |bodies| ==> HasResultList(bodies[j])
    requires Field(bodies[FirstScenesEnd(bodies, page - 1)], "hasNext").Ok?
    ensures CollectFrom(bodies, page, bodies[page - 1], List(scenes), AppendPage)
            == Ok(List(scenes + NestedResults(bodies, page, FirstScenesEnd(bodies, page - 1) + 1)))
    decreases |bodies| - page, 0
  {
    var n := FirstScenesEnd(bodies, page - 1);
    NextPageExists(bodies, page);
    var joined := NestedPage(bodies[page]);
    NestedStep(bodies, page, scenes);
    CollectNested(bodies, page + 1, scenes + joined);
    NestedResultsUnfold(bodies, page, n + 1, scenes);
  }


  /** The answers as the lemmas below take them: every `results` is a list
      and the answer that ends the paging has a `hasNext`. */
  predicate WellFormedPages(bodies: seq<Value>) {
    && ScenesEndFrom(bodies, 0)
    && (forall j :: 0 <= j < |bodies| ==> HasResultList(bodies[j]))
    && Field(bodies[FirstScenesEnd(bodies, 0)], "hasNext").Ok?
  }

  /** As written: the result is the first page's scenes followed by each
      later non-empty page as one nested element; empty pages add nothing. */
  lemma ScenesAsWritten(bodies: seq<Value>)
    requires WellFormedPages(bodies)
    ensures Scenes(bodies, AppendPage)
            == Ok(List(ResultItems(bodies[0]) + NestedResults(bodies, 1, FirstScenesEnd(bodies, 0) + 1)))
  {
    CollectNested(bodies, 1, ResultItems(bodies[0]));
  }

  /** With pages spliced: the result is every fetched page's scenes, in
      page order. */
  lemma ScenesSpliced(bodies: seq<Value>)
    requires WellFormedPages(bodies)
    ensures Scenes(bodies, ExtendPage) == Ok(List(SplicedResults(bodies, 0, FirstScenesEnd(bodies, 0) + 1)))
  {
    CollectSpliced(bodies, 1, ResultItems(bodies[0]));
  }

  const INGESTED: string := "INGESTED"

  /** `x["statusFields"]["ingestStatus"] == "INGESTED"`, when it can be read. */
  predicate Ingested(scene: Value) {
    && Field(scene, "statusFields").Ok?
    && Field(Field(scene, "statusFields").value, "ingestStatus") == Ok(Str(INGESTED))
  }

  /** One scene of the URI comprehension: the status test first, then the
      unquoted location of an ingested scene; `None` for a scene the filter
      skips. A scene that is not a dict, or lacks a key the test or the
      location needs, raises. */
  function SceneUri(scene: Value, unquote: Value -> Value): (r: Result<Option<Value>>)
    ensures !scene.Dict? ==> r == Err(TypeError)
    ensures r == Ok(None) <==> (&& Field(scene, "statusFields").Ok?
                                && Field(Field(scene, "statusFields").value, "ingestStatus").Ok?
                                && !Ingested(scene))
    ensures r.Ok? && r.value.Some? <==> Ingested(scene) && Field(scene, "ingestLocation").Ok?
    ensures r.Ok? && r.value.Some? ==> r.value.value == unquote(Field(scene, "ingestLocation").value)
  {
    var statusFields :- Field(scene, "statusFields");
    var status :- Field(statusFields, "ingestStatus");
    if status != Str(INGESTED) then Ok(None)
    else
      var location :- Field(scene, "ingestLocation");
      Ok(Some(unquote(location)))
  }

  /** The URIs the constructor hands to the raster reader: the unquoted
      `ingestLocation` of the ingested scenes, in order; the first scene
      that cannot be read raises. */
  function SceneUris(scenes: seq<Value>, unquote: Value -> Value): (r: Result<seq<Value>>)
    ensures r.Ok? <==> forall i :: 0 <= i < |scenes| ==> SceneUri(scenes[i], unquote).Ok?
    ensures r.Ok? ==> |r.value| <= |scenes|
  {
    if |scenes| == 0 then Ok([])
    else
      var init := scenes[..|scenes| - 1];
      assert forall i :: 0 <= i < |init| ==> init[i] == scenes[i];
      var uris :- SceneUris(init, unquote);
      var last :- SceneUri(scenes[|scenes| - 1], unquote);
      Ok(uris + (if last.Some? then [last.value] else []))
  }

  /** The URIs of two scene lists in a row are those of the first followed
      by those of the second; an error in the first list comes first. */
  lemma {:induction false} SceneUrisAppend(a: seq<Value>, b: seq<Value>, unquote: Value -> Value)
    ensures SceneUris(a + b, unquote)
            == if SceneUris(a, unquote).Err? then SceneUris(a, unquote)
               else if SceneUris(b, unquote).Err? then SceneUris(b, unquote)
               else Ok(SceneUris(a, unquote).value + SceneUris(b, unquote).value)
    decreases |b|
  {
    if |b| == 0 {
      assert a + b == a;
      if SceneUris(a, unquote).Ok? {
        assert SceneUris(a, unquote).value + [] == SceneUris(a, unquote).value;
      }
    } else {
      var b0 := b[..|b| - 1];
      assert (a + b)[..|a + b| - 1] == a + b0;
      assert (a + b)[|a + b| - 1] == b[|b| - 1];
      SceneUrisAppend(a, b0, unquote);
      if SceneUris(a, unquote).Ok? && SceneUris(b0, unquote).Ok? && SceneUri(b[|b| - 1], unquote).Ok? {
        var last := SceneUri(b[|b| - 1], unquote).value;
        var tail := if last.Some? then [last.value] else [];
        assert SceneUris(a, unquote).value + SceneUris(b0, unquote).value + tail
               == SceneUris(a, unquote).value + (SceneUris(b0, unquote).value + tail);
      }
    }
  }

  /** The filter the comprehension states, read front to back: the unquoted
      location of each scene whose status is `INGESTED`, in order; every
      other scene contributes nothing. */
  function IngestedLocations(scenes: seq<Value>, unquote: Value -> Value): seq<Value> {
    if |scenes| == 0 then []
    else
      (if Ingested(scenes[0]) && Field(scenes[0], "ingestLocation").Ok?
       then [unquote(Field(scenes[0], "ingestLocation").value)] else [])
      + IngestedLocations(scenes[1..], unquote)
  }

  /** Whenever the URI selection succeeds, its result is exactly the
      ingested scenes' unquoted locations, in order, whatever mix of
      ingested and other scenes the list holds. */
  lemma {:induction false} SceneUrisAreIngestedLocations(scenes: seq<Value>, unquote: Value -> Value)
    ensures SceneUris(scenes, unquote).Ok? ==> SceneUris(scenes, unquote).value == IngestedLocations(scenes, unquote)
    decreases |scenes|
  {
    if |scenes| > 0 {
      assert [scenes[0]] + scenes[1..] == scenes;
      assert [scenes[0]][..0] == [];
      SceneUrisAppend([scenes[0]], scenes[1..], unquote);
      SceneUrisAreIngestedLocations(scenes[1..], unquote);
    }
  }

  /** A list of ingested scenes with locations yields every location,
      unquoted, in order. */
  lemma {:induction false} IngestedSceneUris(scenes: seq<Value>, unquote: Value -> Value)
    requires forall i :: 0 <= i < |scenes| ==> Ingested(scenes[i]) && Field(scenes[i], "ingestLocation").Ok?
    ensures SceneUris(scenes, unquote).Ok?
    ensures |SceneUris(scenes, unquote).value| == |scenes|
    ensures forall i :: 0 <= i < |scenes| ==>
              SceneUris(scenes, unquote).value[i] == unquote(Field(scenes[i], "ingestLocation").value)
  {
    if |scenes| > 0 {
      var init := scenes[..|scenes| - 1];
      IngestedSceneUris(init, unquote);
    }
  }

  /** The URIs of a layer whose scenes are fetched with pages spliced: the
      URIs of every fetched page's scenes, page after page. */
  function LayerSceneUris(bodies: seq<Value>, unquote: Value -> Value): Result<seq<Value>>
    requires ScenesEndFrom(bodies, 0)
  {
    var scenes :- Scenes(bodies, ExtendPage);
    var items :- Items(scenes);
    SceneUris(items, unquote)
  }

  /** With pages spliced, the layer's URIs are those of every fetched
      page's scenes, page after page. */
  lemma LayerSceneUrisPageByPage(bodies: seq<Value>, unquote: Value -> Value)
    requires WellFormedPages(bodies)
    ensures LayerSceneUris(bodies, unquote)
            == SceneUris(SplicedResults(bodies, 0, FirstScenesEnd(bodies, 0) + 1), unquote)
  {
    ScenesSpliced(bodies);
  }

  /** As written, the URI selection fails on any layer whose scenes span
      more than one non-empty page: the nested page is a list, and a list
      has no `statusFields`. */
  lemma AsWrittenFailsOnLaterPages(bodies: seq<Value>, unquote: Value -> Value, j: nat)
    requires WellFormedPages(bodies)
    requires 1 <= j <= FirstScenesEnd(bodies, 0) && |ResultItems(bodies[j])| > 0
    ensures Scenes(bodies, AppendPage).Ok? && Scenes(bodies, AppendPage).value.List?
    ensures SceneUris(Scenes(bodies, AppendPage).value.items, unquote).Err?
  {
    var n := FirstScenesEnd(bodies, 0);
    ScenesAsWritten(bodies);
    var items := ResultItems(bodies[0]) + NestedResults(bodies, 1, n + 1);
    assert Scenes(bodies, AppendPage).value.items == items;
    assert HasResultList(bodies[j]);
    NestedPageRejected(bodies, ResultItems(bodies[0]), 1, n + 1, j, unquote);
    assert SceneUris(items, unquote).Err?;
  }

  /** Scenes followed by nested pages, one of them a non-empty list, have
      no URIs. */
  lemma NestedPageRejected(bodies: seq<Value>, first: seq<Value>, lo: nat, hi: nat, j: nat,
                           unquote: Value -> Value)
    requires lo <= j < hi <= |bodies| && |ResultItems(bodies[j])| > 0 && HasResultList(bodies[j])
    ensures SceneUris(first + NestedResults(bodies, lo, hi), unquote).Err?
  {
    var nested := NestedResults(bodies, lo, hi);
    var k := NestedIndex(bodies, lo, hi, j);
    assert (first + nested)[|first| + k] == nested[k];
    SceneUrisRejectNonDict(first + nested, |first| + k, unquote);
  }

  /** A scene list with an element that is not a dict has no URIs. */
  lemma SceneUrisRejectNonDict(scenes: seq<Value>, i: nat, unquote: Value -> Value)
    requires i < |scenes| && !scenes[i].Dict?
    ensures SceneUris(scenes, unquote).Err?
  {
    assert SceneUri(scenes[i], unquote).Err?;
  }

  /** A non-empty page `j` of `lo..hi - 1` appears, whole, in the nested
      results. */
  function NestedIndex(bodies: seq<Value>, lo: nat, hi: nat, j: nat): (k: nat)
    requires lo <= j < hi <= |bodies| && |ResultItems(bodies[j])| > 0
    ensures k < |NestedResults(bodies, lo, hi)|
    ensures NestedResults(bodies, lo, hi)[k] == Field(bodies[j], "results").value
    decreases hi - lo
  {
    var head := NestedPage(bodies[lo]);
    var rest := NestedResults(bodies, lo + 1, hi);
    assert NestedResults(bodies, lo, hi) == head + rest;
    if lo == j then 0
    else
      var k := NestedIndex(bodies, lo + 1, hi, j);
      assert (head + rest)[|head| + k] == rest[k];
      |head| + k
  }

  /** An ingested scene stored at `location`. */
  function IngestedScene(location: string): (s: Value)
    ensures Ingested(s) && Field(s, "ingestLocation") == Ok(Str(location))
  {
    Dict(map[Str("ingestLocation") := Str(location),
             Str("statusFields") := Dict(map[Str("ingestStatus") := Str(INGESTED)])])
  }

  /** A layer of two pages holding one ingested scene each. */
  function TwoPages(location: string): (bodies: seq<Value>)
    ensures WellFormedPages(bodies) && FirstScenesEnd(bodies, 0) == 1
  {
    var bodies := [Dict(map[Str("results") := List([IngestedScene(location)]), Str("hasNext") := Bool(true)]),
                   Dict(map[Str("results") := List([IngestedScene(location)]), Str("hasNext") := Bool(false)])];
    assert EndsScenes(bodies[1]);
    bodies
  }

  /** As written, the second page of `TwoPages` is nested whole into the
      scenes, and the URI selection then raises `TypeError` on it. */
  lemma NestedPageBreaksSceneUris(location: string, unquote: Value -> Value)
    ensures Scenes(TwoPages(location), AppendPage)
            == Ok(List([IngestedScene(location), List([IngestedScene(location)])]))
    ensures SceneUris([IngestedScene(location), List([IngestedScene(location)])], unquote) == Err(TypeError)
  {
    var bodies := TwoPages(location);
    ScenesAsWritten(bodies);
    assert ResultItems(bodies[0]) == [IngestedScene(location)];
    assert ResultItems(bodies[1]) == [IngestedScene(location)];
    assert NestedResults(bodies, 2, 2) == [];
    assert NestedResults(bodies, 1, 2) == [List([IngestedScene(location)])];
    assert [IngestedScene(location)] + [List([IngestedScene(location)])]
           == [IngestedScene(location), List([IngestedScene(location)])];
    var scenes := [IngestedScene(location), List([IngestedScene(location)])];
    assert scenes[..1] == [IngestedScene(location)];
    assert SceneUris([IngestedScene(location)], unquote).Ok?;
  }

  /** With pages spliced, `TwoPages` yields both scenes' locations. */
  lemma SplicedPagesKeepEveryScene(location: string, unquote: Value -> Value)
    ensures LayerSceneUris(TwoPages(location), unquote) == Ok([unquote(Str(location)), unquote(Str(location))])
  {
    var bodies := TwoPages(location);
    LayerSceneUrisPageByPage(bodies, unquote);
    var spliced := [IngestedScene(location), IngestedScene(location)];
    assert ResultItems(bodies[0]) == [IngestedScene(location)];
    assert ResultItems(bodies[1]) == [IngestedScene(location)];
    assert SplicedResults(bodies, 2, 2) == [];
    assert SplicedResults(bodies, 1, 2) == [IngestedScene(location)];
    assert SplicedResults(bodies, 0, 2) == spliced;
    IngestedSceneUris(spliced, unquote);
    var uris := SceneUris(spliced, unquote).value;
    assert uris[0] == unquote(Str(location)) && uris[1] == unquote(Str(location));
    assert uris == [unquote(Str(location)), unquote(Str(location))];
  }
}

=== FILE: values.dfy ===
/** Option type shared by every module of the model. */
module Wrappers {

  datatype Option<+T> = None | Some(value: T)
}

/** Coefficients, coordinate reference systems and the CRS transformer the
    configurations carry around. The numerical work these objects do
    (reprojection) is foreign and left out; only their identity and the
    way they are written to and read from text is modelled. */
module Geo {
  import opened Wrappers

  /** The six coefficients `a..f` of an affine pixel-to-map transform. */
  datatype Affine = Affine(a: real, b: real, c: real, d: real, e: real, f: real)

  /** A coordinate reference system: either one identified by an EPSG code,
      or one given by a definition that has no EPSG code. */
  datatype Crs = EpsgCrs(code: nat) | OtherCrs(definition: string)

  /** A raster's transform, its image CRS and the map CRS name. */
  datatype CrsTransformer = CrsTransformer(transform: Affine, imageCrs: Crs, mapCrs: string)

  /** `CRS.to_epsg()`: the EPSG code, or nothing when the CRS has none. */
  function ToEpsg(crs: Crs): (r: Option<nat>)
    ensures r.Some? <==> crs.EpsgCrs?
    ensures crs.EpsgCrs? ==> r == Some(crs.code)
  {
    match crs
    case EpsgCrs(code) => Some(code)
    case OtherCrs(_) => None
  }

  predicate IsDigit(ch: char) {
    '0' <= ch <= '9'
  }

  predicate AllDigits(s: string) {
    forall i :: 0 <= i < |s| ==> IsDigit(s[i])
  }

  function DigitChar(d: nat): (ch: char)
    requires d < 10
    ensures IsDigit(ch)
  {
    "0123456789"[d]
  }

  /** Python's `str(n)` for a non-negative integer: decimal, no leading zeros. */
  function Decimal(n: nat): (s: string)
    ensures |s| > 0 && AllDigits(s)
    decreases n
  {
    if n < 10 then [DigitChar(n)] else Decimal(n / 10) + [DigitChar(n % 10)]
  }

  /** The number a string of decimal digits denotes. */
  function DecimalValue(s: string): nat
    requires AllDigits(s)
  {
    if |s| == 0 then 0
    else 10 * DecimalValue(s[..|s| - 1]) + ((s[|s| - 1] as int) - ('0' as int))
  }

  lemma {:induction false} DecimalRoundTrip(n: nat)
    ensures DecimalValue(Decimal(n)) == n
    decreases n
  {
    if n < 10 {
      assert Decimal(n) == [DigitChar(n)];
      assert "0123456789"[n] as int - '0' as int == n;
    } else {
      DecimalRoundTrip(n / 10);
      var s := Decimal(n);
      var p := Decimal(n / 10);
      assert s == p + [DigitChar(n % 10)];
      assert s[..|s| - 1] == p;
      assert "0123456789"[n % 10] as int - '0' as int == n % 10;
    }
  }

  const EPSG_PREFIX: string := "epsg:"

  /** The `image_crs` text a configuration writes: `'epsg:{}'.format(crs.to_epsg())`.
      A CRS without an EPSG code formats as `epsg:None`. */
  function EpsgInit(crs: Crs): (s: string)
    ensures |s| > |EPSG_PREFIX| && s[..|EPSG_PREFIX|] == EPSG_PREFIX
    ensures crs.EpsgCrs? ==> s == EPSG_PREFIX + Decimal(crs.code)
    ensures crs.OtherCrs? ==> s == EPSG_PREFIX + "None"
  {
    match ToEpsg(crs)
    case Some(code) => EPSG_PREFIX + Decimal(code)
    case None => EPSG_PREFIX + "None"
  }

  /** `CRS({'init': s})` for the initialisation strings this plugin writes:
      `epsg:` followed by a non-empty run of decimal digits names that EPSG
      code; anything else is rejected. */
  function CrsFromInit(s: string): (r: Option<Crs>)
    ensures r.Some? ==> r.value.EpsgCrs?
    ensures r.Some? <==> |s| > |EPSG_PREFIX| && s[..|EPSG_PREFIX|] == EPSG_PREFIX && AllDigits(s[|EPSG_PREFIX|..])
  {
    if |s| > |EPSG_PREFIX| && s[..|EPSG_PREFIX|] == EPSG_PREFIX && AllDigits(s[|EPSG_PREFIX|..])
    then Some(EpsgCrs(DecimalValue(s[|EPSG_PREFIX|..])))
    else None
  }

  /** Reading back what `EpsgInit` wrote gives the same CRS exactly when the
      CRS has an EPSG code. */
  lemma {:induction false} CrsInitRoundTrip(crs: Crs)
    ensures crs.EpsgCrs? ==> CrsFromInit(EpsgInit(crs)) == Some(crs)
    ensures crs.OtherCrs? ==> CrsFromInit(EpsgInit(crs)) == None
  {
    var s := EpsgInit(crs);
    if crs.EpsgCrs? {
      DecimalRoundTrip(crs.code);
      assert s[|EPSG_PREFIX|..] == Decimal(crs.code);
    } else {
      assert s[|EPSG_PREFIX|..] == "None";
      assert !IsDigit(s[|EPSG_PREFIX|..][0]);
    }
  }

  /** The 6-list `[a, b, c, d, e, f]` a configuration writes for a transform. */
  function Coefficients(t: Affine): (xs: seq<real>)
    ensures |xs| == 6
    ensures xs[0] == t.a && xs[1] == t.b && xs[2] == t.c
    ensures xs[3] == t.d && xs[4] == t.e && xs[5] == t.f
  {
    [t.a, t.b, t.c, t.d, t.e, t.f]
  }

  /** The third row `g, h, i` of an affine matrix, as far as it is given:
      a prefix of `0, 0, 1`, the values the constructor defaults to. */
  const THIRD_ROW: seq<real> := [0.0, 0.0, 1.0]

  predicate IsThirdRowPrefix(rest: seq<real>) {
    |rest| <= |THIRD_ROW| && rest == THIRD_ROW[..|rest|]
  }

  /** The arity `Affine(*xs)` accepts: `a..f`, and optionally `g, h, i`. */
  predicate AffineArity(xs: seq<real>) {
    6 <= |xs| <= 9
  }

  /** `Affine(*xs)`: the six coefficients `a..f` in order, followed by at
      most three more (`g, h, i`), which must be those of an affine
      matrix's last row, `0, 0, 1`. */
  function AffineFromCoefficients(xs: seq<real>): (r: Option<Affine>)
    ensures r.Some? <==> AffineArity(xs) && IsThirdRowPrefix(xs[6..])
    ensures r.Some? ==> Coefficients(r.value) == xs[..6]
  {
    if AffineArity(xs) && IsThirdRowPrefix(xs[6..])
    then Some(Affine(xs[0], xs[1], xs[2], xs[3], xs[4], xs[5]))
    else None
  }

  /** The constructor also accepts the full 3x3 matrix of a transform. */
  lemma AffineFromMatrix(t: Affine)
    ensures AffineFromCoefficients(Coefficients(t) + THIRD_ROW) == Some(t)
    ensures forall g: real :: g != 0.0 ==> AffineFromCoefficients(Coefficients(t) + [g]).None?
  {
    var xs := Coefficients(t) + THIRD_ROW;
    assert xs[6..] == THIRD_ROW;
    assert xs[..6] == Coefficients(t);
    forall g: real | g != 0.0
      ensures AffineFromCoefficients(Coefficients(t) + [g]).None?
    {
      assert (Coefficients(t) + [g])[6..] == [g];
      assert THIRD_ROW[..1] == [0.0];
    }
  }

  lemma CoefficientsRoundTrip(t: Affine)
    ensures AffineFromCoefficients(Coefficients(t)) == Some(t)
  {
  }
}

/** JSON-like values as Python holds them (dicts, lists, strings, numbers,
    `None`) and the exceptions dictionary access raises. */
module Values {
  import opened Wrappers
  import opened Geo

  /** A Python value as it appears in configs, API responses and features.
      `Transformer` carries a CRS transformer object, which is not JSON. */
  datatype Value =
    | Null
    | Bool(b: bool)
    | Int(i: int)
    | Num(x: real)
    | Str(s: string)
    | List(items: seq<Value>)
    | Dict(entries: map<Value, Value>)
    | Transformer(t: CrsTransformer)

  /** The exceptions the modelled code can raise. */
  datatype Error =
    | KeyError(key: Value)
    | TypeError
    | IndexError
    | ValueError
    | AttributeError(name: string)
    | HttpError(status: int)

  datatype Result<+T> = Ok(value: T) | Err(error: Error) {
    predicate IsFailure() {
      Err?
    }

    function PropagateFailure<U>(): Result<U>
      requires Err?
    {
      Err(error)
    }

    function Extract(): T
      requires Ok?
    {
      value
    }
  }

  /** Python truthiness, as used by `while x:` and `x or default`. */
  predicate Truthy(v: Value) {
    match v
    case Null => false
    case Bool(b) => b
    case Int(i) => i != 0
    case Num(x) => x != 0.0
    case Str(s) => s != ""
    case List(items) => items != []
    case Dict(entries) => entries != map[]
    case Transformer(_) => true
  }

  /** `v[key]` on a dict: the entry, `KeyError` when it is missing, and
      `TypeError` when `v` is not a dict. */
  function Get(v: Value, key: Value): (r: Result<Value>)
    ensures r.Ok? <==> v.Dict? && key in v.entries
    ensures r.Ok? ==> r.value == v.entries[key]
    ensures !v.Dict? ==> r == Err(TypeError)
    ensures v.Dict? && key !in v.entries ==> r == Err(KeyError(key))
  {
    if !v.Dict? then Err(TypeError)
    else if key in v.entries then Ok(v.entries[key])
    else Err(KeyError(key))
  }

  /** `v["name"]`, the usual string-keyed access. */
  function Field(v: Value, name: string): Result<Value> {
    Get(v, Str(name))
  }

  /** A value that must be a list, as `len(v)` or `for x in v` needs. */
  function Items(v: Value): (r: Result<seq<Value>>)
    ensures r.Ok? <==> v.List?
    ensures r.Ok? ==> r.value == v.items
  {
    if v.List? then Ok(v.items) else Err(TypeError)
  }

  /** A string-keyed JSON object built from `(name, value)` pairs. */
  function Object(m: map<string, Value>): (v: Value)
    ensures v.Dict?
    ensures forall k :: Str(k) in v.entries <==> k in m
    ensures forall k :: k in m ==> v.entries[Str(k)] == m[k]
  {
    Dict(map k | k in m :: Str(k) := m[k])
  }

  /** A protobuf `Struct` (`custom_config`) read by key: a missing key is
      an error (the library raises `ValueError` for an unset value). */
  function StructGet(s: map<string, Value>, key: string): (r: Result<Value>)
    ensures r.Ok? <==> key in s
    ensures r.Ok? ==> r.value == s[key]
  {
    if key in s then Ok(s[key]) else Err(ValueError)
  }

  /** A protobuf config message: the top-level fields its schema declares,
      and the free-form `custom_config` struct. */
  datatype ConfigMsg = ConfigMsg(fields: map<string, Value>, customConfig: map<string, Value>)

  /** `msg.name` on a protobuf message: `AttributeError` when the message
      type declares no such field. */
  function MsgField(msg: ConfigMsg, name: string): (r: Result<Value>)
    ensures r.Ok? <==> name in msg.fields
    ensures r.Ok? ==> r.value == msg.fields[name]
  {
    if name in msg.fields then Ok(msg.fields[name]) else Err(AttributeError(name))
  }

  /** The host names the builders and services default to. */
  const STAGING_RF_API_HOST: string := "app.staging.rasterfoundry.com"
  const STAGING_VISION_API_HOST: string := "prediction.staging.rasterfoundry.com"
}
